=== FILE: README.md ===
# Man 4 Hire backend — a Dafny model

This project models the request-handling core of the Man 4 Hire backend. The backend is an Express API over a document database; it serves a handyman business:
customers submit work orders (with uploaded photos) and work requests, read
the service catalogue and the gallery, and send contact messages; the
administrator logs in, lists and updates everything, and reads a dashboard.

The model has these parts:

- **Collections** (`table.dfy`, `store.dfy`): each collection is a `Table<T>` class.
  - Its fields are a map from id to document and the next id to hand out. Documents carry `_id`, `createdAt`, `updatedAt` and the schema fields.
  - Its invariant says every stored document satisfies the schema's validators.
  - `find`, `findById`, `countDocuments`, `create`, `insertMany`, `findByIdAndUpdate` and `findByIdAndDelete` are its functions and methods. "Natural order" is increasing id.
  - `Store` holds the six collections.
- **Schemas** (`workorder.dfy`, `workrequest.dfy`, `service.dfy`, `contactmessage.dfy`, `galleryimage.dfy`, `user.dfy`, `status.dfy`, `schema.dfy`):
  - the required, trimmed, lower-cased, length-limited and enum paths and their defaults;
  - the User document with its pre-save hashing hook, `comparePassword` and `toJSON`.
- **Request bodies** (`values.dfy`): a body field is `Absent` (undefined), `Null`, `Str`, `Bool` or `Num`. JavaScript truthiness, `String(v)`, `parseFloat` and mongoose's Boolean cast are spelled out. The e-mail regular expression `/^[^\s@]+@[^\s@]+\.[^\s@]+$/` is written as an executable test and proved equal to its pattern (`email.dfy`).
- **Routers**, one module per router:
  - every route's checks, in the order the handler makes them, with the exact status and error text of each refusal;
  - the stored document the route builds;
  - what the collection holds afterwards.
  - Listings are stated as "a window of the matching documents in some order sorted by the route's key". `skip`/`limit` and `Math.ceil` pagination are included.
  - Aggregations (service categories, work-request summary) are stated by what each group row counts.
- **config/database.js** (`database.dfy`):
  - seeding of the default services and the bootstrap admin, which is idempotent;
  - `dbHelpers.run`;
  - `getDashboardStats`: counts by status, the top five service types of the last 30 days, and the per-day order counts of the last 7 days.
- **server.js** (`server.dfy`):
  - the CORS origin callback;
  - the token gate in front of the work-order router;
  - the guarded dashboard route;
  - the error handler;
  - the final `GET *` handler.

`GET /api/auth/me` answers the authenticated admin's `AuthRoutes.View`, the same object a login answers. It has no separate member.

## Model

| member | source | states |
|---|---|---|
| RecordStore.Table.Find | config/database.js:148-154 | `findById`/`findOne` by id returns a document exactly when one is stored under that id, and it is that document |
| RecordStore.Table.Records | config/database.js:139-146 | `find()` lists every stored document exactly once, in natural (id) order |
| RecordStore.Table.CountSpec | config/database.js:194-199 | `countDocuments(filter)` equals the number of stored ids whose document matches the filter |
| RecordStore.Table.Select | routes/workOrders.js:52-62 | `find(filter).sort(key).skip(s).limit(l)` is a window of the matching documents in some sorted order, holds only matching documents and at most `l` of them |
| RecordStore.Table.SelectAll | routes/services.js:22 | `find(filter).sort(key)` is a sorted permutation of the matching documents |
| RecordStore.Table.Create | routes/workOrders.js:184-199 | `create` stores the data under a fresh id stamped `now` and appends it to natural order, keeping the collection valid |
| RecordStore.Table.Replace | routes/workOrders.js:241-245 | `findByIdAndUpdate` on an existing document replaces its fields and stamps `updatedAt`, touching no other document |
| RecordStore.Table.Delete | routes/workOrders.js:266-270 | `findByIdAndDelete` returns the removed document (or none) and removes exactly that id |
| RecordStore.Table.CreateAll | config/database.js:106 | `insertMany` appends one document per item, in order, after the existing ones |
| RecordStore.Table.EmptyRecords | config/database.js:36-38 | `countDocuments() === 0` exactly when the collection holds no document |
| Ordering.ListingSpec | routes/workOrders.js:52-62 | sorting, then skipping `(page-1)*limit` and taking `limit` yields a window of a sorted permutation of the matches, only matches, at most `limit` |
| Ordering.CeilDiv | routes/workOrders.js:106 | `Math.ceil(total / limit)` pages cover every match and no page is empty |
| Ordering.GroupCountSpec | routes/workRequests.js:195-202 | a `$group` with `$sum: 1` yields each key once, counts each key's occurrences exactly, and the counts add up to the number of documents |
| Ordering.PermutedGrouping | config/database.js:212 | `$sort` after `$group` reorders the rows and keeps them a grouping: distinct keys, exactly the grouped keys, exact counts |
| Ordering.GroupSortSpec | config/database.js:205-212 | grouping and then sorting keeps the keys distinct, the counts exact and their sum the number of documents |
| Email.IsEmailMatchesPattern | routes/workOrders.js:162-165 | the executable e-mail test accepts exactly the strings `/^[^\s@]+@[^\s@]+\.[^\s@]+$/` matches |
| Email.EmailIsTrimmed | models/WorkOrder.js:15-20 | an accepted address has no whitespace, so the schema's `trim` leaves it unchanged |
| Values.TextOfNonStringHasNoAt | routes/contact.js:21-24 | only a string body value can pass the e-mail check, since `String(v)` of any other value has no `@` |
| Values.ParseNonNegative | routes/services.js:99-103 | `parseFloat` of a natural number's decimal text gives that number back |
| Values.ParseNegative | routes/services.js:99-103 | `parseFloat` of '-' followed by a natural number's text gives the negative number |
| Values.CastBoolean | models/GalleryImage.js:25-28 | the Boolean cast keeps booleans and null, reads 'true', '1', 'yes' and 1 as true and 'false', '0', 'no' and 0 as false, and fails on every other text or number |
| Strings.TrimSpec | models/WorkOrder.js:10-14 | `trim` yields a trimmed string and leaves a trimmed one alone, so a stored text is stable |
| Strings.JoinSplit | server.js:38-40 | splitting a comma-joined list whose entries have no comma gives the list back |
| Schema.RequiredText | models/WorkOrder.js:10-14 | a required trimmed path stores the trimmed text, and fails exactly for undefined, null or whitespace-only values |
| Schema.OptText | models/WorkOrder.js:21-24 | an optional trimmed path given a truthy value stores its trimmed text, and otherwise stores nothing |
| Schema.SetText | routes/workOrders.js:227-235 | a defined update value is stored trimmed, and null clears the path |
| Schema.OptDate | models/WorkOrder.js:44-46 | an optional date path is stored when the value is truthy |
| Schema.SetDate | routes/gallery.js:142-162 | an update's date value is set when defined, and cleared by null |
| Schema.LowerText | models/ContactMessage.js:10-15 | a lower-cased trimmed path stores the lower-case text, which for an accepted address is the address lower-cased |
| Schema.DefinedText | routes/gallery.js:142-162 | a body field enters the update exactly when it is not `undefined`, trimmed as the schema stores it |
| JobStatus.StatusOf | models/WorkOrder.js:55-59 | a value is accepted by the status enum exactly when it is one of the four status names, and decodes to that status |
| JobStatus.StatusNameAccepted | models/WorkRequest.js:32-36 | every status's name passes the enum and decodes back to the same status |
| JobStatus.NewStatus | routes/workOrders.js:222-225 | a status enters an update only when truthy and one of the enum names, and every truthy valid name does |
| WorkOrderModel.PriorityNamed | models/WorkOrder.js:39-43 | the priority enum accepts exactly the four priority names |
| WorkOrderModel.PriorityNameAccepted | models/WorkOrder.js:39-43 | each priority's name decodes back to it |
| WorkRequestModel.UrgencyOf | models/WorkRequest.js:20-25 | the urgency enum accepts exactly the four urgency names |
| WorkRequestModel.UrgencyNameAccepted | models/WorkRequest.js:20-25 | each urgency's name decodes back to it |
| WorkRequestModel.PreferenceOf | models/WorkRequest.js:26-31 | the service-preference enum accepts exactly the two preference names |
| WorkRequestModel.PreferenceNameAccepted | models/WorkRequest.js:26-31 | each preference's name decodes back to it |
| ServiceModel.DefaultUnitTrimmed | models/Service.js:23-27 | the default unit 'per hour' survives `trim` unchanged |
| ContactModel.ContactStatusOf | models/ContactMessage.js:25-29 | the contact status enum accepts exactly 'unread', 'read' and 'replied' |
| ContactModel.ContactStatusNameAccepted | models/ContactMessage.js:25-29 | each contact status's name decodes back to it |
| Credentials.HashThenVerify | models/User.js:65-67 | comparing a candidate with the hash of a password succeeds exactly when the candidate is that password |
| UserModel.HookedPassword | models/User.js:53-63 | the pre-save hook hashes a modified plain password and leaves everything else unchanged |
| UserModel.SavedPasswordMatches | models/User.js:53-67 | after a save the stored hash matches exactly the password set; a second save without modification changes nothing; plain text never matches |
| UserModel.User.constructor | models/User.js:4-51 | a new user stores the trimmed lower-cased e-mail, trimmed names, phone and address, role 'user' and active, with the password pending hashing |
| UserModel.User.SetPassword | models/User.js:13-17 | assigning `passwordHash` marks it modified and leaves every other path alone |
| UserModel.User.Save | models/User.js:53-63 | save succeeds exactly when the validators pass (a blank phone passes, as the `match` validator skips empty strings); it then hashes the password if modified and clears the modified flag, and otherwise changes nothing |
| UserModel.User.ComparePassword | models/User.js:65-67 | `comparePassword` can succeed only against a hashed password |
| UserModel.User.ToJSON | models/User.js:69-73 | the serialised user has every path of the document except `passwordHash`, and no password field of any kind |
| UserModel.ChangePasswordAndSave | models/User.js:53-67 | setting a password and saving succeeds exactly when the password is long enough and the user valid, and then `comparePassword` accepts exactly that password |
| Collections.Admit | routes/contact.js:26-36 | a rejected document answers its error and stores nothing; an accepted one is stored under a fresh id and answered 201 |
| Collections.Revise | routes/contact.js:87-95 | an update of a missing id answers 404 and changes nothing; otherwise exactly that document is patched and stamped |
| Collections.Store.constructor | config/database.js:23-30 | the store starts with six empty, valid collections |
| WorkOrderRoutes.List | routes/workOrders.js:41-67 | GET / answers one page of the orders matching the optional status, newest first, only matching orders, at most `limit` |
| WorkOrderRoutes.OwnOrders | routes/workOrders.js:87-106 | the customer's page holds only that user's orders with the optional status, newest first; the total counts all of them and the page count is its ceiling over `limit` |
| WorkOrderRoutes.MyOrders | routes/workOrders.js:70-115 | no token is 401; a 'JsonWebTokenError' is 401 and any other verification error 500; a non-user role is 403; a user token gets exactly its own orders |
| WorkOrderRoutes.Get | routes/workOrders.js:118-135 | a malformed id is 400, an unknown one 404, and a known one answers the stored order |
| WorkOrderRoutes.OptionalOwner | routes/workOrders.js:168-179 | a submission is owned by the token's user exactly when the token verifies with role 'user' |
| WorkOrderRoutes.StoredImages | routes/workOrders.js:182 | one stored path per uploaded file, in upload order, each trimmed |
| WorkOrderRoutes.StoredImageExact | routes/workOrders.js:182 | a generated file name is stored as '/uploads/work-orders/' followed by the name |
| WorkOrderRoutes.PriorityCast | routes/workOrders.js:138-152 | a missing priority defaults to 'medium', null clears it, and any other value is kept only when it names a priority |
| WorkOrderRoutes.OrderDraft | routes/workOrders.js:155-199 | a missing required field or a bad e-mail is 400 with the route's message; once those checks pass any refusal is the 500 for a document the schema refuses; the draft is accepted exactly when the four fields are present, the e-mail is well formed, the required texts are not blank once trimmed and the priority casts; the stored order has the trimmed fields, the lower-cased e-mail, status 'pending', no owner and the upload paths |
| WorkOrderRoutes.NewOrder | routes/workOrders.js:168-199 | an accepted order is valid and owned exactly by the optional owner |
| WorkOrderRoutes.OwnerOnlyAffectsUserId | routes/workOrders.js:168-179 | the token never decides whether a submission is accepted or how it is refused; it only sets the owner |
| WorkOrderRoutes.Submit | routes/workOrders.js:138-209 | a refused submission answers its error and stores nothing; an accepted one is stored under a fresh id and answered 201 |
| WorkOrderRoutes.PatchOrder | routes/workOrders.js:227-235 | the update sets a validated status and a defined `notes` and changes nothing else, keeping the order valid |
| WorkOrderRoutes.Update | routes/workOrders.js:212-259 | checks run in order: malformed id 400, bad status 400, empty update 400, unknown id 404, each changing nothing; when every check passes and the order exists the update succeeds and patches exactly that order |
| WorkOrderRoutes.Delete | routes/workOrders.js:262-281 | a malformed id is 400; otherwise exactly that id is removed, answering 404 when it was not there |
| WorkRequestRoutes.List | routes/workRequests.js:9-45 | one page of the requests matching the truthy filters, newest first, with the exact match count and its page count |
| WorkRequestRoutes.Get | routes/workRequests.js:48-65 | a malformed id is 400, an unknown one 404, and a known one answers the stored request |
| WorkRequestRoutes.NewRequest | routes/workRequests.js:68-104 | missing fields 400, bad urgency 400, bad preference 400, in that order; once those pass any refusal is the 500 of a schema failure; otherwise a valid pending request with the given enums and trimmed texts |
| WorkRequestRoutes.Submit | routes/workRequests.js:68-114 | a refused submission answers its error and stores nothing; an accepted one is stored under a fresh id and answered 201 |
| WorkRequestRoutes.PatchRequest | routes/workRequests.js:132-144 | the update sets a validated status and any defined `notes` and `assignedTo`, and nothing else, keeping the request valid |
| WorkRequestRoutes.Update | routes/workRequests.js:117-168 | malformed id 400, bad status 400, empty update 400 and unknown id 404 change nothing; when every check passes and the request exists the update succeeds and patches exactly that request |
| WorkRequestRoutes.Delete | routes/workRequests.js:171-190 | a malformed id is 400; otherwise exactly that id is removed, answering 404 when it was not there |
| WorkRequestRoutes.Group | routes/workRequests.js:195-220 | each `$group` lists every key once with its exact count, and the counts add up to the number of requests |
| WorkRequestRoutes.Stats | routes/workRequests.js:193-234 | the summary's total is the number of requests, and each of the three groupings accounts for every request once |
| ServiceRoutes.ByCategoryThenNameOrders | routes/services.js:22 | the `{ category: 1, name: 1 }` order is a total preorder |
| ServiceRoutes.List | routes/services.js:8-29 | GET / answers every service matching `active_only` (default true) and the category, each once, sorted by category then name |
| ServiceRoutes.ActiveCategories | routes/services.js:35-38 | a category is listed exactly when some active service has it |
| ServiceRoutes.InCategory | routes/services.js:35-42 | a group holds exactly the active services of its category |
| ServiceRoutes.AccumulateSpec | routes/services.js:36-42 | a category row counts its services, and its minimum and maximum price are attained by its services and bound all of them |
| ServiceRoutes.CategoryKeys | routes/services.js:36-53 | the group keys are the active categories, each once, ascending |
| ServiceRoutes.CategoryTable | routes/services.js:32-61 | rows built from those keys are ascending and distinct, with one row per active category, each accumulating exactly its services |
| ServiceRoutes.Categories | routes/services.js:32-61 | GET /categories answers one row per active category, ascending, each with its count and price range |
| ServiceRoutes.SortedNoDups | routes/services.js:53 | sorting distinct keys keeps them distinct |
| ServiceRoutes.Get | routes/services.js:64-77 | a malformed id is a cast error (500), an unknown one 404, and a known one answers the stored service |
| ServiceRoutes.NewService | routes/services.js:80-113 | missing fields 400 and a bad price 400; once those pass any refusal is the 500 of a schema or cast failure; the service is accepted exactly when the fields are present, the price parses non-negative, name and category are not blank once trimmed and `isActive` casts; it has the trimmed fields, the parsed price, and 'per hour' and active by default |
| ServiceRoutes.ZeroPrice | routes/services.js:93-103 | a numeric price 0 is reported as missing, while the text "0" passes the price check |
| ServiceRoutes.Create | routes/services.js:80-123 | a refused service answers its error and stores nothing; an accepted one is stored under a fresh id and answered 201 |
| ServiceRoutes.ApplyPatch | routes/services.js:161-165 | `$set` changes exactly the named fields, and a valid patch keeps the service valid |
| ServiceRoutes.ServiceChanges | routes/services.js:139-159 | a bad price or an empty update is 400; once those pass any refusal is the 500 of a cast failure; the update is accepted exactly when neither holds and the cast succeeds; the patch holds exactly the fields the body sets, as the route transforms them |
| ServiceRoutes.CastPatch | routes/services.js:161-165 | the cast fails exactly when a given name or category trims to nothing or `isActive` does not cast; otherwise the update holds the trimmed texts the body gives |
| ServiceRoutes.Update | routes/services.js:126-179 | body errors are 400, a malformed id or a cast failure 500, and an unknown id 404, each changing nothing; an accepted update of an existing service succeeds and patches exactly that service |
| ServiceRoutes.Delete | routes/services.js:182-197 | a malformed id is 500; otherwise exactly that id is removed, answering 404 when it was not there |
| GalleryRoutes.FeaturedFirstOrders | routes/gallery.js:54 | `{ isFeatured: -1, createdAt: -1 }` is a total preorder |
| GalleryRoutes.FeaturedLead | routes/gallery.js:54 | in that order no unfeatured image precedes a featured one, and each group runs newest first |
| GalleryRoutes.List | routes/gallery.js:38-68 | one page of the images matching the category and `featured_only`, featured first then newest, only matches, at most `limit` |
| GalleryRoutes.Get | routes/gallery.js:71-88 | a malformed id is 400, an unknown one 404, and a known one answers the stored image |
| GalleryRoutes.UploadUrl | routes/gallery.js:105 | the stored URL of an upload is non-empty, starts with '/', and is '/uploads/gallery/' plus a trimmed file name |
| GalleryRoutes.NewImage | routes/gallery.js:91-114 | no file is 400 and is the only refusal; otherwise a valid image with the upload URL, the truthy metadata trimmed, and featured only for 'true' or true |
| GalleryRoutes.Create | routes/gallery.js:91-124 | no file answers 400 and stores nothing; otherwise the image is stored under a fresh id and answered 201 |
| GalleryRoutes.ApplyPatch | routes/gallery.js:168-172 | the update changes exactly the named fields, never the image URL, and keeps the image valid |
| GalleryRoutes.ImageChanges | routes/gallery.js:142-166 | an update naming no field is 400; otherwise every defined field is set as given, null clearing it and `isFeatured` coerced |
| GalleryRoutes.Update | routes/gallery.js:127-186 | malformed id 400, empty update 400 and unknown id 404 change nothing; an update that sets something on an existing image succeeds and patches exactly that image |
| GalleryRoutes.Delete | routes/gallery.js:189-208 | a malformed id is 400; otherwise exactly that id is removed, answering 404 when it was not there |
| ContactRoutes.NewMessage | routes/contact.js:9-31 | missing fields 400 and a bad e-mail 400; once those pass any refusal is the 500 for a whitespace-only name or message; otherwise an unread message with trimmed texts and the lower-cased address |
| ContactRoutes.Submit | routes/contact.js:9-41 | a refused message answers its error and stores nothing; an accepted one is stored and answered 201 with its id |
| ContactRoutes.List | routes/contact.js:44-70 | one page of the messages with the optional status, newest first, only matches, at most `limit` |
| ContactRoutes.Update | routes/contact.js:73-102 | malformed id 400, bad status 400 and unknown id 404 change nothing; a valid status for an existing message succeeds, and only that message's status changes |
| AuthRoutes.FirstMatch | routes/auth.js:21-23 | `findOne` by username or e-mail picks the first record in natural order that the name identifies, and none exactly when no record does |
| AuthRoutes.Authenticate | routes/auth.js:12-33 | missing fields 400; an unknown name or a wrong password 401 with the same message; a non-string password 500; success exactly for the matching record and password |
| AuthRoutes.Login | routes/auth.js:12-60 | a refused login changes nothing; a successful one stamps only that admin's `lastLogin`, signs its id, name and role, and answers the view read before the stamp |
| AuthRoutes.NewAdmin | routes/auth.js:63-100 | missing fields 400, an existing admin 403, a bad e-mail 400 and a short string password 400, in that order; otherwise an admin whose hash matches exactly the given password |
| AuthRoutes.Register | routes/auth.js:63-115 | once any admin exists nothing is created; otherwise the first admin is stored and answered 201 |
| AuthRoutes.RegisterThenLogin | routes/auth.js:21-33 | the bootstrap admin can log in by name or by e-mail with the registered password, and with no other |
| AuthRoutes.PasswordChange | routes/auth.js:131-152 | missing fields 400, a non-string current password 500, a wrong one 401 and a short new one 400; otherwise the new password's text |
| AuthRoutes.ChangePassword | routes/auth.js:131-165 | a refusal changes nothing; success rewrites only that admin's `passwordHash` and answers 200 |
| Database.EnvOr | config/database.js:114-116 | `process.env.X \|\| fallback` gives the configured value when it is set and non-empty, and the fallback otherwise |
| Database.DefaultServicesValid | config/database.js:39-104 | each of the eight default services satisfies the Service schema |
| Database.DefaultAdmin | config/database.js:114-123 | the bootstrap admin takes the configured name and e-mail, or 'admin' and 'admin@hudsonconstruction.com' when they are unset or empty, has role 'admin', and its hash matches exactly the configured or default password |
| Database.SeedServices | config/database.js:36-108 | an empty services collection receives the eight defaults in order; a non-empty one is left alone; afterwards it is non-empty |
| Database.SeedAdmin | config/database.js:111-123 | an empty admin collection receives exactly the bootstrap admin; a non-empty one is left alone |
| Database.SeedDefaultData | config/database.js:33-123 | seeding fills only empty collections, and afterwards neither is empty, so seeding again changes nothing |
| Database.Run | config/database.js:157-176 | 'create' stores under a fresh id and reports one change; 'update' overwrites the keyed document with the whole of `data`; 'delete' removes it; each reports whether it matched; any other operation throws 'Invalid operation' |
| Database.TopServicesRanked | config/database.js:200-213 | at most five service types, by non-increasing count, distinct, each counted exactly, and any type left out has no more orders than the last kept |
| Database.DailyCounted | config/database.js:222-244 | one entry per day with orders, ascending by day, each counted exactly, adding up to the number of orders |
| Database.StatusPartition | config/database.js:194-196 | the four status counts of the work orders add up to the number of work orders |
| Database.TopServicesCount | config/database.js:200-209 | each popular service's count is the number of orders of that type in the 30-day window |
| Database.Dashboard | config/database.js:182-260 | each count is the number of matching documents; the popular list ranks the last 30 days' service types; the weekly list counts the last 7 days' orders per day |
| Server.CorsAllows | server.js:33-54 | no or empty origin passes; a listed or '.vercel.app' origin passes; any other is refused |
| Server.CorsConfigured | server.js:33-54 | with `ALLOWED_ORIGINS` set to a comma-joined list, exactly the listed origins, the Vercel domains and origin-less requests pass |
| Server.CorsDefaults | server.js:38-40 | unconfigured, the local development server on 5173 passes and an unlisted local port does not |
| Server.AuthenticateToken | server.js:89-100 | a verified token passes, and anything else is 401 |
| Server.RequireAdmin | server.js:103-111 | the admin role passes, and any other role is 403 |
| Server.WorkOrderGate | server.js:89-100 | any POST and `GET /my-orders` pass without a token; every other work-order request needs a verified token, else 401 |
| Server.HandleError | server.js:158-184 | an upload size or count error is 400 and a unique violation 409, each with its message; anything else keeps its status (500 when none), with the detail only in development |
| Server.CatchAll | server.js:187-206 | an unmatched GET under '/api' is the JSON 404 listing the API routes; anything else serves index.html |
| Server.AdvertisedRoutesAreApi | server.js:187-206 | every route the 404 advertises is itself under '/api' |
| Server.DashboardRoute | server.js:103-111 | no valid token is 401, a non-admin 403, and an admin receives the dashboard statistics of the current store |

## Left out

- Password hashing is an idealised bcrypt: `Hash(password, salt)` verifies exactly its own password. The cost factor, the salt encoding and the 72-byte truncation are not modelled.
- JWT signing and verification are not modelled. The routes receive a `TokenCheck`: no token; a verified token with the user's id, name and role; or an invalid token with the error's name. Extracting the token from the `Authorization` header is left out.
- middleware/auth.js, routes/userAuth.js and models/AdminUser.js are not part of this model:
  - `authenticateToken` is modelled as `Server.AuthenticateToken`, from its use;
  - `requireAdmin` is modelled as `Server.RequireAdmin`, which accepts the role 'admin';
  - the admin schema is taken to accept any record (`Credentials.AnyAdmin`).
- Uploads: multer's disk storage, the uuid file names, the extension and the mimetype filter are left out. The model receives the stored file names. A mimetype refusal reaches the error handler as an ordinary error, so it is answered 500.
- Dates are kept as the text of the body value. The `Date` cast and its cast errors are not modelled.
- `dayKey`: the weekly activity groups by integer day number (`createdAt` in milliseconds divided by one day) rather than by the `%Y-%m-%d` string. The two agree in UTC.
- `parseFloat`: exponents, `Infinity` and hexadecimal forms are not modelled. JSON numbers in a body are integers in the model; fractional prices arrive as text.
- Lengths are counted in characters (`|s|`), where JavaScript's `.length` counts UTF-16 code units. The two differ for characters outside the Basic Multilingual Plane, so the password-length checks and the schema's `minlength`/`maxlength` may disagree with the source on such text.
- `toLowerCase` covers the ASCII letters only. `trim`, the `\s` class of the e-mail test and `parseFloat`'s leading-whitespace skip use JavaScript's full whitespace set.
- `page` and `limit` are taken as positive integers. The routes' defaults for a missing parameter (page 1, limit 20) are applied before the List members and are not stated by them. Non-numeric, zero or negative query values and repeated query parameters (arrays) are not modelled.
- The order among documents with equal sort keys is unspecified: listings are stated for some sorted arrangement, and the popular-services ranking for any order of equal counts.
- Success message texts of updates and the shape of the JSON envelopes are not modelled, beyond the status and the fields stated.
- `AuthRoutes.Login`, `AuthRoutes.ChangePassword`: both stamp the admin document's `updatedAt`, on the assumption that the admin schema has timestamps like the other models; models/AdminUser.js is not part of this model.
- `AuthRoutes.ChangePassword`: the admin schema's treatment of the written `passwordHash` is a parameter (`stored`), since models/AdminUser.js is not part of this model.
- `AuthRoutes.Register`: the 409 answer for a duplicate key cannot arise, because creation happens only when no admin exists, so it is not modelled.
- `Database.Run`:
  - 'update' is modelled as a whole-document overwrite. `updateOne` wraps plain data in `$set`, which changes only the paths `data` carries, so a partial update is not expressible in the model;
  - 'update' reports one change whenever the key exists, although `modifiedCount` is 0 when the new data equals the stored data;
  - data the schema refuses is refused, although mongoose's `updateOne` does not run validators;
  - the filter is only `{ _id: key }`;
  - the thrown validation message is a stand-in for mongoose's.
- Database errors and connection handling are not modelled: the 500 of each route's `catch`, `getDashboardStats` rethrowing, `connectDB`, and the concurrency of `Promise.all`.
- `dbHelpers.query` and `dbHelpers.get` are modelled as `RecordStore.Table.Records` and `RecordStore.Table.Find`, with no filter or options.
- The `/me` route has no member of its own. It answers `AuthRoutes.View` of the authenticated admin.
- `AuthRoutes.Authenticate`: an expired or revoked admin account is not distinguished, since the admin schema is not part of this model.
- `Server.AdminOrdersNeedToken` follows from `Server.WorkOrderGate`'s contract. It restates, for the admin verbs, that they need a verified token.
- server.js's helmet, rate limiter, body parsers, static serving, upload directory creation, health and docs routes, `listen` and signal handling are outside the model. So are scripts/* and the console logging.
- Where the repository's written description differs from the code, the model follows the code:
  - on `GET /my-orders` an expired token is answered 500, because only `JsonWebTokenError` is mapped to 401;
  - an upload of the wrong type is answered 500, not 400;
  - the contact status enum is 'unread', 'read', 'replied'.

=== FILE: auth_routes.dfy ===
/**
 * The `/api/auth` router: admin login by username or e-mail, the
 * registration that only bootstraps the first admin, the `/me` echo and the
 * password change. Token signing and the `authenticateToken` middleware are
 * outside the model: a handler behind the middleware receives the
 * authenticated admin's document.
 */
module AuthRoutes {
  import opened Wrappers
  import opened Values
  import opened Email
  import opened RecordStore
  import opened Http
  import opened Credentials
  import opened Collections

  /** The claims signed into the login token. */
  datatype Claims = Claims(userId: Id, username: string, role: string)

  /** The user object of a login or `/me` response: the hash is not among its fields. */
  datatype AdminView = AdminView(id: Id, username: string, email: string, role: string, lastLogin: Option<int>)

  datatype Session = Session(claims: Claims, user: AdminView)

  function View(d: Doc<AdminUser>): AdminView
  {
    AdminView(d.id, d.data.username, d.data.email, d.data.role, d.data.lastLogin)
  }

  /** `{ $or: [{ username }, { email: username }] }` for one record. */
  predicate Identifies(a: AdminUser, key: string)
  {
    a.username == key || a.email == key
  }

  /** `findOne`: the position of the first record, in natural order, that the login name identifies. */
  function FirstMatch(records: seq<Doc<AdminUser>>, key: string): (r: Option<nat>)
    ensures r.Some? ==> r.value < |records| && Identifies(records[r.value].data, key)
    ensures r.Some? ==> forall j :: 0 <= j < r.value ==> !Identifies(records[j].data, key)
    ensures r.None? <==> forall d :: d in records ==> !Identifies(d.data, key)
  {
    if records == [] then None
    else if Identifies(records[0].data, key) then Some(0)
    else
      assert forall d :: d in records <==> d == records[0] || d in records[1..];
      match FirstMatch(records[1..], key)
      case None => None
      case Some(i) => Some(i + 1)
  }

  /**
   * The login checks in order: both fields truthy (400); an admin the name
   * identifies, else 401; the password compared by bcrypt, which fails with
   * 500 on a value that is not a string and answers 401 on a mismatch, with
   * the same message as an unknown name.
   */
  function Authenticate(records: seq<Doc<AdminUser>>, username: Value, password: Value): (r: Outcome<Doc<AdminUser>>)
    ensures !(Truthy(username) && Truthy(password)) ==> r == Reject(BAD_REQUEST, "Username and password required")
    ensures Truthy(username) && Truthy(password) && FirstMatch(records, Text(username)).None? ==> r == Reject(UNAUTHORIZED, "Invalid credentials")
    ensures (Truthy(username) && Truthy(password) && FirstMatch(records, Text(username)).Some? && !password.Str?)
              ==> r == Reject(SERVER_ERROR, "Login failed")
    ensures (Truthy(username) && Truthy(password) && FirstMatch(records, Text(username)).Some? && password.Str?
             && !Matches(password.s, records[FirstMatch(records, Text(username)).value].data.passwordHash))
              ==> r == Reject(UNAUTHORIZED, "Invalid credentials")
    ensures r.Reject? ==> r.code in {BAD_REQUEST, UNAUTHORIZED, SERVER_ERROR}
    ensures r.Reject? && r.code == UNAUTHORIZED ==> r.error == "Invalid credentials"
    ensures r.Reject? && r.code == SERVER_ERROR ==> r.error == "Login failed" && !password.Str? && FirstMatch(records, Text(username)).Some?
    ensures r.Accept? <==> && Truthy(username) && Truthy(password) && password.Str?
                           && FirstMatch(records, Text(username)).Some?
                           && Matches(password.s, records[FirstMatch(records, Text(username)).value].data.passwordHash)
    ensures r.Accept? ==> r.value == records[FirstMatch(records, Text(username)).value]
  {
    if !(Truthy(username) && Truthy(password)) then
      Reject(BAD_REQUEST, "Username and password required")
    else
      match FirstMatch(records, Text(username))
      case None => Reject(UNAUTHORIZED, "Invalid credentials")
      case Some(i) =>
        if !password.Str? then Reject(SERVER_ERROR, "Login failed")
        else if !Matches(password.s, records[i].data.passwordHash) then Reject(UNAUTHORIZED, "Invalid credentials")
        else Accept(records[i])
  }

  /** POST /login : on success stamps `lastLogin`, signs the admin's id, name and role, and answers with the view read before the stamp. */
  method Login(s: Store, username: Value, password: Value, now: int) returns (r: Reply<Session>)
    requires s.Valid()
    modifies s.admins
    ensures s.Valid()
    ensures Authenticate(old(s.admins.Records()), username, password).Reject? ==>
              && r == Fail(Authenticate(old(s.admins.Records()), username, password).code, Authenticate(old(s.admins.Records()), username, password).error)
              && s.admins.rows == old(s.admins.rows)
    ensures Authenticate(old(s.admins.Records()), username, password).Accept? ==>
              var d := Authenticate(old(s.admins.Records()), username, password).value;
              && r == Ok(OK, Session(Claims(d.id, d.data.username, d.data.role), View(d)))
              && r.body.user.lastLogin == d.data.lastLogin
              && s.admins.rows == old(s.admins.rows)[d.id := d.(updatedAt := now, data := d.data.(lastLogin := Some(now)))]
  {
    match Authenticate(s.admins.Records(), username, password)
    case Reject(code, error) =>
      r := Fail(code, error);
    case Accept(d) =>
      var stamp := (a: AdminUser) => a.(lastLogin := Some(now));
      var _ := Revise(s.admins, d.id, stamp, now, "Invalid credentials");
      r := Ok(OK, Session(Claims(d.id, d.data.username, d.data.role), View(d)));
  }

  const MinAdminPasswordLength: nat := 8

  /**
   * The registration checks in order: all three fields truthy (400); no admin
   * yet, else 403; the e-mail pattern (400); a string password of at least
   * eight characters (400; a value without a `length` passes). The new
   * admin's password is hashed on save with the given salt.
   */
  function NewAdmin(adminCount: nat, username: Value, email: Value, password: Value, salt: nat): (r: Outcome<AdminUser>)
    ensures !(Truthy(username) && Truthy(email) && Truthy(password)) ==> r == Reject(BAD_REQUEST, "Username, email, and password required")
    ensures (Truthy(username) && Truthy(email) && Truthy(password) && adminCount > 0)
              ==> r == Reject(FORBIDDEN, "Admin registration disabled. Contact existing admin.")
    ensures (Truthy(username) && Truthy(email) && Truthy(password) && adminCount == 0 && !IsEmail(Text(email)))
              ==> r == Reject(BAD_REQUEST, "Invalid email format")
    ensures (Truthy(username) && Truthy(email) && Truthy(password) && adminCount == 0 && IsEmail(Text(email))
             && password.Str? && |password.s| < MinAdminPasswordLength)
              ==> r == Reject(BAD_REQUEST, "Password must be at least 8 characters long")
    ensures r.Reject? ==> r.code in {BAD_REQUEST, FORBIDDEN}
    ensures r.Accept? <==> && Truthy(username) && Truthy(email) && Truthy(password) && adminCount == 0 && IsEmail(Text(email))
                           && !(password.Str? && |password.s| < MinAdminPasswordLength)
    ensures r.Accept? ==> && r.value.username == Text(username) && r.value.email == Text(email)
                          && r.value.role == "admin" && r.value.lastLogin.None?
                          && forall candidate :: Matches(candidate, r.value.passwordHash) <==> candidate == Text(password)
  {
    if !(Truthy(username) && Truthy(email) && Truthy(password)) then
      Reject(BAD_REQUEST, "Username, email, and password required")
    else if adminCount > 0 then
      Reject(FORBIDDEN, "Admin registration disabled. Contact existing admin.")
    else if !IsEmail(Text(email)) then
      Reject(BAD_REQUEST, "Invalid email format")
    else if password.Str? && |password.s| < MinAdminPasswordLength then
      Reject(BAD_REQUEST, "Password must be at least 8 characters long")
    else
      Accept(AdminUser(Text(username), Text(email), Hashed(Hash(Text(password), salt)), "admin", None))
  }

  /** POST /register : creates the first admin and answers 201 with its id; once an admin exists nothing is ever created. */
  method Register(s: Store, username: Value, email: Value, password: Value, salt: nat, now: int) returns (r: Reply<Id>)
    requires s.Valid()
    modifies s.admins
    ensures s.Valid()
    ensures old(s.admins.rows) != map[] ==> s.admins.rows == old(s.admins.rows) && r.Fail?
    ensures NewAdmin(|old(s.admins.Records())|, username, email, password, salt).Reject? ==>
              && r == Fail(NewAdmin(|old(s.admins.Records())|, username, email, password, salt).code,
                           NewAdmin(|old(s.admins.Records())|, username, email, password, salt).error)
              && s.admins.rows == old(s.admins.rows)
    ensures NewAdmin(|old(s.admins.Records())|, username, email, password, salt).Accept? ==>
              && old(s.admins.rows) == map[] && r.Ok? && r.code == CREATED
              && s.admins.rows == map[r.body := Doc(r.body, now, now, NewAdmin(0, username, email, password, salt).value)]
  {
    var count := |s.admins.Records()|;
    s.admins.EmptyRecords();
    var stored := Admit(s.admins, NewAdmin(count, username, email, password, salt), now);
    match stored
    case Fail(code, error) => r := Fail(code, error);
    case Ok(code, d) => r := Ok(code, d.id);
  }

  /** The bootstrap admin can log in with the password it registered with, and with no other string. */
  lemma RegisterThenLogin(username: Value, email: Value, password: string, salt: nat, id: Id, now: int, candidate: string)
    requires NewAdmin(0, username, email, Str(password), salt).Accept?
    ensures var records := [Doc(id, now, now, NewAdmin(0, username, email, Str(password), salt).value)];
            && (candidate != "" ==> (Authenticate(records, username, Str(candidate)).Accept? <==> candidate == password))
            && (Authenticate(records, Str(NewAdmin(0, username, email, Str(password), salt).value.email), Str(candidate)).Accept?
                <==> candidate != "" && candidate == password)
  {
    var a := NewAdmin(0, username, email, Str(password), salt).value;
    var records := [Doc(id, now, now, a)];
    assert Identifies(a, Text(username));
    assert FirstMatch(records, Text(username)) == Some(0);
    assert Identifies(a, Text(Str(a.email)));
    assert FirstMatch(records, Text(Str(a.email))) == Some(0);
  }

  /**
   * The change-password checks in order: both fields truthy (400); the
   * current password compared by bcrypt (500 for a value that is not a
   * string, 401 on a mismatch); a string new password of at least eight
   * characters (400). Accepts the new password's text.
   */
  function PasswordChange(me: AdminUser, currentPassword: Value, newPassword: Value): (r: Outcome<string>)
    ensures !(Truthy(currentPassword) && Truthy(newPassword)) ==> r == Reject(BAD_REQUEST, "Current password and new password required")
    ensures (Truthy(currentPassword) && Truthy(newPassword) && currentPassword.Str? && !Matches(currentPassword.s, me.passwordHash))
              ==> r == Reject(UNAUTHORIZED, "Current password is incorrect")
    ensures (Truthy(currentPassword) && Truthy(newPassword) && !currentPassword.Str?)
              ==> r == Reject(SERVER_ERROR, "Failed to change password")
    ensures (Truthy(currentPassword) && Truthy(newPassword) && currentPassword.Str? && Matches(currentPassword.s, me.passwordHash)
             && newPassword.Str? && |newPassword.s| < MinAdminPasswordLength)
              ==> r == Reject(BAD_REQUEST, "New password must be at least 8 characters long")
    ensures r.Reject? ==> r.code in {BAD_REQUEST, UNAUTHORIZED, SERVER_ERROR}
    ensures r.Accept? <==> && Truthy(currentPassword) && Truthy(newPassword)
                           && currentPassword.Str? && Matches(currentPassword.s, me.passwordHash)
                           && !(newPassword.Str? && |newPassword.s| < MinAdminPasswordLength)
    ensures r.Accept? ==> r.value == Text(newPassword)
  {
    if !(Truthy(currentPassword) && Truthy(newPassword)) then
      Reject(BAD_REQUEST, "Current password and new password required")
    else if !currentPassword.Str? then
      Reject(SERVER_ERROR, "Failed to change password")
    else if !Matches(currentPassword.s, me.passwordHash) then
      Reject(UNAUTHORIZED, "Current password is incorrect")
    else if newPassword.Str? && |newPassword.s| < MinAdminPasswordLength then
      Reject(BAD_REQUEST, "New password must be at least 8 characters long")
    else
      Accept(Text(newPassword))
  }

  /**
   * POST /change-password for the authenticated admin `me`: on success the
   * stored `passwordHash` becomes `stored(new password)`, whatever the admin
   * schema does with a value written by `findByIdAndUpdate`; nothing else of
   * the record changes, and the answer is 200 even if the record has gone.
   */
  method ChangePassword(s: Store, me: Doc<AdminUser>, currentPassword: Value, newPassword: Value,
                        stored: string -> PasswordField, now: int) returns (r: Reply<string>)
    requires s.Valid()
    modifies s.admins
    ensures s.Valid()
    ensures PasswordChange(me.data, currentPassword, newPassword).Reject? ==>
              && r == Fail(PasswordChange(me.data, currentPassword, newPassword).code, PasswordChange(me.data, currentPassword, newPassword).error)
              && s.admins.rows == old(s.admins.rows)
    ensures PasswordChange(me.data, currentPassword, newPassword).Accept? ==>
              && r == Ok(OK, "Password changed successfully")
              && (me.id !in old(s.admins.rows) ==> s.admins.rows == old(s.admins.rows))
              && (me.id in old(s.admins.rows) ==>
                    s.admins.rows == old(s.admins.rows)[me.id := old(s.admins.rows)[me.id].(
                      updatedAt := now, data := old(s.admins.rows)[me.id].data.(passwordHash := stored(Text(newPassword))))])
  {
    match PasswordChange(me.data, currentPassword, newPassword)
    case Reject(code, error) =>
      r := Fail(code, error);
    case Accept(text) =>
      var replace := (a: AdminUser) => a.(passwordHash := stored(text));
      var _ := Revise(s.admins, me.id, replace, now, "");
      r := Ok(OK, "Password changed successfully");
  }
}

=== FILE: contact_routes.dfy ===
/**
 * The `/api/contact` router: public submission of a message, the admin
 * listing by status, and the status update.
 */
module ContactRoutes {
  import opened Wrappers
  import opened Strings
  import opened Values
  import opened Email
  import opened Ordering
  import opened RecordStore
  import opened Schema
  import opened Http
  import opened ContactModel
  import opened Collections

  /** The four body fields the submission reads. */
  datatype ContactForm = ContactForm(name: Value, email: Value, subject: Value, message: Value)

  const MissingContactFields: string := "Missing required fields: name, email, message"

  /**
   * The submission's document: 400 when a required field is falsy or the
   * address fails the e-mail pattern; 500 when `name` or `message` is only
   * whitespace (the `required` validator after `trim`); otherwise an unread
   * message holding the trimmed texts and the lower-cased address.
   */
  function NewMessage(f: ContactForm): (r: Outcome<ContactMessage>)
    ensures (!(Truthy(f.name) && Truthy(f.email) && Truthy(f.message))) ==> r == Reject(BAD_REQUEST, MissingContactFields)
    ensures (Truthy(f.name) && Truthy(f.email) && Truthy(f.message) && !IsEmail(Text(f.email)))
              ==> r == Reject(BAD_REQUEST, "Invalid email format")
    ensures r.Reject? ==> r.code == BAD_REQUEST || r == Reject(SERVER_ERROR, "Failed to submit contact message")
    ensures (Truthy(f.name) && Truthy(f.email) && Truthy(f.message) && IsEmail(Text(f.email)) && r.Reject?)
              ==> r == Reject(SERVER_ERROR, "Failed to submit contact message")
    ensures r.Accept? <==> && Truthy(f.name) && Truthy(f.email) && Truthy(f.message) && IsEmail(Text(f.email))
                           && Trim(Text(f.name)) != "" && Trim(Text(f.message)) != ""
    ensures r.Accept? ==> Valid(r.value) && r.value.status == DefaultContactStatus
    ensures r.Accept? ==> && r.value.name == Trim(Text(f.name)) && r.value.message == Trim(Text(f.message))
                          && r.value.email == Lower(Text(f.email))
    ensures r.Accept? ==> (r.value.subject.Some? <==> Truthy(f.subject)) && (r.value.subject.Some? ==> r.value.subject.value == Trim(Text(f.subject)))
  {
    if !(Truthy(f.name) && Truthy(f.email) && Truthy(f.message)) then
      Reject(BAD_REQUEST, MissingContactFields)
    else if !IsEmail(Text(f.email)) then
      Reject(BAD_REQUEST, "Invalid email format")
    else
      var name := RequiredText(f.name);
      var message := RequiredText(f.message);
      if name.None? || message.None? then
        Reject(SERVER_ERROR, "Failed to submit contact message")
      else
        var m := ContactMessage(name.value, LowerText(f.email), OptText(f.subject), message.value, DefaultContactStatus);
        assert Valid(m);
        Accept(m)
  }

  /** POST / : stores the message and answers 201 with its id, or answers the error and stores nothing. */
  method Submit(s: Store, f: ContactForm, now: int) returns (r: Reply<Id>)
    requires s.Valid()
    modifies s.contacts
    ensures s.Valid()
    ensures NewMessage(f).Reject? ==> r == Fail(NewMessage(f).code, NewMessage(f).error) && s.contacts.rows == old(s.contacts.rows)
    ensures NewMessage(f).Accept? ==> && r.Ok? && r.code == CREATED && r.body !in old(s.contacts.rows)
                                      && s.contacts.rows == old(s.contacts.rows)[r.body := Doc(r.body, now, now, NewMessage(f).value)]
  {
    var stored := Admit(s.contacts, NewMessage(f), now);
    match stored
    case Fail(code, error) => r := Fail(code, error);
    case Ok(code, d) => r := Ok(code, d.id);
  }

  /** The listing filter: `status` narrows the result when truthy. */
  predicate MessageMatches(status: Query, m: ContactMessage)
  {
    Given(status) ==> ContactStatusName(m.status) == status.value
  }

  function MessageFilter(status: Query): Doc<ContactMessage> -> bool
  {
    (d: Doc<ContactMessage>) => MessageMatches(status, d.data)
  }

  /** GET / : the matching messages, newest first, one page of them. */
  method List(s: Store, status: Query, page: Positive, limit: Positive) returns (r: Reply<Page<Doc<ContactMessage>>>)
    requires s.Valid()
    ensures r.Ok? && r.code == OK && r.body.page == page && r.body.limit == limit
    ensures IsListing(r.body.items, Filter(s.contacts.Records(), MessageFilter(status)), NewestFirst<ContactMessage>, Skip(page, limit), limit)
    ensures forall d :: d in r.body.items ==> d in s.contacts.Records() && MessageMatches(status, d.data)
    ensures |r.body.items| <= limit
  {
    NewestFirstOrders<ContactMessage>();
    var items := s.contacts.Select(MessageFilter(status), NewestFirst<ContactMessage>, Skip(page, limit), limit);
    r := Ok(OK, Page(items, page, limit));
  }

  /**
   * PUT /:id : the id is checked first, then the status against the three
   * names; 404 when no message has the id. Only the status changes.
   */
  method Update(s: Store, id: IdParam, status: Value, now: int) returns (r: Reply<string>)
    requires s.Valid()
    modifies s.contacts
    ensures s.Valid()
    ensures id.Malformed? ==> r == Fail(BAD_REQUEST, "Invalid message ID")
    ensures id.Key? && ContactStatusOf(status).None? ==> r == Fail(BAD_REQUEST, "Invalid status value")
    ensures id.Key? && ContactStatusOf(status).Some? && id.id !in old(s.contacts.rows) ==> r == Fail(NOT_FOUND, "Contact message not found")
    ensures id.Key? && ContactStatusOf(status).Some? && id.id in old(s.contacts.rows) ==> r.Ok?
    ensures r.Fail? ==> s.contacts.rows == old(s.contacts.rows)
    ensures r.Ok? ==> && r == Ok(OK, "Contact message status updated successfully")
                      && id.Key? && id.id in old(s.contacts.rows) && ContactStatusOf(status).Some?
                      && s.contacts.rows == old(s.contacts.rows)[id.id := old(s.contacts.rows)[id.id].(
                           updatedAt := now, data := old(s.contacts.rows)[id.id].data.(status := ContactStatusOf(status).value))]
  {
    if id.Malformed? {
      return Fail(BAD_REQUEST, "Invalid message ID");
    }
    var st := ContactStatusOf(status);
    if st.None? {
      return Fail(BAD_REQUEST, "Invalid status value");
    }
    var newStatus := st.value;
    var patch := (m: ContactMessage) => m.(status := newStatus);
    var updated := Revise(s.contacts, id.id, patch, now, "Contact message not found");
    if updated.Fail? {
      r := Fail(updated.code, updated.error);
    } else {
      r := Ok(OK, "Contact message status updated successfully");
    }
  }
}

=== FILE: contactmessage.dfy ===
/**
 * The ContactMessage schema: required trimmed `name`, `email` (also
 * lower-cased) and `message`, an optional `subject`, and a `status` enum
 * `['unread', 'read', 'replied']` defaulting to 'unread'.
 */
module ContactModel {
  import opened Wrappers
  import opened Strings
  import opened Values
  import opened Schema

  datatype ContactStatus = Unread | Read | Replied

  function ContactStatusName(s: ContactStatus): string
  {
    match s
    case Unread => "unread"
    case Read => "read"
    case Replied => "replied"
  }

  /** `validStatuses.includes(status)` */
  function ContactStatusOf(v: Value): (r: Option<ContactStatus>)
    ensures r.Some? ==> v == Str(ContactStatusName(r.value))
    ensures r.None? ==> forall s :: v != Str(ContactStatusName(s))
  {
    match v
    case Str(t) =>
      if t == "unread" then Some(Unread)
      else if t == "read" then Some(Read)
      else if t == "replied" then Some(Replied)
      else None
    case _ => None
  }

  lemma ContactStatusNameAccepted(s: ContactStatus)
    ensures ContactStatusOf(Str(ContactStatusName(s))) == Some(s)
  {
  }

  const DefaultContactStatus: ContactStatus := Unread

  datatype ContactMessage = ContactMessage(
    name: string,
    email: string,
    subject: Option<string>,
    message: string,
    status: ContactStatus)

  /** What the schema's setters and validators guarantee of a stored message. */
  predicate Valid(m: ContactMessage)
  {
    && Required(m.name)
    && Required(m.email) && Lower(m.email) == m.email
    && TrimmedOpt(m.subject)
    && Required(m.message)
  }
}

=== FILE: credentials.dfy ===
/**
 * Password hashing as the models use it, with bcrypt idealised: a digest
 * commits to exactly one password, whatever salt it was made with. Also the
 * admin-user record the auth routes read and write; its schema file is not
 * part of this model, so only the fields those routes touch appear.
 */
module Credentials {
  import opened Wrappers

  /** A bcrypt digest: made from a salt and a password; only `Verify` looks inside it. */
  datatype Digest = Digest(salt: nat, secret: string)

  /** `bcrypt.hash(password, saltRounds)`, with the random salt as a parameter. */
  function Hash(password: string, salt: nat): Digest
  {
    Digest(salt, password)
  }

  /** `bcrypt.compare(candidate, digest)` */
  predicate Verify(candidate: string, d: Digest)
  {
    candidate == d.secret
  }

  /** A digest accepts the password it was made from and no other. */
  lemma HashThenVerify(password: string, candidate: string, salt: nat)
    ensures Verify(candidate, Hash(password, salt)) <==> candidate == password
  {
  }

  /** What a `passwordHash` path holds: text that has not been through the hash yet, or a digest. */
  datatype PasswordField = Plain(text: string) | Hashed(digest: Digest)

  /** `comparePassword(candidate)`: bcrypt never matches text that is not a digest. */
  predicate Matches(candidate: string, f: PasswordField)
  {
    f.Hashed? && Verify(candidate, f.digest)
  }

  /** An admin account as the login, register and change-password handlers use it. */
  datatype AdminUser = AdminUser(
    username: string,
    email: string,
    passwordHash: PasswordField,
    role: string,
    lastLogin: Option<int>)

  /** The admin schema is not part of this model, so the collection puts no constraint of its own on a record. */
  predicate AnyAdmin(a: AdminUser)
  {
    true
  }
}

=== FILE: database.dfy ===
/**
 * The database helpers: seeding the default services and the bootstrap
 * admin into empty collections, the generic `run` write helper, and the
 * admin dashboard statistics.
 */
module Database {
  import opened Wrappers
  import opened Strings
  import opened Ordering
  import opened RecordStore
  import opened JobStatus
  import opened Credentials
  import opened Collections
  import opened Schema
  import opened ServiceModel
  import WorkOrderModel
  import ContactModel
  import GalleryModel

  /** A default service: described, active, without an image. */
  function Seeded(name: string, description: string, category: string, basePrice: real, unit: string): Service
  {
    Service(name, Some(description), category, basePrice, Some(unit), Some(true), None)
  }

  /** A text whose two ends are letters is kept as written by `trim`. */
  lemma Framed(s: string, first: char, last: char)
    requires |s| > 0 && s[0] == first && s[|s| - 1] == last
    requires 'A' <= first <= 'z' && 'A' <= last <= 'z'
    ensures Required(s)
  {
  }

  /** The same for a text written in two pieces. */
  lemma FramedJoin(a: string, b: string, first: char, last: char)
    requires |a| > 0 && a[0] == first && |b| > 0 && b[|b| - 1] == last
    requires 'A' <= first <= 'z' && 'A' <= last <= 'z'
    ensures Required(a + b)
  {
    assert (a + b)[0] == first && (a + b)[|a + b| - 1] == last;
  }

  const Plumbing: Service := Seeded("Plumbing Repair", "Fix leaks, unclog drains, repair fixtures", "plumbing", 75.0, "per hour")
  const Electrical: Service := Seeded("Electrical Work", "Wiring, outlet installation, " + "lighting fixtures", "electrical", 85.0, "per hour")
  const Carpentry: Service := Seeded("Carpentry", "Custom woodwork, repairs, installations", "carpentry", 65.0, "per hour")
  const Painting: Service := Seeded("Painting", "Interior and exterior painting services", "painting", 45.0, "per hour")
  const LawnCare: Service := Seeded("Lawn Care", "Mowing, trimming, landscaping", "landscaping", 40.0, "per hour")
  const ApplianceRepair: Service := Seeded("Appliance Repair", "Fix washers, dryers, " + "refrigerators, dishwashers", "appliance", 80.0, "per service call")
  const FurnitureAssembly: Service := Seeded("Furniture Assembly", "IKEA and other furniture assembly", "assembly", 50.0, "per item")
  const Handyman: Service := Seeded("General Handyman", "Various small repairs and odd jobs", "general", 55.0, "per hour")

  /** The eight services a fresh database starts with, in insertion order. */
  const DefaultServices: seq<Service> := [Plumbing, Electrical, Carpentry, Painting, LawnCare, ApplianceRepair, FurnitureAssembly, Handyman]

  lemma PlumbingValid()
    ensures Valid(Plumbing) && Active(Plumbing)
  {
    var v := Plumbing;
    Framed(v.name, 'P', 'r');
    Framed(v.description.value, 'F', 's');
    Framed(v.category, 'p', 'g');
    Framed(v.unit.value, 'p', 'r');
  }

  lemma ElectricalValid()
    ensures Valid(Electrical) && Active(Electrical)
  {
    var v := Electrical;
    Framed(v.name, 'E', 'k');
    FramedJoin("Wiring, outlet installation, ", "lighting fixtures", 'W', 's');
    Framed(v.category, 'e', 'l');
    Framed(v.unit.value, 'p', 'r');
  }

  lemma CarpentryValid()
    ensures Valid(Carpentry) && Active(Carpentry)
  {
    var v := Carpentry;
    Framed(v.name, 'C', 'y');
    Framed(v.description.value, 'C', 's');
    Framed(v.category, 'c', 'y');
    Framed(v.unit.value, 'p', 'r');
  }

  lemma PaintingValid()
    ensures Valid(Painting) && Active(Painting)
  {
    var v := Painting;
    Framed(v.name, 'P', 'g');
    Framed(v.description.value, 'I', 's');
    Framed(v.category, 'p', 'g');
    Framed(v.unit.value, 'p', 'r');
  }

  lemma LawnCareValid()
    ensures Valid(LawnCare) && Active(LawnCare)
  {
    var v := LawnCare;
    Framed(v.name, 'L', 'e');
    Framed(v.description.value, 'M', 'g');
    Framed(v.category, 'l', 'g');
    Framed(v.unit.value, 'p', 'r');
  }

  lemma ApplianceRepairValid()
    ensures Valid(ApplianceRepair) && Active(ApplianceRepair)
  {
    var v := ApplianceRepair;
    Framed(v.name, 'A', 'r');
    FramedJoin("Fix washers, dryers, ", "refrigerators, dishwashers", 'F', 's');
    Framed(v.category, 'a', 'e');
    Framed(v.unit.value, 'p', 'l');
  }

  lemma FurnitureAssemblyValid()
    ensures Valid(FurnitureAssembly) && Active(FurnitureAssembly)
  {
    var v := FurnitureAssembly;
    Framed(v.name, 'F', 'y');
    Framed(v.description.value, 'I', 'y');
    Framed(v.category, 'a', 'y');
    Framed(v.unit.value, 'p', 'm');
  }

  lemma HandymanValid()
    ensures Valid(Handyman) && Active(Handyman)
  {
    var v := Handyman;
    Framed(v.name, 'G', 'n');
    Framed(v.description.value, 'V', 's');
    Framed(v.category, 'g', 'l');
    Framed(v.unit.value, 'p', 'r');
  }

  /** Every default service satisfies the schema, is active and has a non-negative price. */
  lemma DefaultServicesValid()
    ensures |DefaultServices| == 8
    ensures forall i :: 0 <= i < |DefaultServices| ==> Valid(DefaultServices[i]) && Active(DefaultServices[i])
    ensures forall i :: 0 <= i < |DefaultServices| ==> DefaultServices[i].basePrice >= 0.0
  {
    PlumbingValid();
    ElectricalValid();
    CarpentryValid();
    PaintingValid();
    LawnCareValid();
    ApplianceRepairValid();
    FurnitureAssemblyValid();
    HandymanValid();
  }

  /** The `ADMIN_USERNAME`, `ADMIN_EMAIL` and `ADMIN_PASSWORD` environment variables, each possibly unset. */
  datatype AdminEnv = AdminEnv(username: Option<string>, email: Option<string>, password: Option<string>)

  /** `process.env.X || fallback`: an unset or empty variable gives the fallback. */
  function EnvOr(v: Option<string>, fallback: string): (r: string)
    ensures v.Some? && v.value != "" ==> r == v.value
    ensures v.None? || v.value == "" ==> r == fallback
  {
    if v.Some? && v.value != "" then v.value else fallback
  }

  /** The bootstrap admin: the configured or default name, address and password, the password hashed on save. */
  function DefaultAdmin(env: AdminEnv, salt: nat): (r: AdminUser)
    ensures r.role == "admin" && r.lastLogin.None?
    ensures r.username == EnvOr(env.username, "admin") && r.email == EnvOr(env.email, "admin@hudsonconstruction.com")
    ensures env.username.None? ==> r.username == "admin"
    ensures env.email.None? ==> r.email == "admin@hudsonconstruction.com"
    ensures forall candidate :: Matches(candidate, r.passwordHash) <==> candidate == EnvOr(env.password, "ManForHire2024!")
  {
    AdminUser(EnvOr(env.username, "admin"), EnvOr(env.email, "admin@hudsonconstruction.com"),
              Hashed(Hash(EnvOr(env.password, "ManForHire2024!"), salt)), "admin", None)
  }

  /** The services half of `seedDefaultData`: `insertMany` of the defaults when `countDocuments()` is 0. */
  method SeedServices(t: Table<Service>, now: int)
    requires t.Valid() && t.schema == ServiceModel.Valid
    modifies t
    ensures t.Valid()
    ensures old(t.rows) == map[] ==>
              && |t.Records()| == |DefaultServices|
              && forall i :: 0 <= i < |DefaultServices| ==> t.Records()[i].data == DefaultServices[i] && t.Records()[i].createdAt == now
    ensures old(t.rows) != map[] ==> t.rows == old(t.rows)
    ensures t.rows != map[]
  {
    t.EmptyRecords();
    if |t.Records()| == 0 {
      DefaultServicesValid();
      t.CreateAll(DefaultServices, now);
      t.EmptyRecords();
    }
  }

  /** The admin half of `seedDefaultData`: `create` of the bootstrap admin when `countDocuments()` is 0. */
  method SeedAdmin(t: Table<AdminUser>, env: AdminEnv, salt: nat, now: int) returns (admin: Option<Id>)
    requires t.Valid() && t.schema == AnyAdmin
    modifies t
    ensures t.Valid()
    ensures old(t.rows) == map[] ==> admin.Some? && t.rows == map[admin.value := Doc(admin.value, now, now, DefaultAdmin(env, salt))]
    ensures old(t.rows) != map[] ==> admin.None? && t.rows == old(t.rows)
    ensures t.rows != map[]
  {
    t.EmptyRecords();
    if |t.Records()| == 0 {
      var d := t.Create(DefaultAdmin(env, salt), now);
      admin := Some(d.id);
    } else {
      admin := None;
    }
  }

  /**
   * `seedDefaultData`: the default services go into an empty services
   * collection and the bootstrap admin into an empty admin collection;
   * a collection that holds anything is left alone. Afterwards neither
   * collection is empty, so seeding again changes nothing.
   */
  method SeedDefaultData(s: Store, env: AdminEnv, salt: nat, now: int) returns (admin: Option<Id>)
    requires s.Valid()
    modifies s.services, s.admins
    ensures s.Valid()
    ensures old(s.services.rows) == map[] ==>
              && |s.services.Records()| == |DefaultServices|
              && forall i :: 0 <= i < |DefaultServices| ==> s.services.Records()[i].data == DefaultServices[i] && s.services.Records()[i].createdAt == now
    ensures old(s.services.rows) != map[] ==> s.services.rows == old(s.services.rows)
    ensures old(s.admins.rows) == map[] ==> admin.Some? && s.admins.rows == map[admin.value := Doc(admin.value, now, now, DefaultAdmin(env, salt))]
    ensures old(s.admins.rows) != map[] ==> admin.None? && s.admins.rows == old(s.admins.rows)
    ensures s.services.rows != map[] && s.admins.rows != map[]
  {
    SeedServices(s.services, now);
    admin := SeedAdmin(s.admins, env, salt, now);
  }

  /** What `run` resolves to: the affected id (none for a delete) and the number of changed documents, or the error it throws. */
  datatype RunResult = Changed(id: Option<Id>, changes: nat) | Thrown(message: string)

  /**
   * `dbHelpers.run(model, operation, data, { _id: key })`: 'create' stores
   * `data` under a fresh id and reports one change; 'update' overwrites the
   * whole document with that id (where `updateOne` would `$set` only the paths
   * `data` carries) and reports whether one matched; 'delete' removes
   * it and reports whether one existed; any other operation throws.
   */
  method Run<T(!new)>(t: Table<T>, operation: string, data: T, key: Id, now: int) returns (r: RunResult)
    requires t.Valid()
    modifies t
    ensures t.Valid()
    ensures operation !in {"create", "update", "delete"} ==> r == Thrown("Invalid operation") && t.rows == old(t.rows)
    ensures operation in {"create", "update"} && !t.schema(data) ==> r == Thrown("Validation failed") && t.rows == old(t.rows)
    ensures operation == "create" && t.schema(data) ==>
              && r.Changed? && r.changes == 1 && r.id.Some? && r.id.value !in old(t.rows)
              && t.rows == old(t.rows)[r.id.value := Doc(r.id.value, now, now, data)]
    ensures operation == "update" && t.schema(data) ==>
              && r == Changed(Some(key), if key in old(t.rows) then 1 else 0)
              && t.rows == if key in old(t.rows) then old(t.rows)[key := old(t.rows)[key].(updatedAt := now, data := data)] else old(t.rows)
    ensures operation == "delete" ==> r == Changed(None, if key in old(t.rows) then 1 else 0) && t.rows == old(t.rows) - {key}
  {
    if operation == "create" {
      if !t.schema(data) {
        return Thrown("Validation failed");
      }
      var d := t.Create(data, now);
      r := Changed(Some(d.id), 1);
    } else if operation == "update" {
      if !t.schema(data) {
        return Thrown("Validation failed");
      }
      if key in t.rows {
        var _ := t.Replace(key, data, now);
        r := Changed(Some(key), 1);
      } else {
        r := Changed(Some(key), 0);
      }
    } else if operation == "delete" {
      var removed := t.Delete(key);
      r := Changed(None, if removed.Some? then 1 else 0);
    } else {
      r := Thrown("Invalid operation");
    }
  }

  /** One day in milliseconds, the unit of the dashboard's windows. */
  const Day: int := 86400000

  /** `popularServices` looks back 30 days and keeps the 5 most frequent service types. */
  const PopularWindow: int := 30 * Day
  const PopularLimit: nat := 5

  /** `weeklyActivity` looks back 7 days. */
  const WeeklyWindow: int := 7 * Day

  /** The object `getDashboardStats` resolves to. */
  datatype DashboardStats = DashboardStats(
    pendingOrders: nat,
    inProgressOrders: nat,
    completedOrders: nat,
    unreadMessages: nat,
    galleryImages: nat,
    activeServices: nat,
    popularServices: seq<Tally<string>>,
    weeklyActivity: seq<Tally<int>>)

  /** `{ status: st }` on work orders. */
  function WithStatus(st: Status): Doc<WorkOrderModel.WorkOrder> -> bool
  {
    (d: Doc<WorkOrderModel.WorkOrder>) => d.data.status == st
  }

  /** `{ status: 'unread' }` on contact messages. */
  predicate Unread(d: Doc<ContactModel.ContactMessage>)
  {
    d.data.status == ContactModel.Unread
  }

  /** No filter on gallery images. */
  predicate AnyImage(d: Doc<GalleryModel.GalleryImage>)
  {
    true
  }

  /** `{ isActive: true }` on services. */
  predicate IsActive(d: Doc<Service>)
  {
    Active(d.data)
  }

  /** `{ createdAt: { $gte: since } }` */
  function CreatedSince(since: int): Doc<WorkOrderModel.WorkOrder> -> bool
  {
    (d: Doc<WorkOrderModel.WorkOrder>) => d.createdAt >= since
  }

  /** The group key of `popularServices`: `$serviceType`. */
  function ServiceTypeOf(d: Doc<WorkOrderModel.WorkOrder>): string
  {
    d.data.serviceType
  }

  /**
   * The group key of `weeklyActivity`: the UTC calendar day of `createdAt`,
   * numbered from the epoch. Days in number order are days in the order of
   * their `%Y-%m-%d` texts.
   */
  function DayOf(t: int): int
  {
    t / Day
  }

  function DayKeyOf(d: Doc<WorkOrderModel.WorkOrder>): int
  {
    DayOf(d.createdAt)
  }

  /** `{ $sort: { count: -1 } }` */
  predicate MoreFrequent<K>(a: Tally<K>, b: Tally<K>)
  {
    a.count >= b.count
  }

  /** `{ $sort: { _id: 1 } }` on day keys. */
  predicate EarlierDay(a: Tally<int>, b: Tally<int>)
  {
    a.key <= b.key
  }

  lemma MoreFrequentOrders<K(!new)>()
    ensures TotalPreorder(MoreFrequent<K>)
  {
  }

  lemma EarlierDayOrders()
    ensures TotalPreorder(EarlierDay)
  {
  }

  /**
   * What the `popularServices` pipeline promises of its rows over the keys
   * `keys`: at most `limit` rows, most frequent first, one row per key, each
   * row counting its key exactly, and a key left out only when `limit` rows
   * at least as frequent were kept.
   */
  ghost predicate RankedTop<K>(keys: seq<K>, r: seq<Tally<K>>, limit: nat)
  {
    && |r| <= limit
    && (forall i, j :: 0 <= i < j < |r| ==> r[i].count >= r[j].count && r[i].key != r[j].key)
    && (forall i :: 0 <= i < |r| ==> r[i].key in keys && r[i].count == multiset(keys)[r[i].key])
    && (forall k :: k in keys && (forall i :: 0 <= i < |r| ==> r[i].key != k) ==>
          |r| == limit > 0 && multiset(keys)[k] <= r[limit - 1].count)
  }

  /** `$group` by key, `$sort` by count descending, `$limit: 5`. */
  function TopServices(types: seq<string>): seq<Tally<string>>
  {
    Take(Sort(GroupCount(types), MoreFrequent), PopularLimit)
  }

  lemma TopServicesRanked(types: seq<string>)
    ensures RankedTop(types, TopServices(types), PopularLimit)
  {
    var g := Sort(GroupCount(types), MoreFrequent);
    MoreFrequentOrders<string>();
    SortSorted(GroupCount(types), MoreFrequent);
    GroupSortSpec(types, MoreFrequent);
    TopOfSorted(types, g);
  }

  /** The first `PopularLimit` rows of a frequency-sorted exact grouping are ranked. */
  lemma TopOfSorted(types: seq<string>, g: seq<Tally<string>>)
    requires SortedBy(g, MoreFrequent)
    requires forall i, j :: 0 <= i < j < |g| ==> g[i].key != g[j].key
    requires forall k :: (exists i :: 0 <= i < |g| && g[i].key == k) <==> k in types
    requires forall i :: 0 <= i < |g| ==> g[i].count == multiset(types)[g[i].key]
    ensures RankedTop(types, Take(g, PopularLimit), PopularLimit)
  {
    var r := Take(g, PopularLimit);
    assert forall i :: 0 <= i < |r| ==> r[i] == g[i];
    forall k | k in types && (forall i :: 0 <= i < |r| ==> r[i].key != k)
      ensures |r| == PopularLimit && multiset(types)[k] <= r[PopularLimit - 1].count
    {
      var j :| 0 <= j < |g| && g[j].key == k;
      assert j >= |r|;
      assert MoreFrequent(g[PopularLimit - 1], g[j]);
    }
  }

  /**
   * What the `weeklyActivity` pipeline promises of its rows over the day keys
   * `days`: strictly ascending keys, a row for exactly the days that occur,
   * each row counting its day exactly, and the counts adding up to `|days|`.
   */
  ghost predicate DailyCounts(days: seq<int>, r: seq<Tally<int>>)
  {
    && (forall i, j :: 0 <= i < j < |r| ==> r[i].key < r[j].key)
    && (forall k :: (exists i :: 0 <= i < |r| && r[i].key == k) <==> k in days)
    && (forall i :: 0 <= i < |r| ==> r[i].count == multiset(days)[r[i].key])
    && TallySum(r) == |days|
  }

  /** `$group` by day, `$sort` by day ascending. */
  function Daily(days: seq<int>): seq<Tally<int>>
  {
    Sort(GroupCount(days), EarlierDay)
  }

  lemma DailyCounted(days: seq<int>)
    ensures DailyCounts(days, Daily(days))
  {
    EarlierDayOrders();
    SortSorted(GroupCount(days), EarlierDay);
    GroupSortSpec(days, EarlierDay);
  }

  /** The service types of the orders created at or after `since`. */
  function RecentServiceTypes(orders: seq<Doc<WorkOrderModel.WorkOrder>>, since: int): seq<string>
  {
    Project(Filter(orders, CreatedSince(since)), ServiceTypeOf)
  }

  /** The day keys of the orders created at or after `since`. */
  function RecentDays(orders: seq<Doc<WorkOrderModel.WorkOrder>>, since: int): seq<int>
  {
    Project(Filter(orders, CreatedSince(since)), DayKeyOf)
  }

  /** Every order has exactly one of the four statuses. */
  lemma {:induction false} StatusPartition(orders: seq<Doc<WorkOrderModel.WorkOrder>>)
    ensures |Filter(orders, WithStatus(Pending))| + |Filter(orders, WithStatus(InProgress))|
            + |Filter(orders, WithStatus(Completed))| + |Filter(orders, WithStatus(Cancelled))| == |orders|
  {
    if orders != [] {
      StatusPartition(orders[1..]);
    }
  }

  /** `{ serviceType: k }` on work orders. */
  function OfType(k: string): Doc<WorkOrderModel.WorkOrder> -> bool
  {
    (d: Doc<WorkOrderModel.WorkOrder>) => d.data.serviceType == k
  }

  /** Each popular service's count is the number of recent orders of that type. */
  lemma TopServicesCount(orders: seq<Doc<WorkOrderModel.WorkOrder>>, since: int)
    ensures forall t :: t in TopServices(RecentServiceTypes(orders, since)) ==>
              t.count == |Filter(Filter(orders, CreatedSince(since)), OfType(t.key))|
  {
    var recent := Filter(orders, CreatedSince(since));
    var types := RecentServiceTypes(orders, since);
    TopServicesRanked(types);
    forall t | t in TopServices(types)
      ensures t.count == |Filter(recent, OfType(t.key))|
    {
      ProjectCount(recent, ServiceTypeOf, t.key, OfType(t.key));
    }
  }

  /**
   * `getDashboardStats()` over one state of the store. Each count is the
   * number of stored documents that match its filter: the orders with exactly
   * that status, the unread messages, every gallery image, the active
   * services. `popularServices` ranks the service types of the last 30 days
   * and `weeklyActivity` counts the orders of each of the last 7 days.
   */
  function Dashboard(s: Store, now: int): (r: DashboardStats)
    reads s, s.workOrders, s.workRequests, s.services, s.gallery, s.contacts, s.admins
    requires s.Valid()
    ensures r.pendingOrders == |s.workOrders.Matching(WithStatus(Pending))|
    ensures r.inProgressOrders == |s.workOrders.Matching(WithStatus(InProgress))|
    ensures r.completedOrders == |s.workOrders.Matching(WithStatus(Completed))|
    ensures r.unreadMessages == |s.contacts.Matching(Unread)|
    ensures r.galleryImages == |s.gallery.rows.Keys|
    ensures r.activeServices == |s.services.Matching(IsActive)|
    ensures RankedTop(RecentServiceTypes(s.workOrders.Records(), now - PopularWindow), r.popularServices, PopularLimit)
    ensures forall t :: t in r.popularServices ==>
              t.count == |Filter(Filter(s.workOrders.Records(), CreatedSince(now - PopularWindow)), OfType(t.key))|
    ensures DailyCounts(RecentDays(s.workOrders.Records(), now - WeeklyWindow), r.weeklyActivity)
  {
    var orders := s.workOrders.Records();
    s.workOrders.CountSpec(WithStatus(Pending));
    s.workOrders.CountSpec(WithStatus(InProgress));
    s.workOrders.CountSpec(WithStatus(Completed));
    s.contacts.CountSpec(Unread);
    s.gallery.CountSpec(AnyImage);
    assert s.gallery.Matching(AnyImage) == s.gallery.rows.Keys;
    s.services.CountSpec(IsActive);
    TopServicesRanked(RecentServiceTypes(orders, now - PopularWindow));
    TopServicesCount(orders, now - PopularWindow);
    DailyCounted(RecentDays(orders, now - WeeklyWindow));
    DashboardStats(
      s.workOrders.Count(WithStatus(Pending)),
      s.workOrders.Count(WithStatus(InProgress)),
      s.workOrders.Count(WithStatus(Completed)),
      s.contacts.Count(Unread),
      s.gallery.Count(AnyImage),
      s.services.Count(IsActive),
      TopServices(RecentServiceTypes(orders, now - PopularWindow)),
      Daily(RecentDays(orders, now - WeeklyWindow)))
  }
}

=== FILE: email.dfy ===
/**
 * The email check `/^[^\s@]+@[^\s@]+\.[^\s@]+$/` shared by the work-order,
 * contact and admin-registration routes and the User schema, and the User
 * schema's phone pattern `/^[\+]?[1-9][\d]{0,15}$/`.
 */
module Email {
  import opened Wrappers
  import opened Strings

  /** Every character belongs to the class `[^\s@]`. */
  predicate Plain(s: string)
  {
    forall i :: 0 <= i < |s| ==> !IsSpace(s[i]) && s[i] != '@'
  }

  /**
   * The regular expression read literally: a non-empty plain run, `@`, a
   * non-empty plain run, `.`, a non-empty plain run, covering the whole text.
   * The middle run may itself contain dots, so any split point works.
   */
  ghost predicate MatchesEmailPattern(s: string)
  {
    exists at, dot ::
      && 0 < at && at + 1 < dot && dot + 1 < |s|
      && s[at] == '@' && s[dot] == '.'
      && Plain(s[..at]) && Plain(s[at + 1..dot]) && Plain(s[dot + 1..])
  }

  /** A dot that is neither the first nor the last character. */
  predicate HasInnerDot(d: string)
  {
    |d| >= 3 && '.' in d[1..|d| - 1]
  }

  /** The executable test: split at the first `@` and look for an inner dot after it. */
  predicate IsEmail(s: string)
  {
    match IndexOf(s, '@')
    case None => false
    case Some(at) => at > 0 && Plain(s[..at]) && Plain(s[at + 1..]) && HasInnerDot(s[at + 1..])
  }

  /** The executable test accepts exactly the texts the regular expression matches. */
  lemma IsEmailMatchesPattern(s: string)
    ensures IsEmail(s) <==> MatchesEmailPattern(s)
  {
    if IsEmail(s) {
      EmailHasPatternSplit(s);
    }
    if MatchesEmailPattern(s) {
      var at, dot :|
        && 0 < at && at + 1 < dot && dot + 1 < |s|
        && s[at] == '@' && s[dot] == '.'
        && Plain(s[..at]) && Plain(s[at + 1..dot]) && Plain(s[dot + 1..]);
      PatternSplitIsEmail(s, at, dot);
    }
  }

  lemma EmailHasPatternSplit(s: string)
    requires IsEmail(s)
    ensures MatchesEmailPattern(s)
  {
    var at := IndexOf(s, '@').value;
    var d := s[at + 1..];
    var inner := d[1..|d| - 1];
    var j :| 0 <= j < |inner| && inner[j] == '.';
    var dot := at + 2 + j;
    assert s[dot] == '.';
    PlainSlice(d, 0, j + 1);
    PlainSlice(d, j + 2, |d|);
    assert s[at + 1..dot] == d[..j + 1];
    assert s[dot + 1..] == d[j + 2..];
    assert 0 < at && at + 1 < dot && dot + 1 < |s| && s[at] == '@';
    assert Plain(s[..at]) && Plain(s[at + 1..dot]) && Plain(s[dot + 1..]);
    assert MatchesEmailPattern(s) by {
      assert && 0 < at && at + 1 < dot && dot + 1 < |s|
             && s[at] == '@' && s[dot] == '.'
             && Plain(s[..at]) && Plain(s[at + 1..dot]) && Plain(s[dot + 1..]);
    }
  }

  lemma PlainSlice(s: string, i: nat, j: nat)
    requires Plain(s) && i <= j <= |s|
    ensures Plain(s[i..j])
  {
    assert forall k :: 0 <= k < j - i ==> s[i..j][k] == s[i + k];
  }

  lemma PatternSplitIsEmail(s: string, at: nat, dot: nat)
    requires 0 < at && at + 1 < dot && dot + 1 < |s|
    requires s[at] == '@' && s[dot] == '.'
    requires Plain(s[..at]) && Plain(s[at + 1..dot]) && Plain(s[dot + 1..])
    ensures IsEmail(s)
  {
    assert '@' !in s[..at] by {
      forall i | 0 <= i < at ensures s[..at][i] != '@' {
      }
    }
    FirstAt(s, at);
    var d := s[at + 1..];
    assert d == s[at + 1..dot] + [s[dot]] + s[dot + 1..];
    assert d[dot - at - 1] == '.';
    assert d[1..|d| - 1][dot - at - 2] == '.';
    assert Plain(d);
  }

  lemma FirstAt(s: string, at: nat)
    requires at < |s| && s[at] == '@' && '@' !in s[..at]
    ensures IndexOf(s, '@') == Some(at)
  {
  }

  /**
   * What an accepted address looks like: no whitespace anywhere, exactly one
   * `@`, something before it, and a dot after it that is neither the first
   * nor the last character of the domain.
   */
  lemma {:induction false} EmailShape(s: string)
    requires IsEmail(s)
    ensures NoSpace(s)
    ensures exists at :: 0 < at < |s| && s[at] == '@' && '@' !in s[..at] && '@' !in s[at + 1..] && HasInnerDot(s[at + 1..])
  {
    var at := IndexOf(s, '@').value;
    assert s == s[..at] + [s[at]] + s[at + 1..];
    forall i | 0 <= i < |s| ensures !IsSpace(s[i]) {
      if i < at {
        assert s[..at][i] == s[i];
      } else if i > at {
        assert s[at + 1..][i - at - 1] == s[i];
      }
    }
    var dom := s[at + 1..];
    assert Plain(dom);
    assert forall i :: 0 <= i < |dom| ==> dom[i] != '@';
  }

  /** Since an accepted address has no whitespace, the schema's `trim` leaves it alone. */
  lemma EmailIsTrimmed(s: string)
    requires IsEmail(s)
    ensures Trim(s) == s
  {
    EmailShape(s);
    TrimNoSpace(s);
  }

  /** `/^[\+]?[1-9][\d]{0,15}$/`: an optional plus, a non-zero digit, then at most fifteen digits. */
  predicate IsPhone(s: string)
  {
    var body := if |s| > 0 && s[0] == '+' then s[1..] else s;
    && 1 <= |body| <= 16
    && '1' <= body[0] <= '9'
    && forall i :: 1 <= i < |body| ==> IsDigit(body[i])
  }
}

=== FILE: gallery_routes.dfy ===
/**
 * The `/api/gallery` router: the featured-first listing, lookup, upload of
 * one image with its metadata, the metadata update and deletion.
 */
module GalleryRoutes {
  import opened Wrappers
  import opened Strings
  import opened Values
  import opened Ordering
  import opened RecordStore
  import opened Schema
  import opened Http
  import opened GalleryModel
  import opened Collections

  /** The listing filter: `category` matches exactly when truthy, and `featured_only=true` keeps the featured images. */
  predicate ImageMatches(category: Query, featuredOnly: Query, g: GalleryImage)
  {
    && (Given(category) ==> g.category == Some(category.value))
    && (featuredOnly == Some("true") ==> g.isFeatured)
  }

  function ImageFilter(category: Query, featuredOnly: Query): Doc<GalleryImage> -> bool
  {
    (d: Doc<GalleryImage>) => ImageMatches(category, featuredOnly, d.data)
  }

  /** `sort({ isFeatured: -1, createdAt: -1 })`: featured images first, newest first within each group. */
  predicate FeaturedFirst(a: Doc<GalleryImage>, b: Doc<GalleryImage>)
  {
    || (a.data.isFeatured && !b.data.isFeatured)
    || (a.data.isFeatured == b.data.isFeatured && a.createdAt >= b.createdAt)
  }

  lemma FeaturedFirstOrders()
    ensures TotalPreorder(FeaturedFirst)
  {
  }

  /** In an order sorted this way no image that is not featured comes before a featured one, and each group runs newest first. */
  lemma FeaturedLead(s: seq<Doc<GalleryImage>>)
    requires SortedBy(s, FeaturedFirst)
    ensures forall i, j :: 0 <= i < j < |s| && s[j].data.isFeatured ==> s[i].data.isFeatured
    ensures forall i, j :: 0 <= i < j < |s| && s[i].data.isFeatured == s[j].data.isFeatured ==> s[i].createdAt >= s[j].createdAt
  {
    forall i, j | 0 <= i < j < |s|
      ensures FeaturedFirst(s[i], s[j])
    {
    }
  }

  /** GET / : the matching images, featured first and then newest first, one page of them. */
  method List(s: Store, category: Query, featuredOnly: Query, page: Positive, limit: Positive) returns (r: Reply<Page<Doc<GalleryImage>>>)
    requires s.Valid()
    ensures r.Ok? && r.code == OK && r.body.page == page && r.body.limit == limit
    ensures IsListing(r.body.items, Filter(s.gallery.Records(), ImageFilter(category, featuredOnly)), FeaturedFirst, Skip(page, limit), limit)
    ensures forall d :: d in r.body.items ==> d in s.gallery.Records() && ImageMatches(category, featuredOnly, d.data)
    ensures |r.body.items| <= limit
  {
    FeaturedFirstOrders();
    var items := s.gallery.Select(ImageFilter(category, featuredOnly), FeaturedFirst, Skip(page, limit), limit);
    r := Ok(OK, Page(items, page, limit));
  }

  /** GET /:id */
  method Get(s: Store, id: IdParam) returns (r: Reply<Doc<GalleryImage>>)
    requires s.Valid()
    ensures id.Malformed? ==> r == Fail(BAD_REQUEST, "Invalid gallery image ID")
    ensures id.Key? && id.id !in s.gallery.rows ==> r == Fail(NOT_FOUND, "Gallery image not found")
    ensures id.Key? && id.id in s.gallery.rows ==> r == Ok(OK, s.gallery.rows[id.id])
  {
    if id.Malformed? {
      return Fail(BAD_REQUEST, "Invalid gallery image ID");
    }
    match s.gallery.Find(id.id)
    case None => r := Fail(NOT_FOUND, "Gallery image not found");
    case Some(d) => r := Ok(OK, d);
  }

  /** The metadata fields of the upload form and of the update body. */
  datatype ImageForm = ImageForm(
    title: Value,
    description: Value,
    category: Value,
    projectDate: Value,
    isFeatured: Value)

  /** Where the upload storage puts gallery files, as served back. */
  const GalleryDir: string := "/uploads/gallery/"

  /** The stored URL of an upload named `name`: the directory prefix keeps it non-empty through `trim`, and a trimmed name is kept as it is. */
  lemma UploadUrl(name: string)
    ensures Required(Trim(GalleryDir + name)) && Trim(GalleryDir + name)[0] == '/'
    ensures Trimmed(name) ==> Trim(GalleryDir + name) == GalleryDir + name
  {
    var u := GalleryDir + name;
    assert GalleryDir[0] == '/' && GalleryDir[|GalleryDir| - 1] == '/';
    assert u[0] == '/';
    TrimKeepsLead(u);
    TrimSpec(u);
    if Trimmed(name) {
      if name == [] {
        assert u == GalleryDir;
      } else {
        assert u[|u| - 1] == name[|name| - 1];
      }
    }
  }

  /**
   * The upload's document: 400 when the request carried no file; otherwise
   * the file's URL, each text field `|| null`, the date as submitted, and
   * `isFeatured` only for `true` or `'true'`.
   */
  function NewImage(file: Option<string>, f: ImageForm): (r: Outcome<GalleryImage>)
    ensures r.Reject? <==> file.None?
    ensures file.None? ==> r == Reject(BAD_REQUEST, "No image file provided")
    ensures r.Accept? ==> Valid(r.value)
    ensures r.Accept? ==> r.value.imageUrl != "" && r.value.imageUrl[0] == '/' && (Trimmed(file.value) ==> r.value.imageUrl == GalleryDir + file.value)
    ensures r.Accept? ==> && (r.value.title.Some? <==> Truthy(f.title)) && (r.value.title.Some? ==> r.value.title.value == Trim(Text(f.title)))
                          && (r.value.description.Some? <==> Truthy(f.description)) && (r.value.description.Some? ==> r.value.description.value == Trim(Text(f.description)))
                          && (r.value.category.Some? <==> Truthy(f.category)) && (r.value.category.Some? ==> r.value.category.value == Trim(Text(f.category)))
                          && (r.value.projectDate.Some? <==> Truthy(f.projectDate)) && (r.value.projectDate.Some? ==> r.value.projectDate.value == Text(f.projectDate))
    ensures r.Accept? ==> (r.value.isFeatured <==> f.isFeatured == Str("true") || f.isFeatured == Bool(true))
  {
    match file
    case None => Reject(BAD_REQUEST, "No image file provided")
    case Some(name) =>
      UploadUrl(name);
      var g := GalleryImage(OptText(f.title), OptText(f.description), Trim(GalleryDir + name), OptText(f.category),
                            OptDate(f.projectDate), IsTrueFlag(f.isFeatured));
      assert Valid(g);
      Accept(g)
  }

  /** POST / : stores the upload's document, or answers 400 and stores nothing. */
  method Create(s: Store, file: Option<string>, f: ImageForm, now: int) returns (r: Reply<Doc<GalleryImage>>)
    requires s.Valid()
    modifies s.gallery
    ensures s.Valid()
    ensures file.None? ==> r == Fail(BAD_REQUEST, "No image file provided") && s.gallery.rows == old(s.gallery.rows)
    ensures file.Some? ==> && r.Ok? && r.code == CREATED && r.body == Doc(r.body.id, now, now, NewImage(file, f).value)
                           && r.body.id !in old(s.gallery.rows) && s.gallery.rows == old(s.gallery.rows)[r.body.id := r.body]
  {
    r := Admit(s.gallery, NewImage(file, f), now);
  }

  /** The fields an update sets: `None` leaves a field alone, `Some(None)` clears it. */
  datatype ImagePatch = ImagePatch(
    title: Option<Option<string>>,
    description: Option<Option<string>>,
    category: Option<Option<string>>,
    projectDate: Option<Option<string>>,
    isFeatured: Option<bool>)

  predicate PatchValid(p: ImagePatch)
  {
    && (p.title.Some? ==> TrimmedOpt(p.title.value))
    && (p.description.Some? ==> TrimmedOpt(p.description.value))
    && (p.category.Some? ==> TrimmedOpt(p.category.value))
  }

  /** `findByIdAndUpdate` with the patch: the fields it names change, every other field (the image URL among them) is kept. */
  function ApplyPatch(g: GalleryImage, p: ImagePatch): (r: GalleryImage)
    ensures r.imageUrl == g.imageUrl
    ensures r.title == (if p.title.Some? then p.title.value else g.title)
    ensures r.description == (if p.description.Some? then p.description.value else g.description)
    ensures r.category == (if p.category.Some? then p.category.value else g.category)
    ensures r.projectDate == (if p.projectDate.Some? then p.projectDate.value else g.projectDate)
    ensures r.isFeatured == (if p.isFeatured.Some? then p.isFeatured.value else g.isFeatured)
    ensures Valid(g) && PatchValid(p) ==> Valid(r)
  {
    g.(title := p.title.GetOr(g.title),
       description := p.description.GetOr(g.description),
       category := p.category.GetOr(g.category),
       projectDate := p.projectDate.GetOr(g.projectDate),
       isFeatured := p.isFeatured.GetOr(g.isFeatured))
  }

  /** Some field of the body is not `undefined`. */
  predicate SetsSomething(f: ImageForm)
  {
    Defined(f.title) || Defined(f.description) || Defined(f.category) || Defined(f.projectDate) || Defined(f.isFeatured)
  }

  /** The update the body asks for: every defined field is set as given (null clears it), `isFeatured` coerced; 400 when none is. */
  function ImageChanges(f: ImageForm): (r: Outcome<ImagePatch>)
    ensures r.Reject? <==> !SetsSomething(f)
    ensures r.Reject? ==> r == Reject(BAD_REQUEST, "No valid fields to update")
    ensures r.Accept? ==> PatchValid(r.value)
    ensures r.Accept? ==> && (r.value.title.Some? <==> Defined(f.title)) && (r.value.title.Some? ==> r.value.title.value == SetText(f.title))
                          && (r.value.description.Some? <==> Defined(f.description)) && (r.value.description.Some? ==> r.value.description.value == SetText(f.description))
                          && (r.value.category.Some? <==> Defined(f.category)) && (r.value.category.Some? ==> r.value.category.value == SetText(f.category))
                          && (r.value.projectDate.Some? <==> Defined(f.projectDate)) && (r.value.projectDate.Some? ==> r.value.projectDate.value == SetDate(f.projectDate))
    ensures r.Accept? ==> && (r.value.isFeatured.Some? <==> Defined(f.isFeatured))
                          && (r.value.isFeatured.Some? ==> (r.value.isFeatured.value <==> f.isFeatured == Str("true") || f.isFeatured == Bool(true)))
  {
    if !SetsSomething(f) then
      Reject(BAD_REQUEST, "No valid fields to update")
    else
      Accept(ImagePatch(DefinedText(f.title), DefinedText(f.description), DefinedText(f.category),
                        if Defined(f.projectDate) then Some(SetDate(f.projectDate)) else None,
                        if Defined(f.isFeatured) then Some(IsTrueFlag(f.isFeatured)) else None))
  }

  /** PUT /:id : the id is checked first, then the body; 404 when no image has the id. */
  method Update(s: Store, id: IdParam, f: ImageForm, now: int) returns (r: Reply<Doc<GalleryImage>>)
    requires s.Valid()
    modifies s.gallery
    ensures s.Valid()
    ensures id.Malformed? ==> r == Fail(BAD_REQUEST, "Invalid gallery image ID")
    ensures id.Key? && !SetsSomething(f) ==> r == Fail(BAD_REQUEST, "No valid fields to update")
    ensures id.Key? && SetsSomething(f) && id.id !in old(s.gallery.rows) ==> r == Fail(NOT_FOUND, "Gallery image not found")
    ensures id.Key? && SetsSomething(f) && id.id in old(s.gallery.rows) ==> r.Ok?
    ensures r.Fail? ==> s.gallery.rows == old(s.gallery.rows)
    ensures r.Ok? ==> && id.Key? && SetsSomething(f) && id.id in old(s.gallery.rows)
                      && r == Ok(OK, old(s.gallery.rows)[id.id].(updatedAt := now, data := ApplyPatch(old(s.gallery.rows)[id.id].data, ImageChanges(f).value)))
                      && s.gallery.rows == old(s.gallery.rows)[id.id := r.body]
  {
    if id.Malformed? {
      return Fail(BAD_REQUEST, "Invalid gallery image ID");
    }
    var changes := ImageChanges(f);
    if changes.Reject? {
      return Fail(changes.code, changes.error);
    }
    var p := changes.value;
    var patch := (g: GalleryImage) => ApplyPatch(g, p);
    r := Revise(s.gallery, id.id, patch, now, "Gallery image not found");
  }

  /** DELETE /:id : removes exactly that image, or answers 400/404 and removes nothing. */
  method Delete(s: Store, id: IdParam) returns (r: Reply<string>)
    requires s.Valid()
    modifies s.gallery
    ensures s.Valid()
    ensures id.Malformed? ==> r == Fail(BAD_REQUEST, "Invalid gallery image ID") && s.gallery.rows == old(s.gallery.rows)
    ensures id.Key? && id.id !in old(s.gallery.rows) ==> r == Fail(NOT_FOUND, "Gallery image not found")
    ensures id.Key? ==> s.gallery.rows == old(s.gallery.rows) - {id.id}
    ensures id.Key? && id.id in old(s.gallery.rows) ==> r == Ok(OK, "Gallery image deleted successfully")
  {
    if id.Malformed? {
      return Fail(BAD_REQUEST, "Invalid gallery image ID");
    }
    var removed := s.gallery.Delete(id.id);
    if removed.None? {
      r := Fail(NOT_FOUND, "Gallery image not found");
    } else {
      r := Ok(OK, "Gallery image deleted successfully");
    }
  }
}

=== FILE: galleryimage.dfy ===
/**
 * The GalleryImage schema: a required trimmed `imageUrl`, optional
 * `title`, `description`, `category` and `projectDate`, and `isFeatured`
 * defaulting to false.
 */
module GalleryModel {
  import opened Wrappers
  import opened Strings
  import opened Schema

  datatype GalleryImage = GalleryImage(
    title: Option<string>,
    description: Option<string>,
    imageUrl: string,
    category: Option<string>,
    projectDate: Option<string>,
    isFeatured: bool)

  /** What the schema's setters and validators guarantee of a stored image. */
  predicate Valid(g: GalleryImage)
  {
    && TrimmedOpt(g.title)
    && TrimmedOpt(g.description)
    && Required(g.imageUrl)
    && TrimmedOpt(g.category)
  }
}

=== FILE: http.dfy ===
/**
 * What a handler sends back: a status code with a JSON body, or a status
 * code with the `{ error }` message the route writes. Also the outcome of
 * the JSON Web Token checks, which are not modelled themselves.
 */
module Http {

  datatype Reply<T> = Ok(code: nat, body: T) | Fail(code: nat, error: string)
  {
    function Code(): nat
    {
      match this
      case Ok(c, _) => c
      case Fail(c, _) => c
    }
  }

  const OK: nat := 200
  const CREATED: nat := 201
  const BAD_REQUEST: nat := 400
  const UNAUTHORIZED: nat := 401
  const FORBIDDEN: nat := 403
  const NOT_FOUND: nat := 404
  const CONFLICT: nat := 409
  const SERVER_ERROR: nat := 500

  /**
   * `jwt.verify` applied to the bearer token: no token in the header, a token
   * that fails with the named error (`JsonWebTokenError`, `TokenExpiredError`, ...),
   * or the decoded claims.
   */
  datatype TokenCheck = NoToken | Invalid(errorName: string) | Verified(role: string, userId: nat)

  /** A handler's decision before it touches the store: go ahead with a value, or answer with an error. */
  datatype Outcome<T> = Accept(value: T) | Reject(code: nat, error: string)

  /** A page of a listing, with the page number and size echoed back. */
  datatype Page<T> = Page(items: seq<T>, page: nat, limit: nat)

  /** A page of a listing with the number of matching documents and `Math.ceil(totalCount / limit)`. */
  datatype CountedPage<T> = CountedPage(items: seq<T>, page: nat, limit: nat, totalCount: nat, totalPages: nat)
}

=== FILE: ordering.dfy ===
/**
 * The query shapes the handlers build on top of the store: filtering,
 * sorting by a key, the skip-then-limit window, `Math.ceil(total / limit)`,
 * and `$group` counting with `$sort` and `$limit` on the groups.
 */
module Ordering {

  /** `le` orders every pair and is transitive: a sort key, possibly with ties. */
  ghost predicate TotalPreorder<T(!new)>(le: (T, T) -> bool)
  {
    (forall a, b :: le(a, b) || le(b, a)) &&
    (forall a, b, c :: le(a, b) && le(b, c) ==> le(a, c))
  }

  predicate SortedBy<T(!new)>(s: seq<T>, le: (T, T) -> bool)
  {
    forall i, j :: 0 <= i < j < |s| ==> le(s[i], s[j])
  }

  /** Each element occurs at most once. */
  ghost predicate NoDups<T(!new)>(s: seq<T>)
  {
    forall x :: multiset(s)[x] <= 1
  }

  lemma NoDupsAt<T(!new)>(s: seq<T>, i: nat, j: nat)
    requires NoDups(s)
    requires i < j < |s|
    ensures s[i] != s[j]
  {
    assert s == s[..j] + s[j..];
    assert s[i] in s[..j];
    assert s[j] in s[j..];
    assert multiset(s) == multiset(s[..j]) + multiset(s[j..]);
    assert multiset(s[..j])[s[i]] >= 1 && multiset(s[j..])[s[j]] >= 1;
    assert multiset(s)[s[i]] == multiset(s[..j])[s[i]] + multiset(s[j..])[s[i]];
  }

  /** Places `x` before the first element it is `le`, keeping a sorted input sorted. */
  function Insert<T(!new)>(x: T, s: seq<T>, le: (T, T) -> bool): (r: seq<T>)
    ensures multiset(r) == multiset(s) + multiset{x}
  {
    if s == [] then [x]
    else if le(x, s[0]) then [x] + s
    else
      assert s == [s[0]] + s[1..];
      [s[0]] + Insert(x, s[1..], le)
  }

  /** Insertion sort: a permutation of `s` that is sorted by `le` (proved in `SortSorted`). */
  function Sort<T(!new)>(s: seq<T>, le: (T, T) -> bool): (r: seq<T>)
    ensures multiset(r) == multiset(s)
    ensures |r| == |s|
  {
    if s == [] then []
    else
      assert s == [s[0]] + s[1..];
      Insert(s[0], Sort(s[1..], le), le)
  }

  lemma {:induction false} InsertSorted<T(!new)>(x: T, s: seq<T>, le: (T, T) -> bool)
    requires TotalPreorder(le)
    requires SortedBy(s, le)
    ensures SortedBy(Insert(x, s, le), le)
  {
    if s != [] && !le(x, s[0]) {
      var rest := Insert(x, s[1..], le);
      InsertSorted(x, s[1..], le);
      forall y | y in rest
        ensures le(s[0], y)
      {
        assert y in multiset(rest);
        assert y == x || y in s[1..];
      }
      SortedCons(s[0], rest, le);
    }
  }

  /** A head that is `le` every element of a sorted tail gives a sorted sequence. */
  lemma SortedCons<T(!new)>(h: T, t: seq<T>, le: (T, T) -> bool)
    requires SortedBy(t, le)
    requires forall y :: y in t ==> le(h, y)
    ensures SortedBy([h] + t, le)
  {
    var r := [h] + t;
    forall i, j | 0 <= i < j < |r|
      ensures le(r[i], r[j])
    {
      assert r[j] == t[j - 1];
      if i > 0 {
        assert r[i] == t[i - 1];
      }
    }
  }

  lemma {:induction false} SortSorted<T(!new)>(s: seq<T>, le: (T, T) -> bool)
    requires TotalPreorder(le)
    ensures SortedBy(Sort(s, le), le)
  {
    if s != [] {
      SortSorted(s[1..], le);
      InsertSorted(s[0], Sort(s[1..], le), le);
    }
  }

  /** The elements of `s` satisfying `p`, in their order in `s`. */
  function Filter<T(!new)>(s: seq<T>, p: T -> bool): (r: seq<T>)
    ensures |r| <= |s|
    ensures forall x :: x in r <==> x in s && p(x)
  {
    if s == [] then []
    else
      assert forall x :: x in s <==> x == s[0] || x in s[1..];
      (if p(s[0]) then [s[0]] else []) + Filter(s[1..], p)
  }

  lemma {:induction false} FilterAppend<T(!new)>(a: seq<T>, b: seq<T>, p: T -> bool)
    ensures Filter(a + b, p) == Filter(a, p) + Filter(b, p)
  {
    if a == [] {
      assert a + b == b;
    } else {
      var ab := a + b;
      assert ab[0] == a[0] && ab[1..] == a[1..] + b;
      FilterAppend(a[1..], b, p);
      var head := if p(a[0]) then [a[0]] else [];
      calc {
        Filter(ab, p);
        head + Filter(a[1..] + b, p);
        head + (Filter(a[1..], p) + Filter(b, p));
        (head + Filter(a[1..], p)) + Filter(b, p);
      }
    }
  }

  /** A `page` or `limit` query parameter: a positive whole number. */
  type Positive = n: nat | n >= 1 witness 1

  /** `(page - 1) * limit`, the number of documents before the requested page. */
  function Skip(page: Positive, limit: Positive): nat
  {
    (page - 1) * limit
  }

  /** Mongo's `.skip(skip).limit(limit)`: skip is applied first, whatever the order in the call chain. */
  function Window<T(!new)>(s: seq<T>, skip: nat, limit: nat): (r: seq<T>)
    ensures |r| == if skip >= |s| then 0 else if |s| - skip < limit then |s| - skip else limit
    ensures forall i :: 0 <= i < |r| ==> r[i] == s[skip + i]
  {
    if skip >= |s| then []
    else if skip + limit <= |s| then s[skip..skip + limit]
    else s[skip..]
  }

  /** The result of `find(filter).sort(key).skip(skip).limit(limit)` when ties may fall in any order. */
  ghost predicate IsListing<T(!new)>(r: seq<T>, pool: seq<T>, le: (T, T) -> bool, skip: nat, limit: nat)
  {
    exists s :: multiset(s) == multiset(pool) && SortedBy(s, le) && r == Window(s, skip, limit)
  }

  /** Matching records sorted by `le`, then windowed. */
  function Listing<T(!new)>(records: seq<T>, p: T -> bool, le: (T, T) -> bool, skip: nat, limit: nat): seq<T>
  {
    Window(Sort(Filter(records, p), le), skip, limit)
  }

  /** A listing is a window of the matching records in sorted order, and holds only matching records. */
  lemma ListingSpec<T(!new)>(records: seq<T>, p: T -> bool, le: (T, T) -> bool, skip: nat, limit: nat)
    requires TotalPreorder(le)
    ensures IsListing(Listing(records, p, le, skip, limit), Filter(records, p), le, skip, limit)
    ensures forall x :: x in Listing(records, p, le, skip, limit) ==> x in records && p(x)
    ensures |Listing(records, p, le, skip, limit)| <= limit
  {
    var sorted := Sort(Filter(records, p), le);
    SortSorted(Filter(records, p), le);
    var r := Window(sorted, skip, limit);
    forall x | x in r
      ensures x in records && p(x)
    {
      var i :| 0 <= i < |r| && r[i] == x;
      assert x == sorted[skip + i];
      assert x in multiset(sorted);
    }
  }

  /** `Math.ceil(n / d)` for a positive divisor. */
  function CeilDiv(n: nat, d: nat): (r: nat)
    requires d > 0
    ensures r * d >= n
    ensures r == 0 || (r - 1) * d < n
  {
    (n + d - 1) / d
  }

  /** `f` applied to each element, in order. */
  function Project<T(!new), K(!new)>(s: seq<T>, f: T -> K): (r: seq<K>)
    ensures |r| == |s|
    ensures forall i :: 0 <= i < |s| ==> r[i] == f(s[i])
  {
    if s == [] then [] else [f(s[0])] + Project(s[1..], f)
  }

  /** The first `n` elements, or all of them: `$limit`. */
  function Take<T(!new)>(s: seq<T>, n: nat): (r: seq<T>)
    ensures |r| == if |s| < n then |s| else n
    ensures r == s[..|r|]
  {
    if |s| <= n then s else s[..n]
  }

  /** The distinct elements of `s`, each once. */
  function Distinct<T(==,!new)>(s: seq<T>): (r: seq<T>)
    ensures NoDups(r)
    ensures forall x :: x in r <==> x in s
  {
    if s == [] then []
    else if s[0] in s[1..] then
      assert forall x :: x in s <==> x == s[0] || x in s[1..];
      Distinct(s[1..])
    else
      var rest := Distinct(s[1..]);
      assert s[0] !in multiset(rest);
      assert forall x :: x in s <==> x == s[0] || x in s[1..];
      [s[0]] + rest
  }

  /** A `$group` output row: a key and how many documents carried it. */
  datatype Tally<K> = Tally(key: K, count: nat)

  /** One row per key of `ks`, counting that key in `m`. */
  function Tallies<K(==,!new)>(ks: seq<K>, m: multiset<K>): (r: seq<Tally<K>>)
    ensures |r| == |ks|
    ensures forall i :: 0 <= i < |ks| ==> r[i] == Tally(ks[i], m[ks[i]])
  {
    if ks == [] then [] else [Tally(ks[0], m[ks[0]])] + Tallies(ks[1..], m)
  }

  function TallySum<K(!new)>(r: seq<Tally<K>>): nat
  {
    if r == [] then 0 else r[0].count + TallySum(r[1..])
  }

  /** `$group: { _id: key, count: { $sum: 1 } }` over the keys `s`, in no particular order. */
  function GroupCount<K(==,!new)>(s: seq<K>): seq<Tally<K>>
  {
    Tallies(Distinct(s), multiset(s))
  }

  lemma {:induction false} TallySumAdd<K(!new)>(ks: seq<K>, m: multiset<K>, x: K)
    requires NoDups(ks)
    ensures TallySum(Tallies(ks, m + multiset{x})) == TallySum(Tallies(ks, m)) + (if x in ks then 1 else 0)
  {
    if ks != [] {
      var rest := ks[1..];
      assert ks == [ks[0]] + rest;
      assert multiset(ks) == multiset{ks[0]} + multiset(rest);
      assert NoDups(rest) by {
        forall y
          ensures multiset(rest)[y] <= 1
        {
          assert multiset(ks)[y] <= 1;
        }
      }
      assert ks[0] !in rest by {
        assert multiset(ks)[ks[0]] <= 1;
      }
      TallySumAdd(rest, m, x);
      assert Tallies(ks, m + multiset{x})[1..] == Tallies(rest, m + multiset{x});
      assert Tallies(ks, m)[1..] == Tallies(rest, m);
      assert x in ks <==> x == ks[0] || x in rest;
    }
  }

  lemma {:induction false} TallySumAll<K(!new)>(ks: seq<K>, s: seq<K>)
    requires NoDups(ks)
    requires forall x :: x in s ==> x in ks
    ensures TallySum(Tallies(ks, multiset(s))) == |s|
  {
    if s == [] {
      TallySumEmpty(ks);
    } else {
      var t := s[..|s| - 1];
      var x := s[|s| - 1];
      assert s == t + [x];
      assert multiset(s) == multiset(t) + multiset{x};
      TallySumAll(ks, t);
      TallySumAdd(ks, multiset(t), x);
    }
  }

  lemma {:induction false} TallySumEmpty<K(!new)>(ks: seq<K>)
    ensures TallySum(Tallies(ks, multiset{})) == 0
  {
    if ks != [] {
      TallySumEmpty(ks[1..]);
      assert Tallies(ks, multiset{})[1..] == Tallies(ks[1..], multiset{});
    }
  }

  /** The group counts add up to the number of documents, there is one row per key, and each row counts its key. */
  lemma GroupCountSpec<K(!new)>(s: seq<K>)
    ensures TallySum(GroupCount(s)) == |s|
    ensures forall i, j :: 0 <= i < j < |GroupCount(s)| ==> GroupCount(s)[i].key != GroupCount(s)[j].key
    ensures forall k :: (exists i :: 0 <= i < |GroupCount(s)| && GroupCount(s)[i].key == k) <==> k in s
    ensures forall i :: 0 <= i < |GroupCount(s)| ==> GroupCount(s)[i].count == multiset(s)[GroupCount(s)[i].key]
  {
    var ks := Distinct(s);
    TallySumAll(ks, s);
    forall i, j | 0 <= i < j < |GroupCount(s)|
      ensures GroupCount(s)[i].key != GroupCount(s)[j].key
    {
      NoDupsAt(ks, i, j);
    }
    forall k
      ensures (exists i :: 0 <= i < |GroupCount(s)| && GroupCount(s)[i].key == k) <==> k in s
    {
      if k in s {
        assert k in ks;
        var i :| 0 <= i < |ks| && ks[i] == k;
        assert GroupCount(s)[i].key == k;
      }
    }
  }

  /** Rows with pairwise different keys are pairwise different rows. */
  lemma {:induction false} DistinctKeysNoDups<K(!new)>(g: seq<Tally<K>>)
    requires forall i, j :: 0 <= i < j < |g| ==> g[i].key != g[j].key
    ensures NoDups(g)
  {
    if g != [] {
      var rest := g[1..];
      assert g == [g[0]] + rest;
      DistinctKeysNoDups(rest);
      assert g[0] !in rest by {
        forall j | 0 <= j < |rest|
          ensures rest[j] != g[0]
        {
          assert rest[j] == g[j + 1];
        }
      }
      forall x
        ensures multiset(g)[x] <= 1
      {
        assert multiset(g)[x] == multiset([g[0]])[x] + multiset(rest)[x];
      }
    }
  }

  lemma {:induction false} TallySumInsert<K(!new)>(x: Tally<K>, s: seq<Tally<K>>, le: (Tally<K>, Tally<K>) -> bool)
    ensures TallySum(Insert(x, s, le)) == x.count + TallySum(s)
  {
    if s != [] && !le(x, s[0]) {
      TallySumInsert(x, s[1..], le);
      assert Insert(x, s, le)[1..] == Insert(x, s[1..], le);
    }
  }

  /** Reordering the rows of a grouping keeps their total. */
  lemma {:induction false} TallySumSort<K(!new)>(s: seq<Tally<K>>, le: (Tally<K>, Tally<K>) -> bool)
    ensures TallySum(Sort(s, le)) == TallySum(s)
  {
    if s != [] {
      TallySumSort(s[1..], le);
      TallySumInsert(s[0], Sort(s[1..], le), le);
    }
  }

  /** Smallest of a non-empty list: `$min`. */
  function MinOf(s: seq<real>): (r: real)
    requires |s| > 0
    ensures r in s
    ensures forall x :: x in s ==> r <= x
  {
    if |s| == 1 then s[0]
    else
      var m := MinOf(s[1..]);
      assert forall x :: x in s ==> x == s[0] || x in s[1..];
      if s[0] <= m then s[0] else m
  }

  /** Largest of a non-empty list: `$max`. */
  function MaxOf(s: seq<real>): (r: real)
    requires |s| > 0
    ensures r in s
    ensures forall x :: x in s ==> x <= r
  {
    if |s| == 1 then s[0]
    else
      var m := MaxOf(s[1..]);
      assert forall x :: x in s ==> x == s[0] || x in s[1..];
      if s[0] >= m then s[0] else m
  }

  /** A reordering of a grouping of `s` is again a grouping of `s`: distinct keys, exactly the keys of `s`, exact counts. */
  lemma PermutedGrouping<K(!new)>(s: seq<K>, g: seq<Tally<K>>, r: seq<Tally<K>>)
    requires multiset(r) == multiset(g)
    requires forall i, j :: 0 <= i < j < |g| ==> g[i].key != g[j].key
    requires forall k :: (exists i :: 0 <= i < |g| && g[i].key == k) <==> k in s
    requires forall i :: 0 <= i < |g| ==> g[i].count == multiset(s)[g[i].key]
    ensures forall i, j :: 0 <= i < j < |r| ==> r[i].key != r[j].key
    ensures forall k :: (exists i :: 0 <= i < |r| && r[i].key == k) <==> k in s
    ensures forall i :: 0 <= i < |r| ==> r[i].count == multiset(s)[r[i].key]
  {
    forall i | 0 <= i < |r|
      ensures r[i].count == multiset(s)[r[i].key] && r[i].key in s
    {
      assert r[i] in multiset(g);
      var j :| 0 <= j < |g| && g[j] == r[i];
    }
    DistinctKeysNoDups(g);
    assert NoDups(r) by {
      forall x
        ensures multiset(r)[x] <= 1
      {
        assert multiset(r)[x] == multiset(g)[x];
      }
    }
    forall i, j | 0 <= i < j < |r|
      ensures r[i].key != r[j].key
    {
      NoDupsAt(r, i, j);
    }
    forall k | k in s
      ensures exists i :: 0 <= i < |r| && r[i].key == k
    {
      var j :| 0 <= j < |g| && g[j].key == k;
      assert g[j] in multiset(r);
      var i :| 0 <= i < |r| && r[i] == g[j];
    }
  }

  /**
   * A grouping in any order keeps what `GroupCountSpec` promises: one row per
   * distinct key, the row's count is that key's number of occurrences, and the
   * counts add up to the number of keys.
   */
  lemma GroupSortSpec<K(!new)>(s: seq<K>, le: (Tally<K>, Tally<K>) -> bool)
    ensures TallySum(Sort(GroupCount(s), le)) == |s|
    ensures forall i, j :: 0 <= i < j < |Sort(GroupCount(s), le)| ==> Sort(GroupCount(s), le)[i].key != Sort(GroupCount(s), le)[j].key
    ensures forall k :: (exists i :: 0 <= i < |Sort(GroupCount(s), le)| && Sort(GroupCount(s), le)[i].key == k) <==> k in s
    ensures forall i :: 0 <= i < |Sort(GroupCount(s), le)| ==> Sort(GroupCount(s), le)[i].count == multiset(s)[Sort(GroupCount(s), le)[i].key]
  {
    var g := GroupCount(s);
    GroupCountSpec(s);
    TallySumSort(g, le);
    PermutedGrouping(s, g, Sort(g, le));
  }

  /** How often `k` occurs among the keys of `s` is the number of elements of `s` that `q` picks out, when `q` tests for key `k`. */
  lemma {:induction false} ProjectCount<T(!new), K(!new)>(s: seq<T>, f: T -> K, k: K, q: T -> bool)
    requires forall x :: q(x) <==> f(x) == k
    ensures multiset(Project(s, f))[k] == |Filter(s, q)|
  {
    if s != [] {
      ProjectCount(s[1..], f, k, q);
      assert Project(s, f) == [f(s[0])] + Project(s[1..], f);
    }
  }
}

=== FILE: schema.dfy ===
/**
 * How mongoose stores a body value in a String path declared `trim: true`:
 * the value is cast with `String(v)`, trimmed, and a `required` path rejects
 * null, undefined and the empty string left after trimming.
 */
module Schema {
  import opened Wrappers
  import opened Strings
  import opened Values
  import opened Email

  /** A required trimmed string path as stored: non-empty and trimmed. */
  predicate Required(s: string)
  {
    s != "" && Trimmed(s)
  }

  /** An optional trimmed string path as stored. */
  predicate TrimmedOpt(o: Option<string>)
  {
    o.Some? ==> Trimmed(o.value)
  }

  /** A value assigned to a required trimmed path: `None` when the `required` validator rejects it. */
  function RequiredText(v: Value): (r: Option<string>)
    ensures r.Some? ==> Required(r.value) && r.value == Trim(Text(v))
    ensures r.None? <==> v.Absent? || v.Null? || Trim(Text(v)) == ""
  {
    TrimSpec(Text(v));
    if v.Absent? || v.Null? || Trim(Text(v)) == "" then None else Some(Trim(Text(v)))
  }

  /** `v || null` assigned to an optional trimmed path. */
  function OptText(v: Value): (r: Option<string>)
    ensures TrimmedOpt(r)
    ensures r.Some? <==> Truthy(v)
    ensures r.Some? ==> r.value == Trim(Text(v))
  {
    TrimSpec(Text(v));
    if Truthy(v) then Some(Trim(Text(v))) else None
  }

  /** A value assigned as-is to an optional trimmed path: undefined leaves it unset and null clears it. */
  function SetText(v: Value): (r: Option<string>)
    ensures TrimmedOpt(r)
    ensures r.None? <==> v.Absent? || v.Null?
    ensures r.Some? ==> r.value == Trim(Text(v))
  {
    TrimSpec(Text(v));
    if v.Absent? || v.Null? then None else Some(Trim(Text(v)))
  }

  /** `v || null` assigned to a `Date` path, kept as the submitted text. */
  function OptDate(v: Value): (r: Option<string>)
    ensures r.Some? <==> Truthy(v)
    ensures r.Some? ==> r.value == Text(v)
  {
    if Truthy(v) then Some(Text(v)) else None
  }

  /** A value assigned as-is to a `Date` path, kept as the submitted text: null clears it. */
  function SetDate(v: Value): (r: Option<string>)
    ensures r.None? <==> v.Absent? || v.Null?
    ensures r.Some? ==> r.value == Text(v)
  {
    if v.Absent? || v.Null? then None else Some(Text(v))
  }

  /** A value assigned to a path declared `trim: true, lowercase: true`; a valid e-mail is stored lower-cased and otherwise as given. */
  function LowerText(v: Value): (r: string)
    ensures Trimmed(r) && Lower(r) == r
    ensures IsEmail(Text(v)) ==> r == Lower(Text(v)) && Required(r)
  {
    TrimSpec(Text(v));
    LowerSpec(Trim(Text(v)));
    // a valid e-mail has no whitespace for the trim setter to remove
    if IsEmail(Text(v)) then
      EmailIsTrimmed(Text(v));
      Lower(Text(v))
    else
      Lower(Trim(Text(v)))
  }

  /** `if (v !== undefined) update.path = v` on an optional trimmed String path: set (possibly to null) when defined, otherwise left alone. */
  function DefinedText(v: Value): (r: Option<Option<string>>)
    ensures r.Some? <==> Defined(v)
    ensures r.Some? ==> r.value == SetText(v) && TrimmedOpt(r.value)
  {
    if Defined(v) then Some(SetText(v)) else None
  }
}

=== FILE: server.dfy ===
/**
 * The decisions `server.js` makes around the routers: which origins CORS
 * lets through, which work-order requests must carry a token, how an error
 * that reaches the error handler becomes a status, what an unmatched GET
 * serves, and the guarded admin dashboard.
 */
module Server {
  import opened Wrappers
  import opened Strings
  import opened Http
  import opened Collections
  import opened Database

  /** The origins allowed when `ALLOWED_ORIGINS` is unset or empty. */
  const DefaultOrigins: seq<string> := ["http://localhost:3000", "http://localhost:5173", "http://localhost:8080"]

  /** Any origin with this ending is allowed. */
  const VercelSuffix: string := ".vercel.app"

  /** `ALLOWED_ORIGINS` split at commas, or the defaults when the variable is unset or empty. */
  function AllowedOrigins(env: Option<string>): seq<string>
  {
    if env.Some? && env.value != "" then Split(env.value, ',') else DefaultOrigins
  }

  /**
   * The `origin` callback: a request without an `Origin` header (or with an
   * empty one) passes; otherwise the origin must be listed or end in
   * `.vercel.app`, and anything else is refused with 'Not allowed by CORS'.
   */
  function CorsAllows(origin: Option<string>, env: Option<string>): (r: bool)
    ensures origin.None? || origin == Some("") ==> r
    ensures origin.Some? && origin.value in AllowedOrigins(env) ==> r
    ensures origin.Some? && EndsWith(origin.value, VercelSuffix) ==> r
    ensures (origin.Some? && origin.value != "" && origin.value !in AllowedOrigins(env) && !EndsWith(origin.value, VercelSuffix)) ==> !r
  {
    if origin.None? || origin.value == "" then true
    else origin.value in AllowedOrigins(env) || EndsWith(origin.value, VercelSuffix)
  }

  /**
   * A deployment that lists its origins as a comma-joined `ALLOWED_ORIGINS`
   * allows exactly the listed origins, the Vercel domains and requests
   * without an origin.
   */
  lemma {:induction false} CorsConfigured(listed: seq<string>, origin: string)
    requires |listed| >= 1 && Join(listed, ',') != ""
    requires forall i :: 0 <= i < |listed| ==> ',' !in listed[i]
    ensures CorsAllows(Some(origin), Some(Join(listed, ','))) <==> origin == "" || origin in listed || EndsWith(origin, VercelSuffix)
  {
    JoinSplit(listed, ',');
  }

  /** Without configuration, the three local development servers are allowed and other local ports are not. */
  lemma CorsDefaults()
    ensures CorsAllows(Some("http://localhost:5173"), None)
    ensures !CorsAllows(Some("http://localhost:4000"), None)
  {
    var refused := "http://localhost:4000";
    assert refused[|refused| - 1] == '0' != VercelSuffix[|VercelSuffix| - 1];
    assert refused != DefaultOrigins[0] && refused != DefaultOrigins[1] && refused != DefaultOrigins[2] by {
      assert refused[20] == '0';
    }
  }

  /** A middleware's verdict: hand the request on, or answer it with a status. */
  datatype Gate = Next | Stop(code: nat)

  /**
   * `authenticateToken` from middleware/auth.js, which is not part of this
   * model: a verified token passes, and a missing or failing one is answered 401.
   */
  function AuthenticateToken(token: TokenCheck): (r: Gate)
    ensures r.Next? <==> token.Verified?
    ensures r.Stop? ==> r.code == UNAUTHORIZED
  {
    if token.Verified? then Next else Stop(UNAUTHORIZED)
  }

  /** `requireAdmin`, also from middleware/auth.js: the admin role passes, any other is answered 403. */
  function RequireAdmin(role: string): (r: Gate)
    ensures r.Next? <==> role == "admin"
    ensures r.Stop? ==> r.code == FORBIDDEN
  {
    if role == "admin" then Next else Stop(FORBIDDEN)
  }

  /**
   * The middleware in front of the work-order router: submissions (any POST)
   * and the signed-in customer's `GET /my-orders` go straight through, every
   * other request needs a verified token.
   */
  function WorkOrderGate(verb: string, path: string, token: TokenCheck): (r: Gate)
    ensures verb == "POST" ==> r.Next?
    ensures verb == "GET" && path == "/my-orders" ==> r.Next?
    ensures r.Next? <==> verb == "POST" || (verb == "GET" && path == "/my-orders") || token.Verified?
    ensures r.Stop? ==> r == Stop(UNAUTHORIZED)
  {
    if verb == "POST" then Next
    else if verb == "GET" && path == "/my-orders" then Next
    else AuthenticateToken(token)
  }

  /** A request of the admin work-order routes reaches them only with a verified token. */
  lemma AdminOrdersNeedToken(verb: string, path: string, token: TokenCheck)
    requires verb in {"GET", "PUT", "DELETE"} && path != "/my-orders"
    ensures WorkOrderGate(verb, path, token).Next? <==> token.Verified?
  {
  }

  /** What the routers throw on to the error handler. */
  datatype ServerError = ServerError(fromUpload: bool, code: Option<string>, status: Option<nat>, message: string)

  /** The error handler's answer: a status, the `error` text and, for the generic case, a `message`. */
  datatype ErrorReply = ErrorReply(status: nat, error: string, message: Option<string>)

  /**
   * The error handler: the upload size and count limits are 400, a unique
   * constraint violation is 409, anything else keeps the status it carries
   * (500 when it carries none, or 0), with the error's own message only in
   * development.
   */
  function HandleError(e: ServerError, development: bool): (r: ErrorReply)
    ensures e.fromUpload && e.code == Some("LIMIT_FILE_SIZE") ==> r == ErrorReply(BAD_REQUEST, "File too large. Maximum size is 5MB.", None)
    ensures e.fromUpload && e.code == Some("LIMIT_FILE_COUNT") ==> r == ErrorReply(BAD_REQUEST, "Too many files. Maximum is 5 files per upload.", None)
    ensures (!(e.fromUpload && e.code in {Some("LIMIT_FILE_SIZE"), Some("LIMIT_FILE_COUNT")}) && e.code == Some("SQLITE_CONSTRAINT_UNIQUE"))
              ==> r == ErrorReply(CONFLICT, "Duplicate entry. Resource already exists.", None)
    ensures (!(e.fromUpload && e.code in {Some("LIMIT_FILE_SIZE"), Some("LIMIT_FILE_COUNT")}) && e.code != Some("SQLITE_CONSTRAINT_UNIQUE"))
              ==> && r.error == "Internal server error"
                  && r.status == (if e.status.Some? && e.status.value != 0 then e.status.value else SERVER_ERROR)
                  && r.message == Some(if development then e.message else "Something went wrong")
    ensures r.status != 0
  {
    if e.fromUpload && e.code == Some("LIMIT_FILE_SIZE") then
      ErrorReply(BAD_REQUEST, "File too large. Maximum size is 5MB.", None)
    else if e.fromUpload && e.code == Some("LIMIT_FILE_COUNT") then
      ErrorReply(BAD_REQUEST, "Too many files. Maximum is 5 files per upload.", None)
    else if e.code == Some("SQLITE_CONSTRAINT_UNIQUE") then
      ErrorReply(CONFLICT, "Duplicate entry. Resource already exists.", None)
    else
      var status := if e.status.Some? && e.status.value != 0 then e.status.value else SERVER_ERROR;
      ErrorReply(status, "Internal server error", Some(if development then e.message else "Something went wrong"))
  }

  /** The routes the API 404 advertises. */
  const AvailableRoutes: seq<string> := ["/api/health", "/api/docs", "/api/services", "/api/work-orders", "/api/contact", "/api/gallery", "/api/auth"]

  /** What the final `GET *` handler serves. */
  datatype Fallback = ApiNotFound(availableRoutes: seq<string>) | IndexHtml

  /** An unmatched GET under `/api` is a JSON 404 listing the API routes; any other serves the client's index.html. */
  function CatchAll(path: string): (r: Fallback)
    ensures r.ApiNotFound? <==> StartsWith(path, "/api")
    ensures r.ApiNotFound? ==> r.availableRoutes == AvailableRoutes
  {
    if StartsWith(path, "/api") then ApiNotFound(AvailableRoutes) else IndexHtml
  }

  /** Every route the 404 advertises is itself an API path, so it is never answered with the client page. */
  lemma AdvertisedRoutesAreApi()
    ensures forall i :: 0 <= i < |AvailableRoutes| ==> CatchAll(AvailableRoutes[i]).ApiNotFound?
  {
    forall i | 0 <= i < |AvailableRoutes|
      ensures StartsWith(AvailableRoutes[i], "/api")
    {
      var route := AvailableRoutes[i];
      assert route[0] == '/' && route[1] == 'a' && route[2] == 'p' && route[3] == 'i';
      assert route[..4] == "/api";
    }
  }

  /** What a guarded route answers: the status of the gate that stopped it, or its body. */
  datatype Guarded<T> = Refused(code: nat) | Served(body: T)

  /**
   * `GET /api/admin/dashboard`: `authenticateToken`, then `requireAdmin`,
   * then the statistics of the current store.
   */
  function DashboardRoute(s: Store, token: TokenCheck, now: int): (r: Guarded<DashboardStats>)
    reads s, s.workOrders, s.workRequests, s.services, s.gallery, s.contacts, s.admins
    requires s.Valid()
    ensures !token.Verified? ==> r == Refused(UNAUTHORIZED)
    ensures token.Verified? && token.role != "admin" ==> r == Refused(FORBIDDEN)
    ensures r.Served? <==> token.Verified? && token.role == "admin"
    ensures r.Served? ==> r.body == Dashboard(s, now)
  {
    match AuthenticateToken(token)
    case Stop(code) => Refused(code)
    case Next =>
      match RequireAdmin(token.role)
      case Stop(code) => Refused(code)
      case Next => Served(Dashboard(s, now))
  }
}

=== FILE: service.dfy ===
/**
 * The Service schema: required trimmed `name` and `category`, a
 * `basePrice` with `min: 0`, `unit` defaulting to 'per hour', `isActive`
 * defaulting to true, and optional `description` and `imageUrl`.
 */
module ServiceModel {
  import opened Wrappers
  import opened Strings
  import opened Schema

  const DefaultUnit: string := "per hour"

  /** The default unit is stored as written: the `trim` setter has nothing to remove. */
  lemma DefaultUnitTrimmed()
    ensures Trimmed(DefaultUnit)
  {
    assert DefaultUnit[0] == 'p' && DefaultUnit[|DefaultUnit| - 1] == 'r';
  }

  /**
   * `basePrice` is always present here: both write paths that reach the
   * collection (creation and the price update) store a parsed number.
   * `isActive` is `None` when null was stored.
   */
  datatype Service = Service(
    name: string,
    description: Option<string>,
    category: string,
    basePrice: real,
    unit: Option<string>,
    isActive: Option<bool>,
    imageUrl: Option<string>)

  /** What the schema's setters and validators guarantee of a stored service. */
  predicate Valid(s: Service)
  {
    && Required(s.name)
    && TrimmedOpt(s.description)
    && Required(s.category)
    && s.basePrice >= 0.0
    && TrimmedOpt(s.unit)
    && TrimmedOpt(s.imageUrl)
  }

  /** Matched by `{ isActive: true }`. */
  predicate Active(s: Service)
  {
    s.isActive == Some(true)
  }
}

=== FILE: services_routes.dfy ===
/**
 * The `/api/services` router: the active-only listing sorted by category and
 * name, the per-category price aggregation, lookup, creation with the
 * `basePrice` checks, the partial update and deletion. None of these handlers
 * checks the id's format, so a malformed id reaches mongoose and fails with a
 * CastError, answered 500.
 */
module ServiceRoutes {
  import opened Wrappers
  import opened Strings
  import opened Values
  import opened Ordering
  import opened RecordStore
  import opened Schema
  import opened Http
  import opened ServiceModel
  import opened Collections

  /** `active_only` defaults to 'true' when the parameter is missing; only the exact text 'true' asks for active services. */
  predicate ActiveOnly(activeOnly: Query)
  {
    activeOnly.None? || activeOnly == Some("true")
  }

  /** The listing filter: `{ isActive: true }` when active-only, plus the exact category when one is given. */
  predicate ServiceMatches(activeOnly: Query, category: Query, v: Service)
  {
    && (ActiveOnly(activeOnly) ==> Active(v))
    && (Given(category) ==> v.category == category.value)
  }

  function ServiceFilter(activeOnly: Query, category: Query): Doc<Service> -> bool
  {
    (d: Doc<Service>) => ServiceMatches(activeOnly, category, d.data)
  }

  /** `.sort({ category: 1, name: 1 })` */
  predicate ByCategoryThenName(a: Doc<Service>, b: Doc<Service>)
  {
    if a.data.category == b.data.category then TextLe(a.data.name, b.data.name) else TextLe(a.data.category, b.data.category)
  }

  lemma ByCategoryThenNameOrders()
    ensures TotalPreorder(ByCategoryThenName)
  {
    forall a, b
      ensures ByCategoryThenName(a, b) || ByCategoryThenName(b, a)
    {
      TextLeTotal(a.data.name, b.data.name);
      TextLeTotal(a.data.category, b.data.category);
    }
    forall a, b, c | ByCategoryThenName(a, b) && ByCategoryThenName(b, c)
      ensures ByCategoryThenName(a, c)
    {
      KeyPairTransitive(a, b, c);
    }
  }

  lemma KeyPairTransitive(a: Doc<Service>, b: Doc<Service>, c: Doc<Service>)
    requires ByCategoryThenName(a, b) && ByCategoryThenName(b, c)
    ensures ByCategoryThenName(a, c)
  {
    var x, y, z := a.data.category, b.data.category, c.data.category;
    if x == y && y == z {
      TextLeTransitive(a.data.name, b.data.name, c.data.name);
    } else if x != y && y != z {
      TextLeTransitive(x, y, z);
      if x == z {
        TextLeAntisymmetric(x, y);
      }
    }
  }

  /** GET / : every matching service once, ordered by category and then name. */
  method List(s: Store, activeOnly: Query, category: Query) returns (r: Reply<seq<Doc<Service>>>)
    requires s.Valid()
    ensures r.Ok? && r.code == OK
    ensures multiset(r.body) == multiset(Filter(s.services.Records(), ServiceFilter(activeOnly, category)))
    ensures SortedBy(r.body, ByCategoryThenName)
    ensures forall d :: d in r.body ==> d in s.services.Records() && ServiceMatches(activeOnly, category, d.data)
  {
    ByCategoryThenNameOrders();
    var items := s.services.SelectAll(ServiceFilter(activeOnly, category), ByCategoryThenName);
    r := Ok(OK, items);
  }

  /** One row of the categories aggregation. */
  datatype CategoryStats = CategoryStats(category: string, serviceCount: nat, minPrice: real, maxPrice: real)

  /** `{ $match: { isActive: true } }` narrowed to one `$group` key. */
  function ActiveIn(c: string): Doc<Service> -> bool
  {
    (d: Doc<Service>) => Active(d.data) && d.data.category == c
  }

  /** The categories of the active services, one entry per service. */
  function ActiveCategories(records: seq<Doc<Service>>): (r: seq<string>)
    ensures forall c :: c in r <==> exists d :: d in records && Active(d.data) && d.data.category == c
  {
    if records == [] then []
    else
      var rest := ActiveCategories(records[1..]);
      assert forall d :: d in records <==> d == records[0] || d in records[1..];
      if Active(records[0].data) then [records[0].data.category] + rest else rest
  }

  function Prices(rows: seq<Doc<Service>>): (r: seq<real>)
    ensures forall x :: x in r <==> exists d :: d in rows && d.data.basePrice == x
  {
    if rows == [] then []
    else
      assert forall d :: d in rows <==> d == rows[0] || d in rows[1..];
      [rows[0].data.basePrice] + Prices(rows[1..])
  }

  /** The active services of one category: the documents one `$group` row accumulates. */
  function InCategory(records: seq<Doc<Service>>, c: string): (r: seq<Doc<Service>>)
    ensures forall d :: d in r <==> d in records && Active(d.data) && d.data.category == c
  {
    Filter(records, ActiveIn(c))
  }

  /** `$sum: 1`, `$min: '$basePrice'` and `$max: '$basePrice'` over one non-empty group. */
  function Accumulate(records: seq<Doc<Service>>, c: string): CategoryStats
    requires |InCategory(records, c)| > 0
  {
    var prices := Prices(InCategory(records, c));
    assert InCategory(records, c)[0].data.basePrice in prices;
    CategoryStats(c, |InCategory(records, c)|, MinOf(prices), MaxOf(prices))
  }

  /** A group's row counts its services, and its price range is attained by two of them and bounds all of them. */
  lemma AccumulateSpec(records: seq<Doc<Service>>, c: string)
    requires |InCategory(records, c)| > 0
    ensures Accumulate(records, c).category == c
    ensures Accumulate(records, c).serviceCount == |InCategory(records, c)|
    ensures forall d :: d in records && Active(d.data) && d.data.category == c
                        ==> Accumulate(records, c).minPrice <= d.data.basePrice <= Accumulate(records, c).maxPrice
    ensures exists d :: d in records && Active(d.data) && d.data.category == c && d.data.basePrice == Accumulate(records, c).minPrice
    ensures exists d :: d in records && Active(d.data) && d.data.category == c && d.data.basePrice == Accumulate(records, c).maxPrice
  {
    var prices := Prices(InCategory(records, c));
    var row := Accumulate(records, c);
    forall d | d in records && Active(d.data) && d.data.category == c
      ensures row.minPrice <= d.data.basePrice <= row.maxPrice
    {
      assert d in InCategory(records, c);
      assert d.data.basePrice in prices;
    }
    assert row.minPrice in prices && row.maxPrice in prices;
  }

  /** A category that some active service has has a non-empty group. */
  lemma GroupNonEmpty(records: seq<Doc<Service>>, c: string)
    requires c in ActiveCategories(records)
    ensures |InCategory(records, c)| > 0
  {
    var d :| d in records && Active(d.data) && d.data.category == c;
    assert d in InCategory(records, c);
  }

  /** One row per key, in the order of the keys. */
  function CategoryRows(records: seq<Doc<Service>>, keys: seq<string>): (r: seq<CategoryStats>)
    requires forall k :: k in keys ==> k in ActiveCategories(records)
    ensures |r| == |keys|
    ensures forall i :: 0 <= i < |keys| ==> r[i].category == keys[i]
    ensures forall i :: 0 <= i < |keys| ==> |InCategory(records, keys[i])| > 0 && r[i] == Accumulate(records, keys[i])
  {
    if keys == [] then []
    else
      GroupNonEmpty(records, keys[0]);
      [Accumulate(records, keys[0])] + CategoryRows(records, keys[1..])
  }

  /** `$group` keys followed by `$sort: { category: 1 }`: each category once, ascending. */
  method CategoryKeys(records: seq<Doc<Service>>) returns (keys: seq<string>)
    ensures forall i, j :: 0 <= i < j < |keys| ==> TextLe(keys[i], keys[j]) && keys[i] != keys[j]
    ensures forall c :: c in keys <==> c in ActiveCategories(records)
  {
    var cats := ActiveCategories(records);
    keys := Sort(Distinct(cats), TextLe);
    TextLeOrders();
    SortSorted(Distinct(cats), TextLe);
    forall k
      ensures k in keys <==> k in cats
    {
      assert k in keys <==> k in multiset(keys);
      assert k in Distinct(cats) <==> k in multiset(Distinct(cats));
    }
    forall i, j | 0 <= i < j < |keys|
      ensures TextLe(keys[i], keys[j]) && keys[i] != keys[j]
    {
      SortedNoDups(Distinct(cats), keys, i, j);
    }
  }

  /** Rows built from ascending distinct keys, one per active category, form the aggregation's answer. */
  lemma CategoryTable(records: seq<Doc<Service>>, keys: seq<string>, rows: seq<CategoryStats>)
    requires forall i, j :: 0 <= i < j < |keys| ==> TextLe(keys[i], keys[j]) && keys[i] != keys[j]
    requires forall c :: c in keys <==> c in ActiveCategories(records)
    requires rows == CategoryRows(records, keys)
    ensures forall i, j :: 0 <= i < j < |rows| ==> TextLe(rows[i].category, rows[j].category) && rows[i].category != rows[j].category
    ensures forall c :: (exists i :: 0 <= i < |rows| && rows[i].category == c) <==> c in ActiveCategories(records)
    ensures forall i :: 0 <= i < |rows| ==> |InCategory(records, rows[i].category)| > 0 && rows[i] == Accumulate(records, rows[i].category)
  {
    assert forall i :: 0 <= i < |rows| ==> rows[i].category == keys[i];
    forall c
      ensures (exists i :: 0 <= i < |rows| && rows[i].category == c) <==> c in keys
    {
      if c in keys {
        var i :| 0 <= i < |keys| && keys[i] == c;
        assert rows[i].category == c;
      }
    }
  }

  /** GET /categories : one row per category of the active services, ascending, each accumulating exactly that category's active services. */
  method Categories(s: Store) returns (r: Reply<seq<CategoryStats>>)
    requires s.Valid()
    ensures r.Ok? && r.code == OK
    ensures forall i, j :: 0 <= i < j < |r.body| ==> TextLe(r.body[i].category, r.body[j].category) && r.body[i].category != r.body[j].category
    ensures forall c :: (exists i :: 0 <= i < |r.body| && r.body[i].category == c) <==> c in ActiveCategories(s.services.Records())
    ensures forall i :: 0 <= i < |r.body| ==> |InCategory(s.services.Records(), r.body[i].category)| > 0
                                              && r.body[i] == Accumulate(s.services.Records(), r.body[i].category)
  {
    var records := s.services.Records();
    var keys := CategoryKeys(records);
    var rows := CategoryRows(records, keys);
    CategoryTable(records, keys, rows);
    r := Ok(OK, rows);
  }

  lemma TextLeOrders()
    ensures TotalPreorder(TextLe)
  {
    forall a, b
      ensures TextLe(a, b) || TextLe(b, a)
    {
      TextLeTotal(a, b);
    }
    forall a, b, c | TextLe(a, b) && TextLe(b, c)
      ensures TextLe(a, c)
    {
      TextLeTransitive(a, b, c);
    }
  }

  /** Sorting a list without repeats keeps it without repeats. */
  lemma SortedNoDups(ks: seq<string>, sorted: seq<string>, i: nat, j: nat)
    requires NoDups(ks) && multiset(sorted) == multiset(ks)
    requires i < j < |sorted|
    ensures sorted[i] != sorted[j]
  {
    assert NoDups(sorted) by {
      forall x
        ensures multiset(sorted)[x] <= 1
      {
        assert multiset(ks)[x] <= 1;
      }
    }
    NoDupsAt(sorted, i, j);
  }

  /** GET /:id : `findById` with no format check, so a malformed id is a CastError (500). */
  method Get(s: Store, id: IdParam) returns (r: Reply<Doc<Service>>)
    requires s.Valid()
    ensures id.Malformed? ==> r == Fail(SERVER_ERROR, "Failed to fetch service")
    ensures id.Key? && id.id !in s.services.rows ==> r == Fail(NOT_FOUND, "Service not found")
    ensures id.Key? && id.id in s.services.rows ==> r == Ok(OK, s.services.rows[id.id])
  {
    if id.Malformed? {
      return Fail(SERVER_ERROR, "Failed to fetch service");
    }
    match s.services.Find(id.id)
    case None => r := Fail(NOT_FOUND, "Service not found");
    case Some(d) => r := Ok(OK, d);
  }

  /** The body fields of the create and update routes. */
  datatype ServiceForm = ServiceForm(
    name: Value,
    description: Value,
    category: Value,
    basePrice: Value,
    unit: Value,
    isActive: Value,
    imageUrl: Value)

  const PriceError: string := "basePrice must be a positive number"

  /** `isNaN(parseFloat(basePrice)) || parseFloat(basePrice) < 0` */
  predicate BadPrice(v: Value)
  {
    ParseFloat(v).None? || ParseFloat(v).value < 0.0
  }

  /**
   * POST / up to the store: the presence check on name, category and basePrice,
   * the price check (both 400), then the document `Service.create` would build
   * with `unit` defaulting to 'per hour' and `isActive` to true, or the cast or
   * validation error it would raise (500).
   */
  function NewService(f: ServiceForm): (r: Outcome<Service>)
    ensures !(Truthy(f.name) && Truthy(f.category) && Truthy(f.basePrice)) ==> r == Reject(BAD_REQUEST, "Missing required fields: name, category, basePrice")
    ensures (Truthy(f.name) && Truthy(f.category) && Truthy(f.basePrice) && BadPrice(f.basePrice)) ==> r == Reject(BAD_REQUEST, PriceError)
    ensures r.Reject? ==> r.code == BAD_REQUEST || r == Reject(SERVER_ERROR, "Failed to create service")
    ensures (Truthy(f.name) && Truthy(f.category) && Truthy(f.basePrice) && !BadPrice(f.basePrice) && r.Reject?)
              ==> r == Reject(SERVER_ERROR, "Failed to create service")
    ensures r.Accept? <==> && Truthy(f.name) && Truthy(f.category) && Truthy(f.basePrice) && !BadPrice(f.basePrice)
                           && RequiredText(f.name).Some? && RequiredText(f.category).Some?
                           && (f.isActive.Absent? || CastBoolean(f.isActive).Some?)
    ensures r.Accept? ==> Valid(r.value) && !BadPrice(f.basePrice) && r.value.basePrice == ParseFloat(f.basePrice).value
    ensures r.Accept? ==> r.value.name == Trim(Text(f.name)) && r.value.category == Trim(Text(f.category))
    ensures r.Accept? ==> && r.value.description == SetText(f.description) && r.value.imageUrl == SetText(f.imageUrl)
                          && r.value.unit == (if f.unit.Absent? then Some(DefaultUnit) else SetText(f.unit))
    ensures r.Accept? ==> && (f.isActive.Absent? ==> r.value.isActive == Some(true))
                          && (f.isActive.Bool? ==> r.value.isActive == Some(f.isActive.b))
                          && (f.isActive.Null? ==> r.value.isActive == None)
  {
    if !(Truthy(f.name) && Truthy(f.category) && Truthy(f.basePrice)) then
      Reject(BAD_REQUEST, "Missing required fields: name, category, basePrice")
    else if BadPrice(f.basePrice) then
      Reject(BAD_REQUEST, PriceError)
    else
      var name := RequiredText(f.name);
      var category := RequiredText(f.category);
      var active := if f.isActive.Absent? then Some(Some(true)) else CastBoolean(f.isActive);
      if name.None? || category.None? || active.None? then
        Reject(SERVER_ERROR, "Failed to create service")
      else
        DefaultUnitTrimmed();
        var v := Service(name.value, SetText(f.description), category.value, ParseFloat(f.basePrice).value,
                         if f.unit.Absent? then Some(DefaultUnit) else SetText(f.unit), active.value, SetText(f.imageUrl));
        assert Valid(v);
        Accept(v)
  }

  /** A price of the number 0 is falsy and so reported missing, while the text "0" is accepted. */
  lemma ZeroPrice(f: ServiceForm)
    requires Truthy(f.name) && Truthy(f.category)
    ensures NewService(f.(basePrice := Num(0))) == Reject(BAD_REQUEST, "Missing required fields: name, category, basePrice")
    ensures NewService(f.(basePrice := Str("0"))).Accept? ==> NewService(f.(basePrice := Str("0"))).value.basePrice == 0.0
    ensures !BadPrice(Str("0"))
  {
    assert ParseFloat(Str(IntText(0))) == Some(0.0) by {
      ParseNonNegative(0);
    }
    assert IntText(0) == "0";
  }

  /** POST / : a rejected submission answers with its error and stores nothing; an accepted one is stored last, stamped `now`, and answered 201. */
  method Create(s: Store, f: ServiceForm, now: int) returns (r: Reply<Doc<Service>>)
    requires s.Valid()
    modifies s.services
    ensures s.Valid()
    ensures NewService(f).Reject? ==> r == Fail(NewService(f).code, NewService(f).error) && s.services.rows == old(s.services.rows)
    ensures NewService(f).Accept? ==>
              && r.Ok? && r.code == CREATED
              && r.body.data == NewService(f).value
              && r.body.createdAt == now && r.body.id !in old(s.services.rows)
              && s.services.Records() == old(s.services.Records()) + [r.body]
  {
    r := Admit(s.services, NewService(f), now);
  }

  /**
   * The `updateData` of PUT /:id after mongoose's casting and setters: each
   * field is `None` when the update leaves it alone. `description` and
   * `imageUrl` may be cleared, so they hold an `Option` themselves, as does
   * `isActive`, which may be set to null.
   */
  datatype ServicePatch = ServicePatch(
    name: Option<string>,
    description: Option<Option<string>>,
    category: Option<string>,
    basePrice: Option<real>,
    unit: Option<string>,
    isActive: Option<Option<bool>>,
    imageUrl: Option<Option<string>>)

  /** What the update validators (`runValidators: true`) accept. */
  predicate PatchValid(p: ServicePatch)
  {
    && (p.name.Some? ==> Required(p.name.value))
    && (p.description.Some? ==> TrimmedOpt(p.description.value))
    && (p.category.Some? ==> Required(p.category.value))
    && (p.basePrice.Some? ==> p.basePrice.value >= 0.0)
    && (p.unit.Some? ==> Trimmed(p.unit.value))
    && (p.imageUrl.Some? ==> TrimmedOpt(p.imageUrl.value))
  }

  /** `$set` of the patch's fields: the named fields take the new values and every other field is kept. */
  function ApplyPatch(v: Service, p: ServicePatch): (r: Service)
    ensures r.name == p.name.GetOr(v.name) && r.category == p.category.GetOr(v.category)
    ensures r.description == p.description.GetOr(v.description) && r.imageUrl == p.imageUrl.GetOr(v.imageUrl)
    ensures r.basePrice == p.basePrice.GetOr(v.basePrice) && r.isActive == p.isActive.GetOr(v.isActive)
    ensures r.unit == (if p.unit.Some? then p.unit else v.unit)
    ensures Valid(v) && PatchValid(p) ==> Valid(r)
  {
    Service(p.name.GetOr(v.name), p.description.GetOr(v.description), p.category.GetOr(v.category),
            p.basePrice.GetOr(v.basePrice), if p.unit.Some? then p.unit else v.unit,
            p.isActive.GetOr(v.isActive), p.imageUrl.GetOr(v.imageUrl))
  }

  /** Whether the body names any field the update sets. */
  predicate SetsSomething(f: ServiceForm)
  {
    Truthy(f.name) || Defined(f.description) || Truthy(f.category) || Truthy(f.unit)
    || Defined(f.isActive) || Defined(f.imageUrl) || Defined(f.basePrice)
  }

  /**
   * PUT / up to the store: a defined but invalid price (400), an update that
   * sets nothing (400), then the update mongoose would apply, or its cast or
   * validation error (500). name, category and unit are taken when truthy;
   * description, isActive and imageUrl whenever defined.
   */
  function ServiceChanges(f: ServiceForm): (r: Outcome<ServicePatch>)
    ensures Defined(f.basePrice) && BadPrice(f.basePrice) ==> r == Reject(BAD_REQUEST, PriceError)
    ensures !SetsSomething(f) ==> r == Reject(BAD_REQUEST, "No valid fields to update")
    ensures r.Reject? ==> r.code == BAD_REQUEST || r == Reject(SERVER_ERROR, "Failed to update service")
    ensures (!(Defined(f.basePrice) && BadPrice(f.basePrice)) && SetsSomething(f) && r.Reject?)
              ==> r == Reject(SERVER_ERROR, "Failed to update service")
    ensures r.Reject? && r.code == BAD_REQUEST ==> r.error == PriceError || r.error == "No valid fields to update"
    ensures r.Accept? <==> !(Defined(f.basePrice) && BadPrice(f.basePrice)) && SetsSomething(f) && CastPatch(f).Some?
    ensures r.Accept? ==> PatchValid(r.value)
    ensures r.Accept? ==> && (r.value.name.Some? <==> Truthy(f.name)) && (r.value.name.Some? ==> r.value.name.value == Trim(Text(f.name)))
                          && (r.value.category.Some? <==> Truthy(f.category)) && (r.value.category.Some? ==> r.value.category.value == Trim(Text(f.category)))
                          && (r.value.unit.Some? <==> Truthy(f.unit)) && (r.value.unit.Some? ==> r.value.unit.value == Trim(Text(f.unit)))
    ensures r.Accept? ==> && (r.value.description.Some? <==> Defined(f.description)) && (r.value.description.Some? ==> r.value.description.value == SetText(f.description))
                          && (r.value.imageUrl.Some? <==> Defined(f.imageUrl)) && (r.value.imageUrl.Some? ==> r.value.imageUrl.value == SetText(f.imageUrl))
    ensures r.Accept? ==> && (r.value.basePrice.Some? <==> Defined(f.basePrice)) && (r.value.basePrice.Some? ==> r.value.basePrice == ParseFloat(f.basePrice))
                          && (r.value.isActive.Some? <==> Defined(f.isActive)) && (f.isActive.Bool? ==> r.value.isActive == Some(Some(f.isActive.b)))
  {
    if Defined(f.basePrice) && BadPrice(f.basePrice) then
      Reject(BAD_REQUEST, PriceError)
    else if !SetsSomething(f) then
      Reject(BAD_REQUEST, "No valid fields to update")
    else
      match CastPatch(f)
      case None => Reject(SERVER_ERROR, "Failed to update service")
      case Some(p) => Accept(p)
  }

  /** The update as mongoose casts it: `None` for a CastError or a `required` path trimmed to nothing. */
  function CastPatch(f: ServiceForm): (r: Option<ServicePatch>)
    requires !(Defined(f.basePrice) && BadPrice(f.basePrice))
    ensures r.None? <==> || (Truthy(f.name) && Trim(Text(f.name)) == "")
                         || (Truthy(f.category) && Trim(Text(f.category)) == "")
                         || (Defined(f.isActive) && CastBoolean(f.isActive).None?)
    ensures r.Some? ==> PatchValid(r.value)
    ensures r.Some? ==> && r.value.name == OptText(f.name) && r.value.category == OptText(f.category)
                        && r.value.unit == OptText(f.unit)
                        && r.value.description == DefinedText(f.description) && r.value.imageUrl == DefinedText(f.imageUrl)
                        && (r.value.basePrice.Some? <==> Defined(f.basePrice)) && (r.value.basePrice.Some? ==> r.value.basePrice == ParseFloat(f.basePrice))
                        && (r.value.isActive.Some? <==> Defined(f.isActive)) && (f.isActive.Bool? ==> r.value.isActive == Some(Some(f.isActive.b)))
  {
    var name := OptText(f.name);
    var category := OptText(f.category);
    if (name.Some? && name.value == "") || (category.Some? && category.value == "")
       || (Defined(f.isActive) && CastBoolean(f.isActive).None?) then
      None
    else
      var price := if Defined(f.basePrice) then ParseFloat(f.basePrice) else None;
      var active := if Defined(f.isActive) then Some(CastBoolean(f.isActive).value) else None;
      Some(ServicePatch(name, DefinedText(f.description), category, price, OptText(f.unit), active, DefinedText(f.imageUrl)))
  }

  /**
   * PUT /:id : the body's own 400s come first; then `findByIdAndUpdate` fails
   * with 500 on a malformed id or a value it cannot cast or validate, and
   * answers 404 when no service has the id.
   */
  method Update(s: Store, id: IdParam, f: ServiceForm, now: int) returns (r: Reply<Doc<Service>>)
    requires s.Valid()
    modifies s.services
    ensures s.Valid()
    ensures ServiceChanges(f).Reject? && ServiceChanges(f).code == BAD_REQUEST ==> r == Fail(BAD_REQUEST, ServiceChanges(f).error)
    ensures ((ServiceChanges(f).Accept? || ServiceChanges(f).code != BAD_REQUEST) && (id.Malformed? || ServiceChanges(f).Reject?))
              ==> r == Fail(SERVER_ERROR, "Failed to update service")
    ensures (ServiceChanges(f).Accept? && id.Key? && id.id !in old(s.services.rows)) ==> r == Fail(NOT_FOUND, "Service not found")
    ensures (ServiceChanges(f).Accept? && id.Key? && id.id in old(s.services.rows)) ==> r.Ok?
    ensures r.Fail? ==> s.services.rows == old(s.services.rows)
    ensures r.Ok? ==> && ServiceChanges(f).Accept? && id.Key? && id.id in old(s.services.rows)
                      && r == Ok(OK, old(s.services.rows)[id.id].(updatedAt := now, data := ApplyPatch(old(s.services.rows)[id.id].data, ServiceChanges(f).value)))
                      && s.services.rows == old(s.services.rows)[id.id := r.body]
  {
    var changes := ServiceChanges(f);
    if changes.Reject? && changes.code == BAD_REQUEST {
      return Fail(BAD_REQUEST, changes.error);
    }
    if id.Malformed? || changes.Reject? {
      return Fail(SERVER_ERROR, "Failed to update service");
    }
    var p := changes.value;
    var patch := (v: Service) => ApplyPatch(v, p);
    r := Revise(s.services, id.id, patch, now, "Service not found");
  }

  /** DELETE /:id : a malformed id is a CastError (500); otherwise removes exactly that service, or answers 404 and removes nothing. */
  method Delete(s: Store, id: IdParam) returns (r: Reply<string>)
    requires s.Valid()
    modifies s.services
    ensures s.Valid()
    ensures id.Malformed? ==> r == Fail(SERVER_ERROR, "Failed to delete service") && s.services.rows == old(s.services.rows)
    ensures id.Key? && id.id !in old(s.services.rows) ==> r == Fail(NOT_FOUND, "Service not found")
    ensures id.Key? ==> s.services.rows == old(s.services.rows) - {id.id}
    ensures id.Key? && id.id in old(s.services.rows) ==> r == Ok(OK, "Service deleted successfully")
  {
    if id.Malformed? {
      return Fail(SERVER_ERROR, "Failed to delete service");
    }
    var removed := s.services.Delete(id.id);
    if removed.None? {
      r := Fail(NOT_FOUND, "Service not found");
    } else {
      r := Ok(OK, "Service deleted successfully");
    }
  }
}

=== FILE: status.dfy ===
/**
 * The `status` enum shared by the work-order and work-request schemas:
 * `['pending', 'in-progress', 'completed', 'cancelled']`, default `'pending'`.
 */
module JobStatus {
  import opened Wrappers
  import opened Values

  datatype Status = Pending | InProgress | Completed | Cancelled

  function StatusName(s: Status): string
  {
    match s
    case Pending => "pending"
    case InProgress => "in-progress"
    case Completed => "completed"
    case Cancelled => "cancelled"
  }

  /** `validStatuses.includes(status)`: strict equality with one of the four names, so only a string can match. */
  function StatusOf(v: Value): (r: Option<Status>)
    ensures r.Some? ==> v == Str(StatusName(r.value))
    ensures r.None? ==> forall s :: v != Str(StatusName(s))
  {
    match v
    case Str(t) =>
      if t == "pending" then Some(Pending)
      else if t == "in-progress" then Some(InProgress)
      else if t == "completed" then Some(Completed)
      else if t == "cancelled" then Some(Cancelled)
      else None
    case _ => None
  }

  /** Every status name is accepted and read back as itself. */
  lemma StatusNameAccepted(s: Status)
    ensures StatusOf(Str(StatusName(s))) == Some(s)
  {
  }

  /** The status an update sets (`if (status) updateData.status = status`, after the enum check): the named one when `status` is truthy, none otherwise. */
  function NewStatus(status: Value): (r: Option<Status>)
    ensures r.Some? ==> Truthy(status) && status == Str(StatusName(r.value))
    ensures Truthy(status) && StatusOf(status).Some? ==> r.Some?
  {
    if Truthy(status) then StatusOf(status) else None
  }
}

=== FILE: store.dfy ===
/**
 * The six collections the routes read and write, one table each, and the
 * invariant that every stored document satisfies its schema.
 */
module Collections {
  import opened RecordStore
  import opened Credentials
  import opened Http
  import WorkOrderModel
  import WorkRequestModel
  import ServiceModel
  import ContactModel
  import GalleryModel

  /**
   * `Model.create` behind a handler's checks: a rejected submission is answered
   * with its error and stores nothing; an accepted document is stored last,
   * stamped `now`, and answered 201.
   */
  method Admit<T(!new)>(t: Table<T>, o: Outcome<T>, now: int) returns (r: Reply<Doc<T>>)
    requires t.Valid() && (o.Accept? ==> t.schema(o.value))
    modifies t
    ensures t.Valid()
    ensures o.Reject? ==> r == Fail(o.code, o.error) && t.rows == old(t.rows) && t.nextId == old(t.nextId)
    ensures o.Accept? ==> && r.Ok? && r.code == CREATED && r.body == Doc(r.body.id, now, now, o.value)
                          && r.body.id !in old(t.rows) && t.rows == old(t.rows)[r.body.id := r.body]
                          && t.Records() == old(t.Records()) + [r.body]
  {
    if o.Reject? {
      r := Fail(o.code, o.error);
    } else {
      var d := t.Create(o.value, now);
      r := Ok(CREATED, d);
    }
  }

  /**
   * `findByIdAndUpdate(id, update, { new: true })` once the handler's own checks
   * have passed: 404 when no document has the id, otherwise the document with
   * `patch` applied to its fields and `updatedAt` set to `now`.
   */
  method Revise<T(!new)>(t: Table<T>, id: Id, patch: T -> T, now: int, missing: string) returns (r: Reply<Doc<T>>)
    requires t.Valid() && forall x :: t.schema(x) ==> t.schema(patch(x))
    modifies t
    ensures t.Valid()
    ensures id !in old(t.rows) ==> r == Fail(NOT_FOUND, missing) && t.rows == old(t.rows)
    ensures id in old(t.rows) ==> && r == Ok(OK, old(t.rows[id]).(updatedAt := now, data := patch(old(t.rows[id]).data)))
                                  && t.rows == old(t.rows)[id := r.body]
  {
    match t.Find(id)
    case None =>
      r := Fail(NOT_FOUND, missing);
    case Some(d) =>
      var updated := t.Replace(id, patch(d.data), now);
      r := Ok(OK, updated);
  }

  class Store {
    const workOrders: Table<WorkOrderModel.WorkOrder>
    const workRequests: Table<WorkRequestModel.WorkRequest>
    const services: Table<ServiceModel.Service>
    const gallery: Table<GalleryModel.GalleryImage>
    const contacts: Table<ContactModel.ContactMessage>
    const admins: Table<AdminUser>

    ghost predicate Valid()
      reads this, workOrders, workRequests, services, gallery, contacts, admins
    {
      && workOrders.Valid() && workOrders.schema == WorkOrderModel.Valid
      && workRequests.Valid() && workRequests.schema == WorkRequestModel.Valid
      && services.Valid() && services.schema == ServiceModel.Valid
      && gallery.Valid() && gallery.schema == GalleryModel.Valid
      && contacts.Valid() && contacts.schema == ContactModel.Valid
      && admins.Valid() && admins.schema == AnyAdmin
    }

    /** A fresh database: every collection empty. */
    constructor ()
      ensures Valid()
      ensures fresh(workOrders) && fresh(workRequests) && fresh(services)
      ensures fresh(gallery) && fresh(contacts) && fresh(admins)
      ensures workOrders.rows == map[] && workRequests.rows == map[] && services.rows == map[]
      ensures gallery.rows == map[] && contacts.rows == map[] && admins.rows == map[]
    {
      workOrders := new Table(WorkOrderModel.Valid);
      workRequests := new Table(WorkRequestModel.Valid);
      services := new Table(ServiceModel.Valid);
      gallery := new Table(GalleryModel.Valid);
      contacts := new Table(ContactModel.Valid);
      admins := new Table(AnyAdmin);
    }
  }
}

=== FILE: strings.dfy ===
/**
 * Text helpers used by the routes and schemas: JavaScript's whitespace class,
 * `trim`, ASCII lower-casing, prefix and suffix tests, `split`, decimal
 * rendering of integers and the code-point order MongoDB uses to sort strings.
 */
module Strings {
  import opened Wrappers

  /** The characters matched by `\s` in a JavaScript regular expression; `String.prototype.trim` strips the same set. */
  predicate IsSpace(c: char)
  {
    || c == ' ' || c == '\t' || c == '\n' || c == '\r' || c == '\U{000B}' || c == '\U{000C}'
    || c == '\U{00A0}' || c == '\U{1680}' || ('\U{2000}' <= c <= '\U{200A}')
    || c == '\U{2028}' || c == '\U{2029}' || c == '\U{202F}' || c == '\U{205F}'
    || c == '\U{3000}' || c == '\U{FEFF}'
  }

  predicate NoSpace(s: string)
  {
    forall i :: 0 <= i < |s| ==> !IsSpace(s[i])
  }

  /** `s.trimStart()` */
  function TrimStart(s: string): (r: string)
    ensures |r| <= |s| && r == s[|s| - |r|..]
    ensures r == [] || !IsSpace(r[0])
    ensures forall i :: 0 <= i < |s| - |r| ==> IsSpace(s[i])
  {
    if s != [] && IsSpace(s[0]) then TrimStart(s[1..]) else s
  }

  /** `s.trimEnd()` */
  function TrimEnd(s: string): (r: string)
    ensures |r| <= |s| && r == s[..|r|]
    ensures r == [] || !IsSpace(r[|r| - 1])
    ensures forall i :: |r| <= i < |s| ==> IsSpace(s[i])
  {
    if s != [] && IsSpace(s[|s| - 1]) then TrimEnd(s[..|s| - 1]) else s
  }

  /** `s.trim()`, the setter behind mongoose's `trim: true`. */
  function Trim(s: string): string
  {
    TrimEnd(TrimStart(s))
  }

  lemma NoSpaceAppend(a: string, b: string)
    requires NoSpace(a) && NoSpace(b)
    ensures NoSpace(a + b)
  {
    forall i | 0 <= i < |a + b|
      ensures !IsSpace((a + b)[i])
    {
      if i < |a| {
        assert (a + b)[i] == a[i];
      } else {
        assert (a + b)[i] == b[i - |a|];
      }
    }
  }

  /** A string without whitespace is its own trim. */
  lemma TrimNoSpace(s: string)
    requires NoSpace(s)
    ensures Trim(s) == s
  {
  }

  /** Neither end is whitespace: what mongoose stores in a path declared `trim: true`. */
  predicate Trimmed(s: string)
  {
    s == [] || (!IsSpace(s[0]) && !IsSpace(s[|s| - 1]))
  }

  /** A text that does not start with whitespace keeps its first character through `trim`. */
  lemma TrimKeepsLead(s: string)
    requires |s| > 0 && !IsSpace(s[0])
    ensures Trim(s) != [] && Trim(s)[0] == s[0]
  {
    assert TrimStart(s) == s;
  }

  /** `trim` yields a trimmed string and leaves a trimmed string alone, so storing twice stores the same text. */
  lemma TrimSpec(s: string)
    ensures Trimmed(Trim(s))
    ensures Trimmed(s) ==> Trim(s) == s
  {
    var t := TrimStart(s);
    var r := TrimEnd(t);
    if r != [] {
      assert r[0] == t[0];
    }
    if Trimmed(s) && s != [] {
      assert TrimStart(s) == s;
      assert TrimEnd(s) == s;
    }
  }

  function LowerChar(c: char): char
  {
    if 'A' <= c <= 'Z' then (c as int - 'A' as int + 'a' as int) as char else c
  }

  /** `s.toLowerCase()`, restricted to the ASCII letters. */
  function Lower(s: string): (r: string)
    ensures |r| == |s|
    ensures forall i :: 0 <= i < |s| ==> r[i] == LowerChar(s[i])
  {
    if s == [] then [] else [LowerChar(s[0])] + Lower(s[1..])
  }

  /** Lower-casing keeps the ends of a trimmed string non-blank and is idempotent. */
  lemma LowerSpec(s: string)
    ensures Trimmed(s) ==> Trimmed(Lower(s))
    ensures Lower(Lower(s)) == Lower(s)
  {
  }

  predicate StartsWith(s: string, prefix: string)
  {
    |prefix| <= |s| && s[..|prefix|] == prefix
  }

  predicate EndsWith(s: string, suffix: string)
  {
    |suffix| <= |s| && s[|s| - |suffix|..] == suffix
  }

  /** The position of the first occurrence of `c` in `s`. */
  function IndexOf(s: string, c: char): (r: Option<nat>)
    ensures r.None? <==> c !in s
    ensures r.Some? ==> r.value < |s| && s[r.value] == c && c !in s[..r.value]
  {
    if s == [] then None
    else if s[0] == c then Some(0)
    else match IndexOf(s[1..], c)
      case None => None
      case Some(i) => assert s[1..][..i] == s[1..i + 1]; Some(i + 1)
  }

  /** `s.split(sep)` for a one-character separator. */
  function Split(s: string, sep: char): (r: seq<string>)
    ensures |r| >= 1
    ensures forall i :: 0 <= i < |r| ==> sep !in r[i]
  {
    match IndexOf(s, sep)
    case None => [s]
    case Some(i) => [s[..i]] + Split(s[i + 1..], sep)
  }

  /** `parts.join(sep)` */
  function Join(parts: seq<string>, sep: char): string
  {
    if parts == [] then []
    else if |parts| == 1 then parts[0]
    else parts[0] + [sep] + Join(parts[1..], sep)
  }

  /** Splitting loses nothing: joining the pieces with the separator gives the text back. */
  lemma {:induction false} SplitJoin(s: string, sep: char)
    ensures Join(Split(s, sep), sep) == s
  {
    match IndexOf(s, sep)
    case None =>
    case Some(i) =>
      var rest := Split(s[i + 1..], sep);
      SplitJoin(s[i + 1..], sep);
      var parts := [s[..i]] + rest;
      assert Split(s, sep) == parts;
      assert parts[1..] == rest;
      assert Join(parts, sep) == s[..i] + [sep] + Join(rest, sep);
      assert s == s[..i] + [sep] + s[i + 1..];
  }

  /** The first separator in `a + [sep] + b` is the one after `a` when `a` holds none. */
  lemma {:induction false} IndexOfAfter(a: string, sep: char, b: string)
    requires sep !in a
    ensures IndexOf(a + [sep] + b, sep) == Some(|a|)
  {
    if a != [] {
      IndexOfAfter(a[1..], sep, b);
      assert (a + [sep] + b)[1..] == a[1..] + [sep] + b;
    }
  }

  /** Joining pieces that hold no separator and splitting again gives the pieces back. */
  lemma {:induction false} JoinSplit(parts: seq<string>, sep: char)
    requires |parts| >= 1
    requires forall i :: 0 <= i < |parts| ==> sep !in parts[i]
    ensures Split(Join(parts, sep), sep) == parts
  {
    if |parts| > 1 {
      var rest := parts[1..];
      var s := parts[0] + [sep] + Join(rest, sep);
      assert Join(parts, sep) == s;
      IndexOfAfter(parts[0], sep, Join(rest, sep));
      assert s[..|parts[0]|] == parts[0];
      assert s[|parts[0]| + 1..] == Join(rest, sep);
      JoinSplit(rest, sep);
      assert parts == [parts[0]] + rest;
    }
  }

  predicate IsDigit(c: char)
  {
    '0' <= c <= '9'
  }

  function DigitChar(d: nat): char
    requires d < 10
  {
    "0123456789"[d]
  }

  /** Decimal rendering of a natural number, as `String(n)` prints it. */
  function NatText(n: nat): (r: string)
    ensures |r| >= 1
    ensures forall i :: 0 <= i < |r| ==> IsDigit(r[i])
  {
    if n < 10 then [DigitChar(n)] else NatText(n / 10) + [DigitChar(n % 10)]
  }

  /** Decimal rendering of an integer, as `String(n)` prints it. */
  function IntText(n: int): string
  {
    if n < 0 then "-" + NatText(-n) else NatText(n)
  }

  /**
   * The order MongoDB sorts strings in by default (binary comparison, which
   * for well-formed text is code-point order): lexicographic, a proper prefix first.
   */
  predicate TextLe(a: string, b: string)
  {
    if a == [] then true
    else if b == [] then false
    else if a[0] != b[0] then a[0] < b[0]
    else TextLe(a[1..], b[1..])
  }

  lemma {:induction false} TextLeTotal(a: string, b: string)
    ensures TextLe(a, b) || TextLe(b, a)
  {
    if a != [] && b != [] && a[0] == b[0] {
      TextLeTotal(a[1..], b[1..]);
    }
  }

  lemma {:induction false} TextLeTransitive(a: string, b: string, c: string)
    requires TextLe(a, b) && TextLe(b, c)
    ensures TextLe(a, c)
  {
    if a != [] && b != [] && c != [] && a[0] == b[0] && b[0] == c[0] {
      TextLeTransitive(a[1..], b[1..], c[1..]);
    }
  }

  lemma {:induction false} TextLeAntisymmetric(a: string, b: string)
    requires TextLe(a, b) && TextLe(b, a)
    ensures a == b
  {
    if a != [] && b != [] {
      TextLeAntisymmetric(a[1..], b[1..]);
      assert a == [a[0]] + a[1..] && b == [b[0]] + b[1..];
    }
  }
}

=== FILE: table.dfy ===
/**
 * One MongoDB collection as the handlers use it through mongoose: documents
 * keyed by `_id`, with the `createdAt`/`updatedAt` timestamps the schemas'
 * `timestamps: true` option maintains. Ids are handed out in increasing
 * order, and the natural (insertion) order of the collection is id order.
 */
module RecordStore {
  import opened Wrappers
  import opened Ordering

  type Id = nat

  /** A stored document: its `_id`, its two timestamps and its schema fields. */
  datatype Doc<T> = Doc(id: Id, createdAt: int, updatedAt: int, data: T)

  /** A `:id` path parameter: one `ObjectId.isValid` accepts (naming some id), or one it rejects. */
  datatype IdParam = Key(id: Id) | Malformed

  /** The documents of `rows` whose id is below `n`, in id order. */
  function InIdOrder<T>(rows: map<Id, Doc<T>>, n: nat): seq<Doc<T>>
  {
    if n == 0 then [] else InIdOrder(rows, n - 1) + (if n - 1 in rows then [rows[n - 1]] else [])
  }

  lemma {:induction false} InIdOrderMembers<T>(rows: map<Id, Doc<T>>, n: nat)
    requires forall id :: id in rows ==> rows[id].id == id
    ensures forall d :: d in InIdOrder(rows, n) <==> d.id < n && d.id in rows && rows[d.id] == d
  {
    if n > 0 {
      InIdOrderMembers(rows, n - 1);
    }
  }

  lemma {:induction false} InIdOrderAgree<T>(a: map<Id, Doc<T>>, b: map<Id, Doc<T>>, n: nat)
    requires forall id :: id < n ==> (id in a <==> id in b)
    requires forall id :: id in a && id < n ==> a[id] == b[id]
    ensures InIdOrder(a, n) == InIdOrder(b, n)
  {
    if n > 0 {
      InIdOrderAgree(a, b, n - 1);
    }
  }

  lemma {:induction false} InIdOrderEmpty<T>(rows: map<Id, Doc<T>>, n: nat)
    requires rows == map[]
    ensures InIdOrder(rows, n) == []
  {
    if n > 0 {
      InIdOrderEmpty(rows, n - 1);
    }
  }

  /** The ids below `n` whose document matches: one more than below `n - 1` exactly when `n - 1` is one of them. */
  lemma MatchingIdsStep<T>(rows: map<Id, Doc<T>>, n: nat, p: Doc<T> -> bool)
    requires n > 0
    ensures |set id | id in rows && id < n && p(rows[id])|
            == |set id | id in rows && id < n - 1 && p(rows[id])| + if n - 1 in rows && p(rows[n - 1]) then 1 else 0
  {
    var below := set id | id in rows && id < n - 1 && p(rows[id]);
    var upTo := set id | id in rows && id < n && p(rows[id]);
    if n - 1 in rows && p(rows[n - 1]) {
      assert upTo == below + {n - 1};
    } else {
      assert upTo == below;
    }
  }

  /** Counting the matching documents below `n` in id order counts the ids below `n` whose document matches. */
  lemma {:induction false} InIdOrderCount<T(!new)>(rows: map<Id, Doc<T>>, n: nat, p: Doc<T> -> bool)
    ensures |Filter(InIdOrder(rows, n), p)| == |set id | id in rows && id < n && p(rows[id])|
  {
    if n > 0 {
      InIdOrderCount(rows, n - 1, p);
      var last := if n - 1 in rows then [rows[n - 1]] else [];
      FilterAppend(InIdOrder(rows, n - 1), last, p);
      assert |Filter(last, p)| == if n - 1 in rows && p(rows[n - 1]) then 1 else 0;
      MatchingIdsStep(rows, n, p);
    }
  }

  /** `.sort({ createdAt: -1 })` */
  predicate NewestFirst<T>(a: Doc<T>, b: Doc<T>)
  {
    a.createdAt >= b.createdAt
  }

  lemma NewestFirstOrders<T(!new)>()
    ensures TotalPreorder(NewestFirst<T>)
  {
  }

  class Table<T(!new)> {
    /** The schema's validators: what every stored document's fields satisfy. */
    const schema: T -> bool
    var rows: map<Id, Doc<T>>
    /** The id the next `create` hands out. */
    var nextId: nat

    ghost predicate Valid()
      reads this
    {
      forall id :: id in rows ==> rows[id].id == id && id < nextId && schema(rows[id].data)
    }

    constructor (schema: T -> bool)
      ensures Valid()
      ensures this.schema == schema && rows == map[] && nextId == 0
    {
      this.schema := schema;
      rows := map[];
      nextId := 0;
    }

    /** `findById(id)` */
    function Find(id: Id): (r: Option<Doc<T>>)
      reads this
      ensures r.Some? <==> id in rows
      ensures r.Some? ==> r.value == rows[id]
    {
      if id in rows then Some(rows[id]) else None
    }

    /** `find()` with no filter, in natural order: every stored document once, by increasing id. */
    function Records(): (r: seq<Doc<T>>)
      reads this
      requires Valid()
      ensures forall d :: d in r <==> d.id in rows && rows[d.id] == d
    {
      InIdOrderMembers(rows, nextId);
      InIdOrder(rows, nextId)
    }

    /** The collection is empty exactly when it lists no document. */
    lemma EmptyRecords()
      requires Valid()
      ensures rows == map[] <==> Records() == []
    {
      if rows != map[] {
        var id :| id in rows;
        assert rows[id] in Records();
      } else {
        InIdOrderEmpty(rows, nextId);
      }
    }

    /** `countDocuments(filter)` */
    function Count(p: Doc<T> -> bool): nat
      reads this
      requires Valid()
    {
      |Filter(Records(), p)|
    }

    /** The ids of the stored documents that satisfy `p`. */
    function Matching(p: Doc<T> -> bool): (r: set<Id>)
      reads this
      ensures forall id :: id in r <==> id in rows && p(rows[id])
    {
      set id | id in rows && p(rows[id])
    }

    /** `countDocuments(filter)` is the number of stored ids whose document matches. */
    lemma CountSpec(p: Doc<T> -> bool)
      requires Valid()
      ensures Count(p) == |Matching(p)|
    {
      InIdOrderCount(rows, nextId, p);
      assert (set id | id in rows && id < nextId && p(rows[id])) == Matching(p);
    }

    /**
     * `find(p).sort(le).skip(skip).limit(limit)`: stored documents only, every one
     * matching, a window of the matching documents in some `le` order.
     */
    method Select(p: Doc<T> -> bool, le: (Doc<T>, Doc<T>) -> bool, skip: nat, limit: nat) returns (items: seq<Doc<T>>)
      requires Valid() && TotalPreorder(le)
      ensures IsListing(items, Filter(Records(), p), le, skip, limit)
      ensures forall d :: d in items ==> d.id in rows && rows[d.id] == d && p(d)
      ensures |items| <= limit
    {
      ListingSpec(Records(), p, le, skip, limit);
      items := Listing(Records(), p, le, skip, limit);
    }

    /** `find(p).sort(le)`: every matching document once, in some `le` order. */
    method SelectAll(p: Doc<T> -> bool, le: (Doc<T>, Doc<T>) -> bool) returns (items: seq<Doc<T>>)
      requires Valid() && TotalPreorder(le)
      ensures multiset(items) == multiset(Filter(Records(), p)) && SortedBy(items, le)
      ensures forall d :: d in items ==> d.id in rows && rows[d.id] == d && p(d)
    {
      SortSorted(Filter(Records(), p), le);
      items := Sort(Filter(Records(), p), le);
      forall d | d in items
        ensures d.id in rows && rows[d.id] == d && p(d)
      {
        assert d in multiset(Filter(Records(), p));
      }
    }

    /** `Model.create(data)`: a new document under a fresh id, stamped `now`, placed last in natural order. */
    method Create(data: T, now: int) returns (d: Doc<T>)
      requires Valid() && schema(data)
      modifies this
      ensures Valid()
      ensures d.id !in old(rows)
      ensures d == Doc(d.id, now, now, data)
      ensures rows == old(rows)[d.id := d]
      ensures Records() == old(Records()) + [d]
    {
      d := Doc(nextId, now, now, data);
      ghost var before := rows;
      rows := rows[nextId := d];
      nextId := nextId + 1;
      InIdOrderAgree(before, rows, nextId - 1);
    }

    /** `insertMany(items)`: one new document per item, in order, all stamped `now`. */
    method CreateAll(items: seq<T>, now: int)
      requires Valid() && forall i :: 0 <= i < |items| ==> schema(items[i])
      modifies this
      ensures Valid()
      ensures |Records()| == |old(Records())| + |items|
      ensures Records()[..|old(Records())|] == old(Records())
      ensures forall i :: 0 <= i < |items| ==> Records()[|old(Records())| + i] == Doc(Records()[|old(Records())| + i].id, now, now, items[i])
    {
      ghost var start := Records();
      var i := 0;
      while i < |items|
        invariant 0 <= i <= |items|
        invariant Valid()
        invariant |Records()| == |start| + i
        invariant Records()[..|start|] == start
        invariant forall k :: 0 <= k < i ==> Records()[|start| + k] == Doc(Records()[|start| + k].id, now, now, items[k])
      {
        ghost var prev := Records();
        var d := Create(items[i], now);
        assert Records() == prev + [d];
        i := i + 1;
      }
    }

    /** `findByIdAndUpdate(id, ...)` on a document that exists: its fields become `data` and `updatedAt` becomes `now`. */
    method Replace(id: Id, data: T, now: int) returns (d: Doc<T>)
      requires Valid()
      requires id in rows && schema(data)
      modifies this
      ensures Valid()
      ensures d == old(rows[id]).(updatedAt := now, data := data)
      ensures rows == old(rows)[id := d]
      ensures nextId == old(nextId)
    {
      d := rows[id].(updatedAt := now, data := data);
      rows := rows[id := d];
    }

    /** `findByIdAndDelete(id)`: the removed document, or none when no document has that id. */
    method Delete(id: Id) returns (d: Option<Doc<T>>)
      requires Valid()
      modifies this
      ensures Valid()
      ensures d == old(Find(id))
      ensures rows == old(rows) - {id}
      ensures nextId == old(nextId)
    {
      d := Find(id);
      rows := rows - {id};
    }
  }
}

=== FILE: user.dfy ===
/**
 * The User schema and its document methods: the e-mail, name, phone and
 * address constraints, the `role` enum `['user']`, the pre-save hook that
 * hashes `passwordHash` only when it was modified, `comparePassword`, and
 * `toJSON`, which drops `passwordHash` from the serialised document.
 */
module UserModel {
  import opened Wrappers
  import opened Strings
  import opened Email
  import opened Schema
  import opened Credentials

  const MaxNameLength: nat := 50
  const MaxAddressLength: nat := 200
  const MinPasswordLength: nat := 6

  /** A serialised path value; `Secret` is the only way a password field appears in a document. */
  datatype Field = Text(text: string) | Flag(flag: bool) | Secret(password: PasswordField)

  /** The pre-save hook's effect on `passwordHash`: hash plain text that was modified, leave everything else. */
  function HookedPassword(f: PasswordField, modified: bool, salt: nat): (r: PasswordField)
    ensures modified && f.Plain? ==> r == Hashed(Hash(f.text, salt))
    ensures !modified || f.Hashed? ==> r == f
  {
    if modified && f.Plain? then Hashed(Hash(f.text, salt)) else f
  }

  /** After a save, the stored field matches exactly the password that was set, and saving again changes nothing. */
  lemma {:induction false} SavedPasswordMatches(password: string, salt: nat, salt2: nat, candidate: string)
    ensures Matches(candidate, HookedPassword(Plain(password), true, salt)) <==> candidate == password
    ensures HookedPassword(HookedPassword(Plain(password), true, salt), false, salt2) == HookedPassword(Plain(password), true, salt)
    ensures !Matches(candidate, Plain(password))
  {
    HashThenVerify(password, candidate, salt);
  }

  class User {
    var email: string
    var passwordHash: PasswordField
    /** `isModified('passwordHash')` */
    var passwordModified: bool
    var firstName: string
    var lastName: string
    var phone: Option<string>
    var address: Option<string>
    var role: string
    var isActive: bool

    /** The schema's validators, which mongoose runs before the pre-save hook. */
    predicate Valid()
      reads this
    {
      && Required(email) && Lower(email) == email && IsEmail(email)
      && (passwordHash.Plain? ==> |passwordHash.text| >= MinPasswordLength)
      && Required(firstName) && |firstName| <= MaxNameLength
      && Required(lastName) && |lastName| <= MaxNameLength
      && (phone.Some? ==> Trimmed(phone.value) && (phone.value != "" ==> IsPhone(phone.value)))
      && (address.Some? ==> Trimmed(address.value) && |address.value| <= MaxAddressLength)
      && role == "user"
    }

    /** `new User({...})`: setters trim and lower-case, `role` and `isActive` take their defaults, and the password counts as modified. */
    constructor (email: string, password: string, firstName: string, lastName: string, phone: Option<string>, address: Option<string>)
      ensures this.email == Lower(Trim(email))
      ensures passwordHash == Plain(password) && passwordModified
      ensures this.firstName == Trim(firstName) && this.lastName == Trim(lastName)
      ensures this.phone == (if phone.Some? then Some(Trim(phone.value)) else None)
      ensures this.address == (if address.Some? then Some(Trim(address.value)) else None)
      ensures role == "user" && isActive
    {
      this.email := Lower(Trim(email));
      passwordHash := Plain(password);
      passwordModified := true;
      this.firstName := Trim(firstName);
      this.lastName := Trim(lastName);
      this.phone := if phone.Some? then Some(Trim(phone.value)) else None;
      this.address := if address.Some? then Some(Trim(address.value)) else None;
      role := "user";
      isActive := true;
    }

    /** `user.passwordHash = password` */
    method SetPassword(password: string)
      modifies this
      ensures passwordHash == Plain(password) && passwordModified
      ensures email == old(email) && firstName == old(firstName) && lastName == old(lastName)
      ensures phone == old(phone) && address == old(address) && role == old(role) && isActive == old(isActive)
    {
      passwordHash := Plain(password);
      passwordModified := true;
    }

    /**
     * `save()`: validation first (nothing is written when it fails), then the
     * pre-save hook, which hashes `passwordHash` only when it was modified.
     */
    method Save(salt: nat) returns (saved: bool)
      modifies this
      ensures saved <==> old(Valid())
      ensures saved ==> passwordHash == HookedPassword(old(passwordHash), old(passwordModified), salt) && !passwordModified
      ensures !saved ==> passwordHash == old(passwordHash) && passwordModified == old(passwordModified)
      ensures email == old(email) && firstName == old(firstName) && lastName == old(lastName)
      ensures phone == old(phone) && address == old(address) && role == old(role) && isActive == old(isActive)
    {
      saved := Valid();
      if saved {
        if passwordModified {
          if passwordHash.Plain? {
            passwordHash := Hashed(Hash(passwordHash.text, salt));
          }
        }
        passwordModified := false;
      }
    }

    /** `comparePassword(candidate)` */
    function ComparePassword(candidate: string): (r: bool)
      reads this
      ensures r ==> passwordHash.Hashed?
    {
      Matches(candidate, passwordHash)
    }

    /** The stored document as `toObject()` renders it. */
    function Document(): (r: map<string, Field>)
      reads this
      ensures "passwordHash" in r && r["passwordHash"] == Secret(passwordHash)
    {
      var base := map[
        "email" := Text(email),
        "firstName" := Text(firstName),
        "lastName" := Text(lastName),
        "role" := Text(role),
        "isActive" := Flag(isActive),
        "passwordHash" := Secret(passwordHash)];
      var withPhone := if phone.Some? then base["phone" := Text(phone.value)] else base;
      if address.Some? then withPhone["address" := Text(address.value)] else withPhone
    }

    /** `toJSON()`: the document without `passwordHash`; no password field of any kind remains. */
    function ToJSON(): (r: map<string, Field>)
      reads this
      ensures "passwordHash" !in r
      ensures forall k :: k in r <==> k in Document() && k != "passwordHash"
      ensures forall k :: k in r ==> r[k] == Document()[k] && !r[k].Secret?
    {
      Document() - {"passwordHash"}
    }
  }

  /** Setting a password and saving leaves a user whose `comparePassword` accepts exactly that password. */
  method ChangePasswordAndSave(u: User, password: string, salt: nat) returns (saved: bool)
    modifies u
    ensures saved <==> |password| >= MinPasswordLength && u.Valid()
    ensures saved ==> forall c :: u.ComparePassword(c) <==> c == password
    ensures !u.passwordModified || !saved
  {
    u.SetPassword(password);
    saved := u.Save(salt);
    if saved {
      forall c
        ensures u.ComparePassword(c) <==> c == password
      {
        HashThenVerify(password, c, salt);
      }
    }
  }
}

=== FILE: values.dfy ===
/**
 * Request-body and query-string values as the route handlers see them, with
 * the JavaScript coercions the handlers rely on: truthiness (`if (name)`),
 * `!== undefined`, `String(v)`, `v || null`, `parseFloat`, the gallery's
 * `isFeatured` flag and mongoose's Boolean cast.
 */
module Values {
  import opened Wrappers
  import opened Strings

  /** A field of a parsed JSON or form body; `Absent` is `undefined`. JSON numbers are integers here. */
  datatype Value = Absent | Null | Str(s: string) | Bool(b: bool) | Num(n: int)

  /** JavaScript truthiness: `undefined`, `null`, `""`, `false` and `0` are falsy. */
  predicate Truthy(v: Value)
  {
    match v
    case Absent => false
    case Null => false
    case Str(s) => s != ""
    case Bool(b) => b
    case Num(n) => n != 0
  }

  /** `v !== undefined` */
  predicate Defined(v: Value)
  {
    !v.Absent?
  }

  /** `String(v)`, the cast mongoose applies to a String path and `RegExp.test` applies to its argument. */
  function Text(v: Value): string
  {
    match v
    case Absent => "undefined"
    case Null => "null"
    case Str(s) => s
    case Bool(b) => if b then "true" else "false"
    case Num(n) => IntText(n)
  }

  /** Only a string can pass the email check: the text of every other value lacks an `@`. */
  lemma TextOfNonStringHasNoAt(v: Value)
    requires !v.Str?
    ensures '@' !in Text(v)
  {
    match v
    case Num(n) =>
      var d := NatText(if n < 0 then -n else n);
      assert forall i :: 0 <= i < |d| ==> d[i] != '@';
      assert n < 0 ==> Text(v) == "-" + d;
      assert n >= 0 ==> Text(v) == d;
    case _ =>
  }

  /** `v === 'true' || v === true`, the gallery's `isFeatured` coercion. */
  predicate IsTrueFlag(v: Value)
  {
    v == Str("true") || v == Bool(true)
  }

  function DigitValue(c: char): nat
    requires IsDigit(c)
  {
    (c as int - '0' as int) as nat
  }

  /** Length of the run of decimal digits at the start of `s`. */
  function DigitRun(s: string): (k: nat)
    ensures k <= |s|
    ensures forall i :: 0 <= i < k ==> IsDigit(s[i])
    ensures k < |s| ==> !IsDigit(s[k])
  {
    if s != [] && IsDigit(s[0]) then 1 + DigitRun(s[1..]) else 0
  }

  function DigitsValue(s: string): nat
    requires forall i :: 0 <= i < |s| ==> IsDigit(s[i])
  {
    if s == [] then 0 else DigitsValue(s[..|s| - 1]) * 10 + DigitValue(s[|s| - 1])
  }

  function Pow10(n: nat): (r: nat)
    ensures r >= 1
  {
    if n == 0 then 1 else 10 * Pow10(n - 1)
  }

  /** Digits, an optional fraction, and whatever follows ignored; `None` when no digit is read. */
  function ParseUnsigned(u: string): Option<real>
  {
    var k := DigitRun(u);
    var hasDot := k < |u| && u[k] == '.';
    var f := if hasDot then DigitRun(u[k + 1..]) else 0;
    if k == 0 && f == 0 then None
    else
      var whole := DigitsValue(u[..k]) as real;
      var fraction := if hasDot then DigitsValue(u[k + 1..][..f]) as real / Pow10(f) as real else 0.0;
      Some(whole + fraction)
  }

  /** `parseFloat(s)`: skip leading whitespace, read an optional sign, then an unsigned decimal; `None` is NaN. */
  function ParseDecimal(s: string): Option<real>
  {
    var t := TrimStart(s);
    if |t| > 0 && t[0] == '-' then
      match ParseUnsigned(t[1..])
      case None => None
      case Some(x) => Some(-x)
    else if |t| > 0 && t[0] == '+' then ParseUnsigned(t[1..])
    else ParseUnsigned(t)
  }

  /** `parseFloat(v)` for any body value: numbers are themselves, text is parsed, the rest is NaN. */
  function ParseFloat(v: Value): Option<real>
  {
    match v
    case Num(n) => Some(n as real)
    case Str(s) => ParseDecimal(s)
    case _ => None
  }

  lemma DigitOfDigitChar(d: nat)
    requires d < 10
    ensures DigitValue(DigitChar(d)) == d
  {
  }

  lemma {:induction false} DigitsOfNatText(n: nat)
    ensures DigitsValue(NatText(n)) == n
  {
    if n < 10 {
      var t := NatText(n);
      DigitOfDigitChar(n);
      assert t[..|t| - 1] == [];
    } else {
      var q, d := n / 10, n % 10;
      DigitsOfNatText(q);
      DigitOfDigitChar(d);
      var t := NatText(q) + [DigitChar(d)];
      assert t[..|t| - 1] == NatText(q);
      assert DigitsValue(t) == DigitsValue(NatText(q)) * 10 + DigitValue(DigitChar(d));
      assert q * 10 + d == n;
    }
  }

  lemma {:induction false} ParseUnsignedNatText(n: nat)
    ensures ParseUnsigned(NatText(n)) == Some(n as real)
  {
    var u := NatText(n);
    DigitsOfNatText(n);
    assert DigitRun(u) == |u|;
    assert u[..|u|] == u;
  }

  /** Parsing the decimal text of a natural number gives the number back. */
  lemma {:induction false} ParseNonNegative(m: nat)
    ensures ParseFloat(Str(NatText(m))) == Some(m as real)
  {
    var s := NatText(m);
    assert IsDigit(s[0]);
    assert TrimStart(s) == s;
    ParseUnsignedNatText(m);
  }

  /** Parsing a minus sign followed by the decimal text of a natural number gives its negation. */
  lemma {:induction false} ParseNegative(m: nat)
    ensures ParseFloat(Str("-" + NatText(m))) == Some(-(m as real))
  {
    var s := "-" + NatText(m);
    assert TrimStart(s) == s;
    assert s[1..] == NatText(m);
    ParseUnsignedNatText(m);
  }

  /** The strings mongoose's Boolean cast reads as true, and as false. */
  const TrueTexts: set<string> := {"true", "1", "yes"}
  const FalseTexts: set<string> := {"false", "0", "no"}

  /**
   * mongoose's Boolean cast: `true, 'true', 1, '1', 'yes'` become true,
   * `false, 'false', 0, '0', 'no'` become false, null stays null (`Some(None)`);
   * anything else is a CastError (`None`).
   */
  function CastBoolean(v: Value): (r: Option<Option<bool>>)
    ensures v.Bool? ==> r == Some(Some(v.b))
    ensures v.Null? || v.Absent? ==> r == Some(None)
    ensures v.Str? ==> (r.Some? <==> v.s in TrueTexts + FalseTexts)
    ensures v.Str? && v.s in TrueTexts ==> r == Some(Some(true))
    ensures v.Str? && v.s in FalseTexts ==> r == Some(Some(false))
    ensures v.Num? ==> (r.Some? <==> v.n == 0 || v.n == 1)
    ensures v.Num? && v.n == 1 ==> r == Some(Some(true))
    ensures v.Num? && v.n == 0 ==> r == Some(Some(false))
  {
    match v
    case Absent => Some(None)
    case Null => Some(None)
    case Bool(b) => Some(Some(b))
    case Str(s) =>
      if s == "true" || s == "1" || s == "yes" then Some(Some(true))
      else if s == "false" || s == "0" || s == "no" then Some(Some(false))
      else None
    case Num(n) => if n == 1 then Some(Some(true)) else if n == 0 then Some(Some(false)) else None
  }

  /** A query-string parameter: absent, or its text. */
  type Query = Option<string>

  /** A query parameter that is present and non-empty, i.e. truthy. */
  predicate Given(q: Query)
  {
    q.Some? && q.value != ""
  }
}

=== FILE: workorder.dfy ===
/**
 * The WorkOrder schema: four required trimmed strings, the e-mail stored
 * trimmed and lower-cased, the `priority` and `status` enums with their
 * defaults, an optional owner, and the list of uploaded image paths.
 */
module WorkOrderModel {
  import opened Wrappers
  import opened Strings
  import opened Values
  import opened JobStatus
  import opened Schema

  datatype Priority = Low | Medium | High | Urgent

  function PriorityName(p: Priority): string
  {
    match p
    case Low => "low"
    case Medium => "medium"
    case High => "high"
    case Urgent => "urgent"
  }

  /** The schema's `enum` check on a priority text. */
  function PriorityNamed(t: string): (r: Option<Priority>)
    ensures r.Some? ==> PriorityName(r.value) == t
    ensures r.None? ==> forall p :: PriorityName(p) != t
  {
    if t == "low" then Some(Low)
    else if t == "medium" then Some(Medium)
    else if t == "high" then Some(High)
    else if t == "urgent" then Some(Urgent)
    else None
  }

  lemma PriorityNameAccepted(p: Priority)
    ensures PriorityNamed(PriorityName(p)) == Some(p)
  {
  }

  /** The schema default when `priority` is not given. */
  const DefaultPriority: Priority := Medium

  /** The schema default for `status`. */
  const DefaultStatus: Status := Pending

  datatype WorkOrder = WorkOrder(
    userId: Option<nat>,
    customerName: string,
    customerEmail: string,
    customerPhone: Option<string>,
    customerAddress: Option<string>,
    serviceType: string,
    description: string,
    priority: Option<Priority>,
    preferredDate: Option<string>,
    preferredTime: Option<string>,
    budgetRange: Option<string>,
    status: Status,
    notes: Option<string>,
    images: seq<string>)

  /** What the schema's setters and validators guarantee of a stored work order. */
  predicate Valid(w: WorkOrder)
  {
    && Required(w.customerName)
    && Required(w.customerEmail) && Lower(w.customerEmail) == w.customerEmail
    && TrimmedOpt(w.customerPhone)
    && TrimmedOpt(w.customerAddress)
    && Required(w.serviceType)
    && Required(w.description)
    && TrimmedOpt(w.preferredTime)
    && TrimmedOpt(w.budgetRange)
    && TrimmedOpt(w.notes)
    && (forall i :: 0 <= i < |w.images| ==> Trimmed(w.images[i]))
  }
}

=== FILE: workorders_routes.dfy ===
/**
 * The `/api/work-orders` router: the admin listing, a customer's own orders
 * behind a user token, lookup, public submission with optional ownership
 * and uploaded images, the status/notes update, and deletion.
 */
module WorkOrderRoutes {
  import opened Wrappers
  import opened Strings
  import opened Email
  import opened Values
  import opened Ordering
  import opened RecordStore
  import opened JobStatus
  import opened Schema
  import opened Http
  import opened WorkOrderModel
  import opened Collections

  /** `filter.status = status` when the `status` query parameter is truthy. */
  predicate StatusMatches(status: Query, w: WorkOrder)
  {
    Given(status) ==> StatusName(w.status) == status.value
  }

  /** The admin listing's filter. */
  function ByStatus(status: Query): Doc<WorkOrder> -> bool
  {
    (d: Doc<WorkOrder>) => StatusMatches(status, d.data)
  }

  /** The my-orders filter: always the token's user, plus the optional status. */
  function OwnedBy(userId: nat, status: Query): Doc<WorkOrder> -> bool
  {
    (d: Doc<WorkOrder>) => d.data.userId == Some(userId) && StatusMatches(status, d.data)
  }

  /** GET / : matching orders, newest first, one page of them. */
  method List(s: Store, status: Query, page: Positive, limit: Positive) returns (r: Reply<Page<Doc<WorkOrder>>>)
    requires s.Valid()
    ensures r.Ok? && r.code == OK && r.body.page == page && r.body.limit == limit
    ensures IsListing(r.body.items, Filter(s.workOrders.Records(), ByStatus(status)), NewestFirst<WorkOrder>, Skip(page, limit), limit)
    ensures forall d :: d in r.body.items ==> d in s.workOrders.Records() && StatusMatches(status, d.data)
  {
    NewestFirstOrders<WorkOrder>();
    var items := s.workOrders.Select(ByStatus(status), NewestFirst<WorkOrder>, Skip(page, limit), limit);
    r := Ok(OK, Page(items, page, limit));
  }

  /** One page of a user's own orders, newest first, with the total count and the number of pages. */
  method OwnOrders(s: Store, userId: nat, status: Query, page: Positive, limit: Positive) returns (r: CountedPage<Doc<WorkOrder>>)
    requires s.Valid()
    ensures r.page == page && r.limit == limit
    ensures IsListing(r.items, Filter(s.workOrders.Records(), OwnedBy(userId, status)), NewestFirst<WorkOrder>, Skip(page, limit), limit)
    ensures forall d :: d in r.items ==> d in s.workOrders.Records() && d.data.userId == Some(userId) && StatusMatches(status, d.data)
    ensures r.totalCount == s.workOrders.Count(OwnedBy(userId, status))
    ensures r.totalPages * limit >= r.totalCount && (r.totalPages == 0 || (r.totalPages - 1) * limit < r.totalCount)
  {
    NewestFirstOrders<WorkOrder>();
    var items := s.workOrders.Select(OwnedBy(userId, status), NewestFirst<WorkOrder>, Skip(page, limit), limit);
    var total := s.workOrders.Count(OwnedBy(userId, status));
    r := CountedPage(items, page, limit, total, CeilDiv(total, limit));
  }

  /** The my-orders answers for a missing token, a rejected token, any other verification error, and a non-user role. */
  const AuthenticationRequired: string := "Authentication required"
  const InvalidToken: string := "Invalid token"
  const FetchFailed: string := "Failed to fetch work orders"
  const UserAccountRequired: string := "Access denied. User account required."

  /** The name of the only verification error my-orders answers with 401. */
  const JsonWebTokenError: string := "JsonWebTokenError"

  /** GET /my-orders : a missing token is 401, a non-user role 403; of the verification errors only `JsonWebTokenError` is 401, any other (an expired token included) is 500. */
  method MyOrders(s: Store, token: TokenCheck, status: Query, page: Positive, limit: Positive) returns (r: Reply<CountedPage<Doc<WorkOrder>>>)
    requires s.Valid()
    ensures token.NoToken? ==> r == Fail(UNAUTHORIZED, AuthenticationRequired)
    ensures token.Invalid? && token.errorName == JsonWebTokenError ==> r == Fail(UNAUTHORIZED, InvalidToken)
    ensures token.Invalid? && token.errorName != JsonWebTokenError ==> r == Fail(SERVER_ERROR, FetchFailed)
    ensures token.Verified? && token.role != "user" ==> r == Fail(FORBIDDEN, UserAccountRequired)
    ensures r.Ok? <==> token.Verified? && token.role == "user"
    ensures r.Ok? ==> r.code == OK && r.body.page == page && r.body.limit == limit
    ensures r.Ok? ==> IsListing(r.body.items, Filter(s.workOrders.Records(), OwnedBy(token.userId, status)), NewestFirst<WorkOrder>, Skip(page, limit), limit)
    ensures r.Ok? ==> forall d :: d in r.body.items ==> d in s.workOrders.Records() && d.data.userId == Some(token.userId) && StatusMatches(status, d.data)
    ensures r.Ok? ==> r.body.totalCount == s.workOrders.Count(OwnedBy(token.userId, status))
    ensures r.Ok? ==> r.body.totalPages * limit >= r.body.totalCount && (r.body.totalPages == 0 || (r.body.totalPages - 1) * limit < r.body.totalCount)
  {
    match token
    case NoToken =>
      r := Fail(UNAUTHORIZED, AuthenticationRequired);
    case Invalid(name) =>
      if name == JsonWebTokenError {
        r := Fail(UNAUTHORIZED, InvalidToken);
      } else {
        r := Fail(SERVER_ERROR, FetchFailed);
      }
    case Verified(role, userId) =>
      if role != "user" {
        r := Fail(FORBIDDEN, UserAccountRequired);
      } else {
        var body := OwnOrders(s, userId, status, page, limit);
        r := Ok(OK, body);
      }
  }

  /** GET /:id */
  method Get(s: Store, id: IdParam) returns (r: Reply<Doc<WorkOrder>>)
    requires s.Valid()
    ensures id.Malformed? ==> r == Fail(BAD_REQUEST, "Invalid work order ID")
    ensures id.Key? && id.id !in s.workOrders.rows ==> r == Fail(NOT_FOUND, "Work order not found")
    ensures id.Key? && id.id in s.workOrders.rows ==> r == Ok(OK, s.workOrders.rows[id.id])
  {
    if id.Malformed? {
      return Fail(BAD_REQUEST, "Invalid work order ID");
    }
    match s.workOrders.Find(id.id)
    case None => r := Fail(NOT_FOUND, "Work order not found");
    case Some(d) => r := Ok(OK, d);
  }

  /** The submission form fields, as parsed from the multipart body. */
  datatype OrderForm = OrderForm(
    customerName: Value,
    customerEmail: Value,
    customerPhone: Value,
    customerAddress: Value,
    serviceType: Value,
    description: Value,
    priority: Value,
    preferredDate: Value,
    preferredTime: Value,
    budgetRange: Value,
    notes: Value)

  const MissingOrderFields: string := "Missing required fields: customerName, customerEmail, serviceType, description"

  /** The optional authentication: the token's user owns the order only when the token verifies with role 'user'. */
  function OptionalOwner(token: TokenCheck): (r: Option<nat>)
    ensures r.Some? <==> token.Verified? && token.role == "user"
    ensures r.Some? ==> r.value == token.userId
  {
    if token.Verified? && token.role == "user" then Some(token.userId) else None
  }

  const OrderUploads: string := "/uploads/work-orders/"

  /** One uploaded file's stored path: the public prefix and the generated file name, through the `trim` setter. */
  function StoredImage(filename: string): string
  {
    Trim(OrderUploads + filename)
  }

  /** `images`: one path per uploaded file, in upload order, each trimmed. */
  function StoredImages(files: seq<string>): (r: seq<string>)
    ensures |r| == |files|
    ensures forall i :: 0 <= i < |r| ==> r[i] == StoredImage(files[i]) && Trimmed(r[i])
  {
    var r := Project(files, StoredImage);
    assert forall i :: 0 <= i < |r| ==> r[i] == StoredImage(files[i]) && Trimmed(r[i]) by {
      forall i | 0 <= i < |r|
        ensures Trimmed(r[i])
      {
        TrimSpec(OrderUploads + files[i]);
      }
    }
    r
  }

  /** A generated file name has no whitespace, so its stored path is exactly the prefix followed by the name. */
  lemma StoredImageExact(filename: string)
    requires NoSpace(filename)
    ensures StoredImage(filename) == OrderUploads + filename
  {
    assert NoSpace(OrderUploads);
    NoSpaceAppend(OrderUploads, filename);
    TrimNoSpace(OrderUploads + filename);
  }

  /** `priority = 'medium'` in the destructuring, then the schema's enum: `None` when the enum validator rejects it, `Some(None)` for null. */
  function PriorityCast(v: Value): (r: Option<Option<Priority>>)
    ensures v.Absent? ==> r == Some(Some(DefaultPriority))
    ensures v.Null? ==> r == Some(None)
    ensures !v.Absent? && !v.Null? ==> (r.Some? <==> PriorityNamed(Text(v)).Some?)
    ensures !v.Absent? && !v.Null? && r.Some? ==> r.value.Some? && PriorityName(r.value.value) == Text(v)
  {
    match v
    case Absent => Some(Some(DefaultPriority))
    case Null => Some(None)
    case _ =>
      match PriorityNamed(Text(v))
      case Some(p) => Some(Some(p))
      case None => None
  }

  /**
   * POST / up to the store, before the owner is attached: the required-field
   * and e-mail checks (400), then the document `WorkOrder.create` would build,
   * or the validation error (500) it would raise.
   */
  function OrderDraft(f: OrderForm, files: seq<string>): (r: Outcome<WorkOrder>)
    ensures (!(Truthy(f.customerName) && Truthy(f.customerEmail) && Truthy(f.serviceType) && Truthy(f.description)))
              ==> r == Reject(BAD_REQUEST, MissingOrderFields)
    ensures (Truthy(f.customerName) && Truthy(f.customerEmail) && Truthy(f.serviceType) && Truthy(f.description) && !IsEmail(Text(f.customerEmail)))
              ==> r == Reject(BAD_REQUEST, "Invalid email format")
    ensures r.Reject? ==> r.code == BAD_REQUEST || r == Reject(SERVER_ERROR, "Failed to submit work order")
    ensures (Truthy(f.customerName) && Truthy(f.customerEmail) && Truthy(f.serviceType) && Truthy(f.description) && IsEmail(Text(f.customerEmail))
             && r.Reject?) ==> r == Reject(SERVER_ERROR, "Failed to submit work order")
    ensures r.Accept? <==> && Truthy(f.customerName) && Truthy(f.customerEmail) && Truthy(f.serviceType) && Truthy(f.description)
                           && IsEmail(Text(f.customerEmail))
                           && RequiredText(f.customerName).Some? && RequiredText(f.serviceType).Some? && RequiredText(f.description).Some?
                           && PriorityCast(f.priority).Some?
    ensures r.Accept? ==> Valid(r.value) && IsEmail(Text(f.customerEmail))
    ensures r.Accept? ==> r.value.status == DefaultStatus && r.value.userId == None
    ensures r.Accept? ==> r.value.customerEmail == Lower(Text(f.customerEmail))
    ensures r.Accept? ==> r.value.customerName == Trim(Text(f.customerName)) && r.value.serviceType == Trim(Text(f.serviceType))
                          && r.value.description == Trim(Text(f.description))
    ensures r.Accept? ==> r.value.images == StoredImages(files)
    ensures r.Accept? ==> Some(r.value.priority) == PriorityCast(f.priority)
    ensures r.Accept? ==> && (r.value.customerPhone.None? <==> !Truthy(f.customerPhone))
                          && (r.value.customerAddress.None? <==> !Truthy(f.customerAddress))
                          && (r.value.preferredDate.None? <==> !Truthy(f.preferredDate))
                          && (r.value.preferredTime.None? <==> !Truthy(f.preferredTime))
                          && (r.value.budgetRange.None? <==> !Truthy(f.budgetRange))
                          && (r.value.notes.None? <==> !Truthy(f.notes))
  {
    if !(Truthy(f.customerName) && Truthy(f.customerEmail) && Truthy(f.serviceType) && Truthy(f.description)) then
      Reject(BAD_REQUEST, MissingOrderFields)
    else if !IsEmail(Text(f.customerEmail)) then
      Reject(BAD_REQUEST, "Invalid email format")
    else
      var name := RequiredText(f.customerName);
      var serviceType := RequiredText(f.serviceType);
      var description := RequiredText(f.description);
      var priority := PriorityCast(f.priority);
      if name.None? || serviceType.None? || description.None? || priority.None? then
        Reject(SERVER_ERROR, "Failed to submit work order")
      else
        var w := WorkOrder(
          None,
          name.value,
          LowerText(f.customerEmail),
          OptText(f.customerPhone),
          OptText(f.customerAddress),
          serviceType.value,
          description.value,
          priority.value,
          OptDate(f.preferredDate),
          OptText(f.preferredTime),
          OptText(f.budgetRange),
          DefaultStatus,
          OptText(f.notes),
          StoredImages(files));
        assert Valid(w);
        Accept(w)
  }

  /** POST / up to the store: the draft, owned by the token's user when there is one. */
  function NewOrder(f: OrderForm, token: TokenCheck, files: seq<string>): (r: Outcome<WorkOrder>)
    ensures r.Accept? ==> Valid(r.value) && r.value.userId == OptionalOwner(token)
  {
    match OrderDraft(f, files)
    case Reject(code, error) => Reject(code, error)
    case Accept(w) => Accept(w.(userId := OptionalOwner(token)))
  }

  /** Whether an order is accepted, and with what error it is refused, does not depend on the token; the token only decides the owner. */
  lemma OwnerOnlyAffectsUserId(f: OrderForm, t1: TokenCheck, t2: TokenCheck, files: seq<string>)
    ensures NewOrder(f, t1, files).Accept? <==> NewOrder(f, t2, files).Accept?
    ensures NewOrder(f, t1, files).Reject? ==> NewOrder(f, t1, files) == NewOrder(f, t2, files)
    ensures NewOrder(f, t1, files).Accept? ==> NewOrder(f, t1, files).value == NewOrder(f, t2, files).value.(userId := OptionalOwner(t1))
  {
  }

  /** POST / : a rejected submission answers with its error and stores nothing; an accepted one is stored last, stamped `now`, and answered 201. */
  method Submit(s: Store, f: OrderForm, token: TokenCheck, files: seq<string>, now: int) returns (r: Reply<Doc<WorkOrder>>)
    requires s.Valid()
    modifies s.workOrders
    ensures s.Valid()
    ensures NewOrder(f, token, files).Reject? ==>
              r == Fail(NewOrder(f, token, files).code, NewOrder(f, token, files).error) && s.workOrders.rows == old(s.workOrders.rows)
    ensures NewOrder(f, token, files).Accept? ==>
              && r.Ok? && r.code == CREATED
              && r.body.data == NewOrder(f, token, files).value
              && r.body.createdAt == now && r.body.id !in old(s.workOrders.rows)
              && s.workOrders.Records() == old(s.workOrders.Records()) + [r.body]
  {
    r := Admit(s.workOrders, NewOrder(f, token, files), now);
  }

  /** The `updateData` of PUT /:id, applied to an order: a validated status and a defined `notes` are set; nothing else changes. */
  function PatchOrder(w: WorkOrder, status: Option<Status>, notes: Value): (r: WorkOrder)
    ensures r == w.(status := r.status, notes := r.notes)
    ensures r.status == status.GetOr(w.status)
    ensures r.notes == if Defined(notes) then SetText(notes) else w.notes
    ensures Valid(w) ==> Valid(r)
  {
    var w1 := if status.Some? then w.(status := status.value) else w;
    if Defined(notes) then w1.(notes := SetText(notes)) else w1
  }

  /** PUT /:id : id format (400), then the status enum (400), then an empty update (400), then a missing order (404). */
  method Update(s: Store, id: IdParam, status: Value, notes: Value, now: int) returns (r: Reply<Doc<WorkOrder>>)
    requires s.Valid()
    modifies s.workOrders
    ensures s.Valid()
    ensures id.Malformed? ==> r == Fail(BAD_REQUEST, "Invalid work order ID")
    ensures id.Key? && Truthy(status) && StatusOf(status).None? ==> r == Fail(BAD_REQUEST, "Invalid status value")
    ensures id.Key? && !Truthy(status) && !Defined(notes) ==> r == Fail(BAD_REQUEST, "No valid fields to update")
    ensures (id.Key? && (Truthy(status) ==> StatusOf(status).Some?) && (Truthy(status) || Defined(notes)) && id.id !in old(s.workOrders.rows))
              ==> r == Fail(NOT_FOUND, "Work order not found")
    ensures (id.Key? && (Truthy(status) ==> StatusOf(status).Some?) && (Truthy(status) || Defined(notes)) && id.id in old(s.workOrders.rows))
              ==> r.Ok?
    ensures r.Fail? ==> s.workOrders.rows == old(s.workOrders.rows)
    ensures r.Ok? ==> && id.Key? && id.id in old(s.workOrders.rows)
                      && r == Ok(OK, old(s.workOrders.rows)[id.id].(updatedAt := now, data := PatchOrder(old(s.workOrders.rows)[id.id].data, NewStatus(status), notes)))
                      && s.workOrders.rows == old(s.workOrders.rows)[id.id := r.body]
  {
    if id.Malformed? {
      return Fail(BAD_REQUEST, "Invalid work order ID");
    }
    if Truthy(status) && StatusOf(status).None? {
      return Fail(BAD_REQUEST, "Invalid status value");
    }
    if !Truthy(status) && !Defined(notes) {
      return Fail(BAD_REQUEST, "No valid fields to update");
    }
    var patch := (w: WorkOrder) => PatchOrder(w, NewStatus(status), notes);
    r := Revise(s.workOrders, id.id, patch, now, "Work order not found");
  }

  /** DELETE /:id : removes exactly that order, or answers 400/404 and removes nothing. */
  method Delete(s: Store, id: IdParam) returns (r: Reply<string>)
    requires s.Valid()
    modifies s.workOrders
    ensures s.Valid()
    ensures id.Malformed? ==> r == Fail(BAD_REQUEST, "Invalid work order ID") && s.workOrders.rows == old(s.workOrders.rows)
    ensures id.Key? && id.id !in old(s.workOrders.rows) ==> r == Fail(NOT_FOUND, "Work order not found")
    ensures id.Key? ==> s.workOrders.rows == old(s.workOrders.rows) - {id.id}
    ensures id.Key? && id.id in old(s.workOrders.rows) ==> r == Ok(OK, "Work order deleted successfully")
  {
    if id.Malformed? {
      return Fail(BAD_REQUEST, "Invalid work order ID");
    }
    var removed := s.workOrders.Delete(id.id);
    if removed.None? {
      r := Fail(NOT_FOUND, "Work order not found");
    } else {
      r := Ok(OK, "Work order deleted successfully");
    }
  }
}

=== FILE: workrequest.dfy ===
/**
 * The WorkRequest schema: three required trimmed strings, the required
 * `urgencyLevel` and `servicePreference` enums, the shared `status` enum
 * and two optional trimmed strings.
 */
module WorkRequestModel {
  import opened Wrappers
  import opened Strings
  import opened Values
  import opened JobStatus
  import opened Schema

  datatype Urgency = Within24Hours | WithinWeek | WithinMonth | Annual

  function UrgencyName(u: Urgency): string
  {
    match u
    case Within24Hours => "24hours"
    case WithinWeek => "1week"
    case WithinMonth => "1month"
    case Annual => "annual"
  }

  /** `validUrgencyLevels.includes(v)`: strict equality with one of the four names. */
  function UrgencyOf(v: Value): (r: Option<Urgency>)
    ensures r.Some? ==> v == Str(UrgencyName(r.value))
    ensures r.None? ==> forall u :: v != Str(UrgencyName(u))
  {
    match v
    case Str(t) =>
      if t == "24hours" then Some(Within24Hours)
      else if t == "1week" then Some(WithinWeek)
      else if t == "1month" then Some(WithinMonth)
      else if t == "annual" then Some(Annual)
      else None
    case _ => None
  }

  lemma UrgencyNameAccepted(u: Urgency)
    ensures UrgencyOf(Str(UrgencyName(u))) == Some(u)
  {
  }

  datatype ServicePreference = Licensed | General

  function PreferenceName(p: ServicePreference): string
  {
    match p
    case Licensed => "licensed"
    case General => "general"
  }

  /** `validServicePreferences.includes(v)` */
  function PreferenceOf(v: Value): (r: Option<ServicePreference>)
    ensures r.Some? ==> v == Str(PreferenceName(r.value))
    ensures r.None? ==> forall p :: v != Str(PreferenceName(p))
  {
    match v
    case Str(t) =>
      if t == "licensed" then Some(Licensed)
      else if t == "general" then Some(General)
      else None
    case _ => None
  }

  lemma PreferenceNameAccepted(p: ServicePreference)
    ensures PreferenceOf(Str(PreferenceName(p))) == Some(p)
  {
  }

  datatype WorkRequest = WorkRequest(
    customerName: string,
    customerAddress: string,
    projectType: string,
    urgencyLevel: Urgency,
    servicePreference: ServicePreference,
    status: Status,
    notes: Option<string>,
    assignedTo: Option<string>)

  /** What the schema's setters and validators guarantee of a stored work request. */
  predicate Valid(w: WorkRequest)
  {
    && Required(w.customerName)
    && Required(w.customerAddress)
    && Required(w.projectType)
    && TrimmedOpt(w.notes)
    && TrimmedOpt(w.assignedTo)
  }
}

=== FILE: workrequests_routes.dfy ===
/**
 * The `/api/work-requests` router: the filtered admin listing with counts,
 * lookup, public submission with its enum checks, the status/notes/assignee
 * update, deletion, and the `$group` summary by status, urgency and
 * service preference.
 */
module WorkRequestRoutes {
  import opened Wrappers
  import opened Strings
  import opened Values
  import opened Ordering
  import opened RecordStore
  import opened JobStatus
  import opened Schema
  import opened Http
  import opened WorkRequestModel
  import opened Collections

  /** The listing filter: each of `status`, `urgencyLevel`, `servicePreference` narrows the result when truthy. */
  predicate RequestMatches(status: Query, urgency: Query, preference: Query, w: WorkRequest)
  {
    && (Given(status) ==> StatusName(w.status) == status.value)
    && (Given(urgency) ==> UrgencyName(w.urgencyLevel) == urgency.value)
    && (Given(preference) ==> PreferenceName(w.servicePreference) == preference.value)
  }

  function RequestFilter(status: Query, urgency: Query, preference: Query): Doc<WorkRequest> -> bool
  {
    (d: Doc<WorkRequest>) => RequestMatches(status, urgency, preference, d.data)
  }

  /** GET / : the matching requests, newest first, one page of them, with the number of matches and of pages. */
  method List(s: Store, status: Query, urgency: Query, preference: Query, page: Positive, limit: Positive)
    returns (r: Reply<CountedPage<Doc<WorkRequest>>>)
    requires s.Valid()
    ensures r.Ok? && r.code == OK && r.body.page == page && r.body.limit == limit
    ensures IsListing(r.body.items, Filter(s.workRequests.Records(), RequestFilter(status, urgency, preference)),
                      NewestFirst<WorkRequest>, Skip(page, limit), limit)
    ensures forall d :: d in r.body.items ==> d in s.workRequests.Records() && RequestMatches(status, urgency, preference, d.data)
    ensures r.body.totalCount == s.workRequests.Count(RequestFilter(status, urgency, preference))
    ensures r.body.totalPages * limit >= r.body.totalCount && (r.body.totalPages == 0 || (r.body.totalPages - 1) * limit < r.body.totalCount)
  {
    NewestFirstOrders<WorkRequest>();
    var filter := RequestFilter(status, urgency, preference);
    var items := s.workRequests.Select(filter, NewestFirst<WorkRequest>, Skip(page, limit), limit);
    var total := s.workRequests.Count(filter);
    r := Ok(OK, CountedPage(items, page, limit, total, CeilDiv(total, limit)));
  }

  /** GET /:id */
  method Get(s: Store, id: IdParam) returns (r: Reply<Doc<WorkRequest>>)
    requires s.Valid()
    ensures id.Malformed? ==> r == Fail(BAD_REQUEST, "Invalid work request ID")
    ensures id.Key? && id.id !in s.workRequests.rows ==> r == Fail(NOT_FOUND, "Work request not found")
    ensures id.Key? && id.id in s.workRequests.rows ==> r == Ok(OK, s.workRequests.rows[id.id])
  {
    if id.Malformed? {
      return Fail(BAD_REQUEST, "Invalid work request ID");
    }
    match s.workRequests.Find(id.id)
    case None => r := Fail(NOT_FOUND, "Work request not found");
    case Some(d) => r := Ok(OK, d);
  }

  /** The five body fields the submission reads. */
  datatype RequestForm = RequestForm(
    customerName: Value,
    customerAddress: Value,
    projectType: Value,
    urgencyLevel: Value,
    servicePreference: Value)

  const MissingRequestFields: string := "Missing required fields: customerName, customerAddress, projectType, urgencyLevel, servicePreference"

  predicate AllGiven(f: RequestForm)
  {
    Truthy(f.customerName) && Truthy(f.customerAddress) && Truthy(f.projectType)
    && Truthy(f.urgencyLevel) && Truthy(f.servicePreference)
  }

  /**
   * POST / up to the store: the presence check, the urgency check, the
   * preference check (each 400, in that order), then the document
   * `WorkRequest.create` would build, or its validation error (500).
   */
  function NewRequest(f: RequestForm): (r: Outcome<WorkRequest>)
    ensures !AllGiven(f) ==> r == Reject(BAD_REQUEST, MissingRequestFields)
    ensures AllGiven(f) && UrgencyOf(f.urgencyLevel).None? ==> r == Reject(BAD_REQUEST, "Invalid urgency level")
    ensures (AllGiven(f) && UrgencyOf(f.urgencyLevel).Some? && PreferenceOf(f.servicePreference).None?)
              ==> r == Reject(BAD_REQUEST, "Invalid service preference")
    ensures r.Reject? ==> r.code == BAD_REQUEST || r == Reject(SERVER_ERROR, "Failed to submit work request")
    ensures (AllGiven(f) && UrgencyOf(f.urgencyLevel).Some? && PreferenceOf(f.servicePreference).Some? && r.Reject?)
              ==> r == Reject(SERVER_ERROR, "Failed to submit work request")
    ensures r.Accept? <==> (AllGiven(f) && UrgencyOf(f.urgencyLevel).Some? && PreferenceOf(f.servicePreference).Some?
                            && Trim(Text(f.customerName)) != "" && Trim(Text(f.customerAddress)) != "" && Trim(Text(f.projectType)) != "")
    ensures r.Accept? ==> Valid(r.value) && r.value.status == Pending && r.value.notes.None? && r.value.assignedTo.None?
    ensures r.Accept? ==> f.urgencyLevel == Str(UrgencyName(r.value.urgencyLevel))
                          && f.servicePreference == Str(PreferenceName(r.value.servicePreference))
    ensures r.Accept? ==> && r.value.customerName == Trim(Text(f.customerName))
                          && r.value.customerAddress == Trim(Text(f.customerAddress))
                          && r.value.projectType == Trim(Text(f.projectType))
  {
    if !AllGiven(f) then
      Reject(BAD_REQUEST, MissingRequestFields)
    else if UrgencyOf(f.urgencyLevel).None? then
      Reject(BAD_REQUEST, "Invalid urgency level")
    else if PreferenceOf(f.servicePreference).None? then
      Reject(BAD_REQUEST, "Invalid service preference")
    else
      var name := RequiredText(f.customerName);
      var address := RequiredText(f.customerAddress);
      var project := RequiredText(f.projectType);
      if name.None? || address.None? || project.None? then
        Reject(SERVER_ERROR, "Failed to submit work request")
      else
        var w := WorkRequest(name.value, address.value, project.value,
                             UrgencyOf(f.urgencyLevel).value, PreferenceOf(f.servicePreference).value,
                             Pending, None, None);
        assert Valid(w);
        Accept(w)
  }

  /** POST / : a rejected submission answers with its error and stores nothing; an accepted one is stored last, stamped `now`, and answered 201. */
  method Submit(s: Store, f: RequestForm, now: int) returns (r: Reply<Doc<WorkRequest>>)
    requires s.Valid()
    modifies s.workRequests
    ensures s.Valid()
    ensures NewRequest(f).Reject? ==> r == Fail(NewRequest(f).code, NewRequest(f).error) && s.workRequests.rows == old(s.workRequests.rows)
    ensures NewRequest(f).Accept? ==>
              && r.Ok? && r.code == CREATED
              && r.body.data == NewRequest(f).value
              && r.body.createdAt == now && r.body.id !in old(s.workRequests.rows)
              && s.workRequests.Records() == old(s.workRequests.Records()) + [r.body]
  {
    r := Admit(s.workRequests, NewRequest(f), now);
  }

  /** The `updateData` of PUT /:id, applied to a request: a validated status, a defined `notes` and a defined `assignedTo` are set; nothing else changes. */
  function PatchRequest(w: WorkRequest, status: Option<Status>, notes: Value, assignedTo: Value): (r: WorkRequest)
    ensures r == w.(status := r.status, notes := r.notes, assignedTo := r.assignedTo)
    ensures r.status == status.GetOr(w.status)
    ensures r.notes == if Defined(notes) then SetText(notes) else w.notes
    ensures r.assignedTo == if Defined(assignedTo) then SetText(assignedTo) else w.assignedTo
    ensures Valid(w) ==> Valid(r)
  {
    var w1 := if status.Some? then w.(status := status.value) else w;
    var w2 := if Defined(notes) then w1.(notes := SetText(notes)) else w1;
    if Defined(assignedTo) then w2.(assignedTo := SetText(assignedTo)) else w2
  }

  /** PUT /:id : id format (400), then the status enum (400), then an empty update (400), then a missing request (404). */
  method Update(s: Store, id: IdParam, status: Value, notes: Value, assignedTo: Value, now: int) returns (r: Reply<Doc<WorkRequest>>)
    requires s.Valid()
    modifies s.workRequests
    ensures s.Valid()
    ensures id.Malformed? ==> r == Fail(BAD_REQUEST, "Invalid work request ID")
    ensures id.Key? && Truthy(status) && StatusOf(status).None? ==> r == Fail(BAD_REQUEST, "Invalid status value")
    ensures (id.Key? && !Truthy(status) && !Defined(notes) && !Defined(assignedTo)) ==> r == Fail(BAD_REQUEST, "No valid fields to update")
    ensures (id.Key? && (Truthy(status) ==> StatusOf(status).Some?) && (Truthy(status) || Defined(notes) || Defined(assignedTo))
             && id.id !in old(s.workRequests.rows))
              ==> r == Fail(NOT_FOUND, "Work request not found")
    ensures (id.Key? && (Truthy(status) ==> StatusOf(status).Some?) && (Truthy(status) || Defined(notes) || Defined(assignedTo))
             && id.id in old(s.workRequests.rows))
              ==> r.Ok?
    ensures r.Fail? ==> s.workRequests.rows == old(s.workRequests.rows)
    ensures r.Ok? ==> && id.Key? && id.id in old(s.workRequests.rows)
                      && r == Ok(OK, old(s.workRequests.rows)[id.id].(updatedAt := now,
                                       data := PatchRequest(old(s.workRequests.rows)[id.id].data, NewStatus(status), notes, assignedTo)))
                      && s.workRequests.rows == old(s.workRequests.rows)[id.id := r.body]
  {
    if id.Malformed? {
      return Fail(BAD_REQUEST, "Invalid work request ID");
    }
    if Truthy(status) && StatusOf(status).None? {
      return Fail(BAD_REQUEST, "Invalid status value");
    }
    if !Truthy(status) && !Defined(notes) && !Defined(assignedTo) {
      return Fail(BAD_REQUEST, "No valid fields to update");
    }
    var patch := (w: WorkRequest) => PatchRequest(w, NewStatus(status), notes, assignedTo);
    r := Revise(s.workRequests, id.id, patch, now, "Work request not found");
  }

  /** DELETE /:id : removes exactly that request, or answers 400/404 and removes nothing. */
  method Delete(s: Store, id: IdParam) returns (r: Reply<string>)
    requires s.Valid()
    modifies s.workRequests
    ensures s.Valid()
    ensures id.Malformed? ==> r == Fail(BAD_REQUEST, "Invalid work request ID") && s.workRequests.rows == old(s.workRequests.rows)
    ensures id.Key? && id.id !in old(s.workRequests.rows) ==> r == Fail(NOT_FOUND, "Work request not found")
    ensures id.Key? ==> s.workRequests.rows == old(s.workRequests.rows) - {id.id}
    ensures id.Key? && id.id in old(s.workRequests.rows) ==> r == Ok(OK, "Work request deleted successfully")
  {
    if id.Malformed? {
      return Fail(BAD_REQUEST, "Invalid work request ID");
    }
    var removed := s.workRequests.Delete(id.id);
    if removed.None? {
      r := Fail(NOT_FOUND, "Work request not found");
    } else {
      r := Ok(OK, "Work request deleted successfully");
    }
  }

  /** The summary's three groupings and the total. */
  datatype Summary = Summary(total: nat, byStatus: seq<Tally<string>>, byUrgency: seq<Tally<string>>, byServiceType: seq<Tally<string>>)

  /** The value of a grouped field, as stored, for each document in natural order. */
  function StatusKeys(rows: seq<Doc<WorkRequest>>): seq<string>
  {
    Project(rows, (d: Doc<WorkRequest>) => StatusName(d.data.status))
  }

  function UrgencyKeys(rows: seq<Doc<WorkRequest>>): seq<string>
  {
    Project(rows, (d: Doc<WorkRequest>) => UrgencyName(d.data.urgencyLevel))
  }

  function PreferenceKeys(rows: seq<Doc<WorkRequest>>): seq<string>
  {
    Project(rows, (d: Doc<WorkRequest>) => PreferenceName(d.data.servicePreference))
  }

  /** One grouping of `keys`: each key present once, counted exactly, and the counts adding up to the total. */
  ghost predicate Groups(g: seq<Tally<string>>, keys: seq<string>)
  {
    && TallySum(g) == |keys|
    && (forall i, j :: 0 <= i < j < |g| ==> g[i].key != g[j].key)
    && (forall k :: (exists i :: 0 <= i < |g| && g[i].key == k) <==> k in keys)
    && (forall i :: 0 <= i < |g| ==> g[i].count == multiset(keys)[g[i].key])
  }

  method Group(keys: seq<string>) returns (g: seq<Tally<string>>)
    ensures Groups(g, keys)
  {
    GroupCountSpec(keys);
    g := GroupCount(keys);
  }

  /** GET /stats/summary : each grouping accounts for every request once, so each adds up to the total. */
  method Stats(s: Store) returns (r: Reply<Summary>)
    requires s.Valid()
    ensures r.Ok? && r.code == OK && r.body.total == |s.workRequests.Records()|
    ensures Groups(r.body.byStatus, StatusKeys(s.workRequests.Records()))
    ensures Groups(r.body.byUrgency, UrgencyKeys(s.workRequests.Records()))
    ensures Groups(r.body.byServiceType, PreferenceKeys(s.workRequests.Records()))
  {
    var records := s.workRequests.Records();
    var byStatus := Group(StatusKeys(records));
    var byUrgency := Group(UrgencyKeys(records));
    var byService := Group(PreferenceKeys(records));
    r := Ok(OK, Summary(|records|, byStatus, byUrgency, byService));
  }
}

=== FILE: wrappers.dfy ===
/** Optional values, as used for nullable fields and lookups that may find nothing. */
module Wrappers {
  datatype Option<+T> = None | Some(value: T)
  {
    function GetOr(default: T): T
    {
      match this
      case Some(v) => v
      case None => default
    }
  }
}
